=== FILE: README.md ===
# Bieg Wsteczny / Aether: the debate lifecycle, its scheduler and its pure utilities

This project is a Dafny model of the core of the repository, which has two halves.

**The "Bieg Wsteczny" debate service.** A report about an absurd piece of bureaucracy
becomes an AI-generated debate:
- a header in the `debates` table;
- a tree of persona replies in the `messages` table.

An autonomous worker runs once a day. It discovers new topics on the web, files them as
pending `[SCOUT]` reports and turns those reports into debates. Two React views consume the
tables:
- the dashboard, with realtime updates, votes and paging;
- the archive, with search, tag filter and statistics.

**The local "Aether" assistant.** It contributes several pure utilities:
- the knowledge-base chunker;
- the `.env` reader and writer;
- the SQLite service;
- the agent's context and file tools;
- the Telegram bridge.

Every external effect is an input of the model:
- Supabase and SQLite tables are immutable sequences of rows (`Store.Db`, `LocalDb.Db`).
- A query's first row is the first matching element.
- Ids minted by the database or by `uuid4`, and clock readings, are parameters.
- The LLM generator is a function from prompt to `Result`.
- The web search answer, the embedding service and the vector store are given per call.
- Store calls that can raise carry a fault input naming the call that raises and its error. These cover:
  - the debate run's writes, including the error handler's own summary update (`Orchestrator.Faults`);
  - identity resolution (`Orchestrator.ResolveFault`);
  - the report insert of the API (`ReportsApi.CreateReport`'s `insertFault`) and of the scout mission (`ScoutService.MissionInputs`'s `insertFault`);
  - the report delete cascade (`ReportsApi.DeleteFault`);
  - the settings table, whose reads and writes fail silently when it is unreachable (`Settings.SettingsTable`'s `online`);
  - the dashboard's page fetch (`Dashboard.Fetch`'s `fault`);
  - the ingest store, chunk by chunk. A failed Qdrant upsert is swallowed by `DatabaseService` and only loses its chunk (`Ingest.ProcessContent`'s `upsertFails`). An `add_document_chunk` that raises ends the run (`storeRaises`); the `DatabaseService` never does this, but any other `db` object passed in may;
  - the `.env` rewrite (`EnvConfig.WriteFault`);
  - Telegram replies (`TelegramBridge.SendFault`).
- SQLite constraint failures are not inputs. They follow from the table contents: a duplicate session id, and a concept name whose case variant already holds its `uuid5` id (which also ends `LocalDb.AddConceptLink` part-way).
- Every other store call is assumed to succeed: the worker's select of pending scout reports, the archive's selects, and the SQLite statements apart from the constraint failures above. The dashboard's vote update needs no fault: the code never reads the `error` it answers, so the screen changes either way.

Python exceptions that the code catches are modelled as the values the handler produces. Exceptions
it does not catch are `Err` results.

Modules follow the source files:

| module | source |
|---|---|
| `Store`, `Orchestrator`, `ThreadBuilder` | `example/backend/app/services/orchestrator_service.py` |
| `ReportsApi` | `example/backend/app/api/endpoints/reports.py` |
| `Worker`, `Settings` | `example/backend/worker.py`, `example/backend/app/services/settings.py` |
| `ScoutSearch`, `ScoutService` | `example/backend/app/agents/scout.py`, `example/backend/app/services/scout_service.py` |
| `DebateSchema`, `Tags` | `example/backend/app/models/debate.py`, `example/backend/app/api/endpoints/tags.py` |
| `Dashboard`, `Archive`, `ClientThreads` | `DashboardView.tsx`, `ArchiveView.tsx` |
| `Ingest`, `EnvConfig`, `LocalDb`, `AgentTools`, `TelegramBridge` | `backend/ingest.py`, `backend/config.py`, `backend/local_db.py`, `backend/agent.py`, `backend/telegram_bridge.py` |
| `Wrappers`, `Seqs`, `Text` | shared helpers: `Option`/`Result`, filtering, Python/JS string functions |

## Model

| member | source | states |
|---|---|---|
| ThreadBuilder.ParentPosition | example/backend/app/services/orchestrator_service.py:66-73 | The parent position of reply `i` is the generator's `parent_index` when it lies in `[0, i)`, otherwise `i-1`. The first reply has none. Every parent position is strictly earlier. |
| ThreadBuilder.BuildLinks | example/backend/app/services/orchestrator_service.py:61-90 | The builder loop appends exactly one entry per reply to `created`: the inserted id, or `None` for an empty answer. So `len(created) == i` at every step. Each reply's parent is the id created at its parent position. |
| ThreadBuilder.AncestorChain | example/backend/app/services/orchestrator_service.py:66-73 | Following parent positions from any reply visits strictly decreasing positions and always ends at the first reply. The links are acyclic and reach a single root. |
| ThreadBuilder.NoCycle | example/backend/app/services/orchestrator_service.py:66-73 | No reply is its own ancestor: every position after the start of the chain is strictly smaller. |
| ThreadBuilder.ConnectedWhenInsertsSucceed | example/backend/app/services/orchestrator_service.py:66-90 | When every insert returns an id, every reply after the first gets a non-null parent, created at an earlier position. |
| ThreadBuilder.FailedParentInsertOrphans | example/backend/app/services/orchestrator_service.py:66-90 | For any reply, the parent link is null exactly when it is the first reply or the insert at its parent position failed (`None` in `created`). Otherwise it is that insert's id. |
| Store.FindReport | example/backend/app/services/orchestrator_service.py:108-111 | The first report row with the id, or `None` exactly when no row has it. |
| Store.LinkedIndex | example/backend/app/services/orchestrator_service.py:115-120 | The position of the first debate whose `external_id` is the report, with no linked debate before it. It is -1 when none is linked. |
| Store.LinkedIndexIs | example/backend/app/services/orchestrator_service.py:115-120 | A linked row with no linked row before it is the one the lookup finds. |
| Store.FindDebateFor | example/backend/app/services/orchestrator_service.py:115-121 | The first debate linked by `external_id`, or `None` exactly when no debate is linked. |
| Store.DeleteMessagesOf | example/backend/app/services/orchestrator_service.py:123 | Deleting by `debate_id` removes exactly that debate's messages. Every other message stays, in its order and as often as before. |
| Store.DeleteDebate | example/backend/app/api/endpoints/reports.py:49 | Deleting by id removes exactly the rows with that id. Every other debate stays, in its order and as often as before. |
| Store.DeleteReport | example/backend/app/api/endpoints/reports.py:51 | Deleting by id removes exactly the rows with that id. Every other report stays, in its order and as often as before. |
| Store.SetReportStatus | example/backend/app/services/orchestrator_service.py:93 | The matching reports get the new status and keep every other column. Other rows are untouched. |
| Store.SetSummary | example/backend/app/services/orchestrator_service.py:103 | The matching debates get the new summary and keep every other column. Other rows are untouched. |
| Store.SetVotes | example/frontend/src/components/views/DashboardView.tsx:59-62 | A vote write changes only `confirmations` and `absurd_score`, and only on the debate with that id. |
| Store.UpsertDebate | example/backend/app/services/orchestrator_service.py:143 | An upsert keyed by id replaces every row with that id in place, or appends the row when none has it. Rows with other ids stay. |
| Orchestrator.ReportPrompt | example/backend/app/services/orchestrator_service.py:145-146 | The prompt starts with the title and description. It ends with the source line exactly when the report's `source_url` is non-empty. |
| Orchestrator.CreateDebateFromReport | example/backend/app/services/orchestrator_service.py:105-149 | A missing report gives `None` and no write. An existing linked debate keeps its id, and only its messages are deleted. Otherwise the minted id is used and no message is touched. The header becomes a `loading` skeleton: `INICJALIZACJA_DEBATY_AI...`, score 0, no tags, `external_id` = the report. Other debates survive. |
| Orchestrator.ResolveIdentity | example/backend/app/services/orchestrator_service.py:105-143 | Identity resolution with one store call that may raise. It raises exactly when that call is reached. Without an error it is the resolution itself. An error leaves reports and debates as they were. Only a raising skeleton upsert after a linked debate's message delete leaves that delete done. |
| Orchestrator.RetryAfterFaultKeepsIdentity | example/backend/app/services/orchestrator_service.py:115-143 | Retrying after a resolution that raised resolves to the same debate id and skeleton, with the same vote count carried over. |
| Orchestrator.SkeletonIsFirstLinked | example/backend/app/services/orchestrator_service.py:115-143 | After identity resolution the first debate linked to the report is exactly the skeleton, carrying the old vote count or 0. |
| Orchestrator.UpsertOverLinked | example/backend/app/services/orchestrator_service.py:115-143 | Upserting a linked row under the id of the first linked debate makes that row the first linked one. |
| Orchestrator.ReplacedStaysFirst | example/backend/app/services/orchestrator_service.py:115-143 | Replacing the rows that share the first linked debate's id by a linked row makes that row the first linked one. |
| Orchestrator.UpsertNewLinked | example/backend/app/services/orchestrator_service.py:124-143 | With no linked debate, the appended skeleton becomes the first linked one. |
| Orchestrator.VoteKeepsFirstLinked | example/frontend/src/components/views/DashboardView.tsx:59-71 | A vote on the first linked debate leaves it first and gives it the new count and score. |
| Orchestrator.RegenerationKeepsVotes | example/backend/app/services/orchestrator_service.py:117-138 | Processing a report, voting, then processing it again reuses the same debate id. The votes survive, while the score the votes added is reset to 0. |
| Orchestrator.ScoutResearch | example/backend/app/services/orchestrator_service.py:13-27 | The research text always starts with the scout banner. It lists sources exactly when the search answered with a first result that has a url. It is then the header followed by exactly the entries for the first three results, numbered from 1, each with title, url and the content's first 200 characters. Otherwise it is the "no external sources" text. A raised search becomes the network-error text. It never fails. |
| Orchestrator.ResearchListsTopThree | example/backend/app/services/orchestrator_service.py:17-23 | Each of the first three results appears in the research text as its numbered entry. |
| Orchestrator.SentinelGivesNoSources | example/backend/app/services/orchestrator_service.py:16-24 | Each fallback answer of the search gives the "no external sources" text: no client, an exception, or every item dropped. |
| Orchestrator.EnrichedPrompt | example/backend/app/services/orchestrator_service.py:32-45 | The prompt starts with the base prompt. Retrieval context that succeeded and is non-empty follows after a blank line. A failed retrieval is swallowed. With web research the research text comes last. |
| Orchestrator.Stream | example/backend/app/services/orchestrator_service.py:63-90 | The reply loop only extends the list of created ids and never passes the number of replies. |
| Orchestrator.StreamCreated | example/backend/app/services/orchestrator_service.py:63-90 | The loop appends one entry per attempted insert: the id, or `None` for an empty answer. It stops exactly at the first insert that raised, with that error, and otherwise runs through every reply. |
| Orchestrator.StreamIds | example/backend/app/services/orchestrator_service.py:85-90 | Every entry the loop adds is its own insert's id, and no insert it passed raised. |
| Orchestrator.StreamContinues | example/backend/app/services/orchestrator_service.py:85-90 | A step whose insert did not raise hands over to the rest of the loop with one more entry. |
| Orchestrator.StreamHalts | example/backend/app/services/orchestrator_service.py:63-90 | At the end of the replies, or at a raising insert, nothing more is added. |
| Orchestrator.StreamStops | example/backend/app/services/orchestrator_service.py:63-103 | The loop ends with an error exactly when an insert raised, and the error is that insert's. |
| Orchestrator.StreamRows | example/backend/app/services/orchestrator_service.py:66-90 | The stored rows are the reference rows: one per successful insert, with the parent the builder computes from the ids created so far. |
| Orchestrator.StreamStep | example/backend/app/services/orchestrator_service.py:66-73 | A reply's parent depends only on the ids created before it. Ids appended later do not change it. |
| Orchestrator.RowsCount | example/backend/app/services/orchestrator_service.py:85-90 | The reference rows number exactly the successful inserts. |
| Orchestrator.RowsBelong | example/backend/app/services/orchestrator_service.py:75-76 | Every stored reply carries the debate's id. |
| Orchestrator.ProcessDebateStream | example/backend/app/services/orchestrator_service.py:29-103 | The run completes exactly when generation, the header update, every reply insert and the approval succeed. Only a completed run approves the report, and a run that does not complete leaves the reports unchanged. A failed run writes `BŁĄD_SYSTEMU: <err>` into the summary. When that update raises too, the run crashes with the update's error. Other debates are untouched. Messages are only appended, all under the debate's id. |
| Orchestrator.CompletedRunStoresThread | example/backend/app/services/orchestrator_service.py:51-93 | A completed run stores one message per successful insert, as the reference rows, and leaves the header active with the generated summary, score and tags. |
| Orchestrator.InsertFailureLeavesActiveHeader | example/backend/app/services/orchestrator_service.py:51-103 | An insert that raises ends the run without completing it, with the reports unchanged. The run fails unless the handler's own update raises. Either way the header is already `active`, so `active` does not mean the thread is complete. |
| Orchestrator.HandlerFaultSkipsSummary | example/backend/app/services/orchestrator_service.py:101-103 | A raising summary update in the error handler changes only the outcome and the summary. The run crashes with both errors, and reports and messages are the same as when the update succeeds. |
| ReportsApi.CreateReport | example/backend/app/api/endpoints/reports.py:12-31 | A report is stored exactly when title and content are non-empty and the insert succeeds. It is appended as `pending`/`uncategorized` with the submitted fields. Otherwise nothing changes and the answer is 500, even for the validation error. |
| ReportsApi.CreatedReportIsProcessable | example/backend/app/api/endpoints/reports.py:12-83 | A report the API stored is found by its id, is `pending`, and processing it schedules a run for it. |
| ReportsApi.DeleteReportCascade | example/backend/app/api/endpoints/reports.py:42-54 | The answer is `deleted` exactly when no store call raised, and 500 otherwise. A success removes the report and, when a debate is linked, the first such debate and its messages; everything else stays. A failure keeps the report. The calls before the one that raised stay done: nothing when the lookup or the message delete raised, only the messages when the debate delete raised, messages and debate when the report delete raised. Without a link, debates and messages are untouched. |
| ReportsApi.RetriedDeleteCompletes | example/backend/app/api/endpoints/reports.py:42-54 | After a failed delete, a retry that goes through removes the report, the debate the first attempt targeted, and that debate's messages. |
| ReportsApi.LeftoversStayGone | example/backend/app/api/endpoints/reports.py:45-51 | A delete that goes through does not bring back a debate or messages that were already gone. |
| ReportsApi.ProcessReport | example/backend/app/api/endpoints/reports.py:56-83 | A run is scheduled exactly when the report exists and no store call of identity resolution raised. It is then scheduled with the caller's `use_tavily`, after the resolution's writes, answering `initiated`. Otherwise the answer is 500 and debates stay as they were. A missing report changes nothing. A raising skeleton upsert keeps the message delete done before it. |
| ReportsApi.DeleteAfterProcessLeavesNoThread | example/backend/app/api/endpoints/reports.py:45-51 | Deleting a processed report removes the debate the processing resolved to, along with all of its messages. |
| Settings.GetSettings | example/backend/app/services/settings.py:4-25 | The stored row when it can be read. Otherwise the defaults: enabled, no last run, `0 6 * * *`, `success`. |
| Settings.UpdateRow | example/backend/app/services/settings.py:38-63 | An update by `id = 1` changes the row when it exists and the table is reachable. Otherwise it is a silent no-op. |
| Settings.UpdateLastRun | example/backend/app/services/settings.py:42-52 | Only `last_run`, `last_run_status` and `updated_at` change. |
| Settings.ToggleWorker | example/backend/app/services/settings.py:54-63 | Only `worker_enabled` and `updated_at` change. |
| Settings.SaveSettings | example/backend/app/services/settings.py:27-40 | All fields are written, each missing one as its default. A missing `last_run` is written as null. |
| Settings.SaveWhatWasRead | example/backend/app/services/settings.py:4-38 | Saving the settings that were just read back changes nothing but `updated_at`. |
| Worker.CronIgnored | example/backend/worker.py:66-84 | The gate never consults the stored cron expression. |
| Worker.Ids | example/backend/worker.py:45-47 | The ids of the rows, position by position. |
| Worker.SelectedIds | example/backend/worker.py:40 | The batch takes exactly the ids of the reports that are `pending` and whose title contains `[SCOUT]` in any case. |
| Worker.ProcessOne | example/backend/worker.py:45-49 | Processing one report changes no other report's row. An exception escapes exactly when a store call of identity resolution raised, or the run's error handler raised. After a resolution exception the tables are what resolution committed. |
| Worker.ProcessFromKeepsOthers | example/backend/worker.py:45-52 | The batch changes no report outside the selection. |
| Worker.AutoProcessReports | example/backend/worker.py:35-52 | The loop processes the selected reports one at a time, in order, without web research. The first report whose processing raises ends the batch, keeping what was committed. It equals the reference batch and leaves unselected reports alone. |
| Worker.RaiseEndsBatch | example/backend/worker.py:45-52 | When the first report raises, the batch ends with what that report committed. |
| Worker.Tick | example/backend/worker.py:57-103 | A tick runs a mission exactly when the gate is open: enabled, at or after 06:00, and `last_run` absent or on an earlier day. Otherwise nothing changes. A mission ends with `last_run` set to the clock reading taken after the mission and the batch, and status `success (auto)`. |
| Worker.DisabledNeverRuns | example/backend/worker.py:61-64 | With `worker_enabled` false no tick runs a mission. |
| Worker.NoSecondRunSameDay | example/backend/worker.py:80-98 | After a mission, no later tick of the same day runs another, as long as the stamp is not dated before the tick. |
| Worker.NextDayRuns | example/backend/worker.py:73-81 | On a day after the one the last run was stamped with, at or after 06:00, the enabled worker runs again. |
| Worker.LateFinishSkipsNextDay | example/backend/worker.py:86-98 | A run that ends after midnight is stamped with the new day, so that day's 06:00 tick finds the gate closed. |
| Worker.AtMostOneMissionPerDay | example/backend/worker.py:57-103 | Over any sequence of ticks within one day at most one mission runs. This assumes the settings row exists and is reachable, and no stamp is dated before the day. |
| Worker.NoMissionAfterStamp | example/backend/worker.py:73-81 | Once today's run is stamped, no tick of the day runs. |
| Worker.MissingRowRunsEveryTick | example/backend/worker.py:83-98 | Without a settings row the gate never closes: the defaults have no `last_run` and the stamp has no row to land in, so every tick after 06:00 runs a mission. |
| Worker.ManualMissionClosesGate | example/backend/app/services/scout_service.py:39-81 | A mission started by hand stamps `last_run` too, so the worker does not run on the day the stamp was written, or before it. A mission that ends after midnight therefore also closes the next morning's run. |
| ScoutSearch.YearString | example/backend/app/agents/scout.py:68 | `str(year)` for a year of this century is four characters starting with `20`. |
| ScoutSearch.ToResult | example/backend/app/agents/scout.py:71-76 | A missing title becomes `Bez tytułu`, and a missing url or content becomes empty. A missing score becomes 0. The content is cut to its first 1000 characters: kept whole when shorter, exactly 1000 long otherwise. |
| ScoutSearch.ToResults | example/backend/app/agents/scout.py:65-76 | Each provider item is converted in place, keeping order. |
| ScoutSearch.Kept | example/backend/app/agents/scout.py:64-76 | Every kept result is the conversion of a provider item that is not stale, and every item that is not stale is kept, converted. There are at most as many results as items, each with at most 1000 characters of content. |
| ScoutSearch.KeptAppend | example/backend/app/agents/scout.py:64-76 | The results for two lists one after the other are the results of the first followed by those of the second, so results keep the provider's order. |
| ScoutSearch.KeptOne | example/backend/app/agents/scout.py:64-76 | A single item gives its result exactly when it is not stale. With `KeptAppend` this fixes the results of every list. |
| ScoutSearch.TavilySearch | example/backend/app/agents/scout.py:39-94 | Without a client the answer is one `[BRAK DOSTĘPU DO SIECI]` sentinel. An exception gives one `[BŁĄD WYSZUKIWANIA]` sentinel. Otherwise the kept items come in order, or one `[BRAK NOWYCH SYGNAŁÓW]` sentinel when none is left. The answer is never empty, and every sentinel has an empty url. |
| ScoutSearch.NoYearWithoutLeadingTwo | example/backend/app/agents/scout.py:68 | A text with no `2` early enough to start a year mentions none of 2010–2022. |
| ScoutSearch.KeptSingle | example/backend/app/agents/scout.py:65-76 | A single item that passes the year filter is answered, converted. |
| ScoutSearch.StaleIfEitherMentions | example/backend/app/agents/scout.py:67-69 | An old year in the lower-cased content, or in the lower-cased title, drops the item. |
| ScoutSearch.YearAt | example/backend/app/agents/scout.py:68 | A year 2010–2022 spelled out anywhere in the text marks it as mentioning an old year. |
| ScoutSearch.FreshItemExample | example/backend/app/agents/scout.py:71-76 | An item without old years is kept, with its missing title replaced by `Bez tytułu` and its missing score by 0. |
| ScoutSearch.YearAcrossFields | example/backend/app/agents/scout.py:67-68 | Content and title are glued before the test, so a year split across them ("x 20" + "15") also drops the item, though neither field mentions one. |
| ScoutService.ToFindings | example/backend/app/services/scout_service.py:30-36 | Each kept result becomes one finding, in order. |
| ScoutService.Findings | example/backend/app/services/scout_service.py:30-36 | Every finding comes from a result with a non-empty url and no `[BRAK` in the title, and every such result gives one, with content cut to 300 characters. There are none exactly when no result qualifies. The first finding is the first qualifying result's. |
| ScoutService.FindingsShape | example/backend/app/services/scout_service.py:30-36 | The findings are real results cut to size. There are none exactly when no result is real, and the first is the first real result's. |
| ScoutService.FindingsAppend | example/backend/app/services/scout_service.py:30-36 | The findings of two result lists one after the other are those of the first followed by those of the second, so findings keep the search's order. |
| ScoutService.FindingsOne | example/backend/app/services/scout_service.py:30-36 | A single result gives its finding exactly when it qualifies. With `FindingsAppend` this fixes the findings of every search. |
| ScoutService.FindingsTrace | example/backend/app/services/scout_service.py:30-36 | Each finding comes from a qualifying result, and each qualifying result gives a finding. |
| ScoutService.SentinelsGiveNoFindings | example/backend/app/services/scout_service.py:29-36 | None of the search's fallback sentinels becomes a finding. |
| ScoutService.ExecuteScoutMission | example/backend/app/services/scout_service.py:7-87 | The mission stamps `last_run` as running first. Its closing stamp carries the clock reading taken once the search and the agent are done, so a mission that ends after midnight is stamped with the new day. No findings gives `empty` with no insert. A failure of the agent or the insert gives `error: <msg>`, findings 0 and no insert. Otherwise exactly one report is appended: `[SCOUT] `+title, `pending`, `INTERNET`, and the agent's url or else the first finding's. `findings` is the number of findings. It never raises. |
| ScoutService.ScoutReportIsSelectable | example/backend/app/services/scout_service.py:60-66 | The report a mission files is one the worker's batch selects: `pending`, with `[scout]` in its lower-cased title. |
| DebateSchema.ParseAgentId | example/backend/app/models/debate.py:8-11 | Validation accepts a persona id exactly when it is one of the ten spellings, and gives back the persona that prints as it. |
| DebateSchema.ParseMessageType | example/backend/app/models/debate.py:13-16 | Validation accepts a category exactly when it is one of the ten spellings, and gives back the category that prints as it. |
| DebateSchema.AgentNamesDistinct | example/backend/app/models/debate.py:8-11 | There are exactly ten persona ids with pairwise distinct spellings. |
| DebateSchema.AgentIdsClosed | example/backend/app/models/debate.py:8-11 | Printing a persona id then validating it gives it back, and every persona is listed. |
| DebateSchema.EarlyAgentIdsClosed | example/backend/app/models/debate.py:9 | The round trip and listing for the first five personas. |
| DebateSchema.LateAgentIdsClosed | example/backend/app/models/debate.py:10 | The round trip and listing for the last five personas. |
| DebateSchema.MessageTypeNamesDistinct | example/backend/app/models/debate.py:13-16 | There are exactly ten categories with pairwise distinct spellings. |
| DebateSchema.MessageTypesClosed | example/backend/app/models/debate.py:13-16 | Printing a category then validating it gives it back, and every category is listed. |
| DebateSchema.EarlyMessageTypesClosed | example/backend/app/models/debate.py:14 | The round trip and listing for the first five categories. |
| DebateSchema.LateMessageTypesClosed | example/backend/app/models/debate.py:15 | The round trip and listing for the last five categories. |
| DebateSchema.ValidateMessage | example/backend/app/models/debate.py:7-17 | A reply validates exactly when both literals are in their vocabularies. Content and `parent_index` pass through with no range check. |
| DebateSchema.ValidateMessages | example/backend/app/models/debate.py:22 | A list of replies validates exactly when every reply does. The result is position by position the validated replies. |
| DebateSchema.BadTail | example/backend/app/models/debate.py:22 | One invalid reply in the tail rejects the list. |
| DebateSchema.GoodCons | example/backend/app/models/debate.py:22 | A validated head before a validated tail validates the whole list. |
| DebateSchema.ValidateResult | example/backend/app/models/debate.py:19-23 | A generated result is accepted exactly when every reply validates. Summary, score and tags pass through with no bound or vocabulary check. |
| DebateSchema.NewMessage | example/backend/app/models/debate.py:27-36 | A `Message` built without the defaulted fields has no id, debate or parent, type `text`, and the creation time as its timestamp. |
| DebateSchema.NewDebate | example/backend/app/models/debate.py:38-46 | A `Debate` built without the defaulted fields is `active`, scores 0, has no summary, no tags and no messages. |
| Tags.TrendingTags | example/backend/app/api/endpoints/tags.py:5-15 | The endpoint answers a constant list of 25 pairwise distinct tags, the same set as the generator's vocabulary. It has no input. |
| Dashboard.Vote | example/frontend/src/components/views/DashboardView.tsx:49-82 | A repeated vote changes nothing and writes nothing. A first vote writes count+1 and score+1, taken from the first card with the id, or 1 and 1 when none is on screen. It applies them to every card with the id, adds the id to the voted set, and leaves other cards and all messages alone. |
| Dashboard.VoteOnce | example/frontend/src/components/views/DashboardView.tsx:50 | Voting twice from one browser has the effect of voting once. |
| Dashboard.VoteAddsOne | example/frontend/src/components/views/DashboardView.tsx:54-71 | A first vote raises the card's count and score by exactly one. |
| Dashboard.Apply | example/frontend/src/components/views/DashboardView.tsx:158-185 | Realtime events: an inserted debate goes on top with no messages. An update replaces the row of every card with the id but keeps its messages. A delete removes exactly the cards with the id, and keeps the other cards in order and as often as before. A new message is appended only to its own debate's card, and only when the card lacks that id. |
| Dashboard.MessageInsertIdempotent | example/frontend/src/components/views/DashboardView.tsx:178-185 | A message event delivered twice has the effect of one. |
| Dashboard.HeaderEventsIdempotent | example/frontend/src/components/views/DashboardView.tsx:164-171 | Update and delete events delivered twice have the effect of one. |
| Dashboard.MessageInsertKeepsIdsDistinct | example/frontend/src/components/views/DashboardView.tsx:180-182 | The de-duplication keeps every card's message ids distinct. |
| Dashboard.Page | example/frontend/src/components/views/DashboardView.tsx:89-93 | `.range(offset, offset+4)` yields the rows from the offset, at most five, and fewer only at the end. |
| Dashboard.Merge | example/frontend/src/components/views/DashboardView.tsx:118-121 | Each debate of the page becomes a card holding exactly that debate's messages, in order. |
| Dashboard.Headers | example/frontend/src/components/views/DashboardView.tsx:118-121 | The rows shown by the cards, position by position. |
| Dashboard.Fetch | example/frontend/src/components/views/DashboardView.tsx:84-139 | A failed read changes only the loading flag. A short page ends the feed. A non-empty page is appended or replaces the cards. An empty page leaves the cards as they were, even on a replacing load. |
| Dashboard.FetchReplacing | example/frontend/src/components/views/DashboardView.tsx:124-128 | The corrected fetch: a replacing load always replaces the cards, even with an empty page. Other loads are unchanged. |
| Dashboard.LoadMore | example/frontend/src/components/views/DashboardView.tsx:141-145 | A load while another is under way, or after the feed ended, changes nothing. |
| Dashboard.CarriesAppend | example/frontend/src/components/views/DashboardView.tsx:125 | Appending cards that carry their own messages keeps that true. |
| Dashboard.ReloadShowsFirstPage | example/frontend/src/components/views/DashboardView.tsx:147-150 | The load on mount or filter change shows exactly the first page, whatever was on screen. |
| Dashboard.HeadersAppend | example/frontend/src/components/views/DashboardView.tsx:125 | The rows of appended cards follow the rows already shown. |
| Dashboard.HeadersOfMerge | example/frontend/src/components/views/DashboardView.tsx:118-121 | Merging keeps the page's rows in order. |
| Dashboard.LoadMoreShowsNextPage | example/frontend/src/components/views/DashboardView.tsx:141-145 | After `c` full loads, one more shows the first `c+1` pages. The feed stays open exactly when all of them were full. |
| Dashboard.NextPageAppended | example/frontend/src/components/views/DashboardView.tsx:141-145 | An open, idle feed with a non-empty next page shows one page more after the load. |
| Dashboard.NextPageShows | example/frontend/src/components/views/DashboardView.tsx:105-125 | The cards of `c` pages followed by the next page show `c+1` pages. The feed is open exactly when that page was full. |
| Dashboard.LoadMoreAppends | example/frontend/src/components/views/DashboardView.tsx:141-145 | An open, idle feed loads the page at `offset = number of cards` and appends it. The feed stays open exactly when the page was full. |
| Dashboard.MergeCarries | example/frontend/src/components/views/DashboardView.tsx:118-121 | Merged cards carry their own debates' messages. |
| Dashboard.NextPageCounts | example/frontend/src/components/views/DashboardView.tsx:105-107 | The next page is full exactly when the rows reach past it, and it ends where `c+1` pages end. |
| Dashboard.NextHeaders | example/frontend/src/components/views/DashboardView.tsx:125 | Cards showing the first `n` rows, followed by the page from `n`, show the first rows up to the page's end. |
| Dashboard.PagingShowsPrefix | example/frontend/src/components/views/DashboardView.tsx:84-150 | Paging neither skips nor repeats a debate. After a reload and `n` loads, the cards are exactly the first `min(5(n+1), total)` debates in order, each with its own messages. The feed is open exactly when every page was full. |
| Dashboard.EmptyReloadKeepsStaleCards | example/frontend/src/components/views/DashboardView.tsx:109-130 | As written, switching to a tag with no debates keeps the previous tag's cards on screen. The corrected reload empties the feed. |
| Archive.LessIrreflexive | example/frontend/src/components/views/ArchiveView.tsx:64 | The sort's string order is irreflexive. |
| Archive.LessTransitive | example/frontend/src/components/views/ArchiveView.tsx:64 | The sort's string order is transitive. |
| Archive.LessTotal | example/frontend/src/components/views/ArchiveView.tsx:64 | Any two distinct strings are ordered. |
| Archive.LessAsymmetric | example/frontend/src/components/views/ArchiveView.tsx:64 | The sort's string order is asymmetric. |
| Archive.InsertUnique | example/frontend/src/components/views/ArchiveView.tsx:62-64 | Adding a tag to the sorted set keeps it strictly sorted, with exactly the old tags plus the new one. |
| Archive.AllTagsList | example/frontend/src/components/views/ArchiveView.tsx:63 | Collects exactly the tags that some debate carries. Missing tag lists are skipped. |
| Archive.SortedSetOf | example/frontend/src/components/views/ArchiveView.tsx:64 | `Array.from(new Set(..)).sort()` is strictly sorted and has exactly the given elements. |
| Archive.AllTags | example/frontend/src/components/views/ArchiveView.tsx:61-64 | `allTags` is strictly sorted, without duplicates, and holds exactly the tags some debate carries. |
| Archive.SortedUnique | example/frontend/src/components/views/ArchiveView.tsx:64 | Two strictly sorted lists with the same elements are equal. |
| Archive.EmptyTogether | example/frontend/src/components/views/ArchiveView.tsx:64 | Lists with the same elements are empty together. |
| Archive.AllTagsCanonical | example/frontend/src/components/views/ArchiveView.tsx:61-64 | The tag list depends only on which tags occur, not on the debates' order or repetition. |
| Archive.Round | example/frontend/src/components/views/ArchiveView.tsx:70-71 | `Math.round` gives the integer within half of the value, halves rounded up. |
| Archive.ArchiveStats | example/frontend/src/components/views/ArchiveView.tsx:66-72 | `totalDebates` is the row count and `totalScore` the rounded sum, with missing scores read as 0. `avgScore` is 0 for an empty archive and the rounded mean otherwise. |
| Archive.TotalBounded | example/frontend/src/components/views/ArchiveView.tsx:67 | The total lies between `n` times the least score and `n` times the greatest. |
| Archive.AverageOnScale | example/frontend/src/components/views/ArchiveView.tsx:71 | With every score in 0..100, the shown average is in 0..100. |
| Archive.FilterArchive | example/frontend/src/components/views/ArchiveView.tsx:115-131 | The two filter stages keep exactly the debates, in order, that match both tests. The search test: a blank (trimmed) query, or the lower-cased query in the lower-cased title or summary. The tag test: no tag selected, or the debate carries it. |
| Archive.StagesAgree | example/frontend/src/components/views/ArchiveView.tsx:115-131 | Search stage then tag stage equals one filter by both tests. |
| Archive.FilterStages | example/frontend/src/components/views/ArchiveView.tsx:120-127 | Filtering by one test, then another, is filtering by both. |
| Archive.BlankFilterKeepsAll | example/frontend/src/components/views/ArchiveView.tsx:116-118 | A blank query and no tag show the whole archive in order. |
| Archive.TagNarrows | example/frontend/src/components/views/ArchiveView.tsx:126-128 | Selecting a tag only ever removes debates from the result. |
| ClientThreads.InsertByTime | example/frontend/src/components/views/DashboardView.tsx:384-386 | Inserting a message into a list sorted by timestamp keeps it sorted, and it is a permutation of the list plus the message. |
| ClientThreads.BoundedBelow | example/frontend/src/components/views/DashboardView.tsx:384-386 | A permutation of messages all stamped no earlier than a bound stays above the bound. |
| ClientThreads.InsertKeepsTies | example/frontend/src/components/views/DashboardView.tsx:384-386 | Insertion puts a message after every message stamped no later, so same-instant messages keep their arrival order. |
| ClientThreads.FilterNone | example/frontend/src/components/views/DashboardView.tsx:384-386 | Filtering by a test no element passes gives nothing. |
| ClientThreads.SortByTime | example/frontend/src/components/views/DashboardView.tsx:384-386 | The sort by timestamp yields a sorted permutation of the messages. |
| ClientThreads.SortIsStable | example/frontend/src/components/views/DashboardView.tsx:384-386 | The sort is stable: the messages of each instant keep their order. |
| ClientThreads.IdSet | example/frontend/src/components/views/DashboardView.tsx:388 | `messageMap`'s keys are exactly the ids of the sorted messages. |
| ClientThreads.ChildrenOfAppend | example/frontend/src/components/views/DashboardView.tsx:393-396 | One more message extends a parent's children by it exactly when it hangs under that parent. |
| ClientThreads.RootsOfAppend | example/frontend/src/components/views/DashboardView.tsx:397-399 | One more message extends the roots by it exactly when it is a root. |
| ClientThreads.GroupThread | example/frontend/src/components/views/DashboardView.tsx:380-400 | The grouping loop yields the sorted list, the roots in sorted order, and per parent id the children in sorted order. The archive runs the same loop at lines 594-614 of ArchiveView.tsx. |
| ClientThreads.GroupStep | example/frontend/src/components/views/DashboardView.tsx:392-400 | One turn of the loop: a root joins the roots, a child joins its own parent's list. |
| ClientThreads.AddChild | example/frontend/src/components/views/DashboardView.tsx:393-396 | A child is appended to its parent's list, and no other list changes. |
| ClientThreads.NoChildStep | example/frontend/src/components/views/DashboardView.tsx:397-399 | A root leaves every parent's list as it was. |
| ClientThreads.Partition | example/frontend/src/components/views/DashboardView.tsx:392-400 | Every message lands in exactly one place. It is a root exactly when its parent id is null, empty or missing from the set. Otherwise it is under its own parent and no other. |
| ClientThreads.RootsAreParentless | example/frontend/src/components/views/DashboardView.tsx:392-400 | When every stored parent link names a message of the thread, the roots are exactly the messages without a parent. |
| ClientThreads.DanglingParentIsRoot | example/frontend/src/components/views/DashboardView.tsx:393 | A parent id that names no message of the thread puts the message among the roots. |
| ClientThreads.BandOf | example/frontend/src/components/views/DashboardView.tsx:480 | The band is critical exactly at 71 or more, low exactly below 31, and the middle band otherwise. |
| ClientThreads.BandMonotone | example/frontend/src/components/views/DashboardView.tsx:480 | A higher score never falls into a lower band. |
| ClientThreads.ColoursFollowBand | example/frontend/src/components/views/ArchiveView.tsx:153-157 | The dashboard's and the archive's colours cut at the same thresholds. Two scores get the same colour in either view exactly when they share a band. |
| ClientThreads.DashboardAgent | example/frontend/src/components/views/DashboardView.tsx:404 | The dashboard looks the id up as it is and draws an unknown id as the scout. |
| ClientThreads.ArchiveAgent | example/frontend/src/components/views/ArchiveView.tsx:159-166 | The archive looks up the lower-cased id. An unknown id is drawn under its own name, in `#888`, without an icon. |
| ClientThreads.PersonasResolve | example/frontend/src/lib/constants.ts:9-79 | Every persona id the generator may emit is known to both views and drawn alike. Its display name is the capitalised id the orchestrator stores as `agent_name`. |
| ClientThreads.ScoutBureaucratResolve | example/frontend/src/lib/constants.ts:10-51 | The same for the scout and the bureaucrat. |
| ClientThreads.LegalistHistorianResolve | example/frontend/src/lib/constants.ts:17-37 | The same for the legalist and the historian. |
| ClientThreads.ModernistAuditorResolve | example/frontend/src/lib/constants.ts:38-79 | The same for the modernist and the auditor. |
| ClientThreads.ShrinkAnalystResolve | example/frontend/src/lib/constants.ts:24-58 | The same for the shrink and the analyst. |
| ClientThreads.EcologistCitizenResolve | example/frontend/src/lib/constants.ts:59-72 | The same for the ecologist and the citizen. |
| ClientThreads.KeyResolves | example/frontend/src/lib/constants.ts:9-79 | A key of the table resolves to its entry in both views, and its display name is the capitalised key. |
| ClientThreads.ArchiveIgnoresCase | example/frontend/src/components/views/ArchiveView.tsx:159-161 | The archive's look-up ignores ASCII case. |
| ClientThreads.UnknownIdsDiffer | example/frontend/src/components/views/ArchiveView.tsx:159-166 | The views disagree on ids the dashboard's case-sensitive look-up misses: for `Auditor` the dashboard falls back to the scout, while the archive lower-cases the id and finds the auditor entry. |
| ClientThreads.StrangerIdsDiffer | example/frontend/src/components/views/ArchiveView.tsx:159-166 | An id neither view knows is shown as the scout on the dashboard, and in the archive under the id itself, in `#888` and without an icon. |
| ClientThreads.UpperUnknown | example/frontend/src/lib/constants.ts:9-79 | The table's keys are lower-case, so an id starting with a capital is unknown. |
| ClientThreads.AuditorLowered | example/frontend/src/components/views/ArchiveView.tsx:160 | Lower-casing `Auditor` gives the table's key `auditor`. |
| Ingest.Slice | backend/ingest.py:24-25 | Python's `text[start:end]`: the characters from `start`, cut at `end` or at the end of the text, and empty when `start` is past either. |
| Ingest.SplitText | backend/ingest.py:14-28 | Chunk `k` is the text from `k*(size-overlap)`, at most `size` long. Every chunk starts inside the text, and the next start would lie past it. No chunks exactly for the empty text. |
| Ingest.FirstChunk | backend/ingest.py:23-25 | The first chunk is the text's first `size` characters, or the whole text when it is shorter. |
| Ingest.ChunksOverlap | backend/ingest.py:24-26 | Neighbouring chunks share `overlap` characters: the tail of chunk `k` past one step is the head of chunk `k+1`. |
| Ingest.Coverage | backend/ingest.py:23-26 | With an overlap in `[0, size)`, every character of the text lies in some chunk. |
| Ingest.RecordsLabelled | backend/ingest.py:39-57 | Each stored record is an embedded chunk with its own text, index, the chunk count and the file name, in chunk order. Every embedded chunk has a record. |
| Ingest.RecordsFaithful | backend/ingest.py:47-57 | The records are labelled faithfully and ordered by chunk index. |
| Ingest.RecordsComplete | backend/ingest.py:39-57 | No embedded chunk is missing a record. |
| Ingest.ProcessContent | backend/ingest.py:30-66 | Chunks with size 1000 and overlap 200. It succeeds exactly when no `add_document_chunk` call raised; a failed upsert the store swallows does not change that. On success it hands over exactly the reference records, and the store keeps those whose upsert went through. On failure both stop at the first raising call. A chunk without an embedding is skipped. |
| Ingest.KeptExactly | backend/database.py:64-89 | The records the vector store holds are exactly the embedded chunks whose upsert went through, each labelled with its own chunk, in chunk order. A swallowed failure loses its chunk and nothing else. |
| EnvConfig.Unquote | backend/config.py:29-30 | One pair of matching outer quotes (`"` or `'`) is removed. Any other value is kept as it is. |
| EnvConfig.EqIndex | backend/config.py:24-25 | A line is cut at its first `=`. The result is -1 when the line has none. |
| EnvConfig.ParseAll | backend/config.py:20-30 | Every line of the file is read by the same one-line rule, position by position. |
| EnvConfig.SettledAppend | backend/config.py:31-32 | A later line setting a key overrides every earlier one. |
| EnvConfig.GetConfig | backend/config.py:6-34 | The result has exactly the five known keys. Each holds the value of the last line that sets it, or else its default (`gemini-3-flash` for `MODEL_OVERRIDE`, empty otherwise). A missing file gives the defaults. |
| EnvConfig.ConfigStep | backend/config.py:31-32 | Reading one more line keeps the configuration equal to the reference reading of the lines so far. |
| EnvConfig.LookupAbsent | backend/config.py:40-51 | A key held by no pair is absent from the dictionary. |
| EnvConfig.LookupAt | backend/config.py:40-51 | With distinct keys, each pair's key looks up its own value. |
| EnvConfig.LookupOther | backend/config.py:54-55 | Overwriting one pair in place leaves every other key's value unchanged. |
| EnvConfig.DictSet | backend/config.py:54-55 | Python's `d[k] = v`: `k` now holds `v` and no other key changes. An existing key keeps its place; a new key goes last. Keys stay distinct. |
| EnvConfig.FromParsed | backend/config.py:40-51 | The dictionary built from read lines has distinct keys. |
| EnvConfig.ReadSettings | backend/config.py:40-51 | `write_config`'s read-back of the existing file keeps every key, known or not, with distinct keys. |
| EnvConfig.FromParsedAgrees | backend/config.py:40-51 | `write_config`'s read-back agrees key by key with `get_config`'s reading: a later line wins. |
| EnvConfig.Merge | backend/config.py:53-55 | Laying the passed values over the read ones keeps the keys distinct. |
| EnvConfig.MergeOverrides | backend/config.py:53-55 | After the merge a passed key holds its passed value, and every other key keeps its value from the file. |
| EnvConfig.MergeKeepsOrder | backend/config.py:53-55 | Keys already in the file keep their positions, and new keys follow. |
| EnvConfig.Serialise | backend/config.py:59-63 | The written file is the comment header followed by one `k="v"` line per key, in dictionary order. |
| EnvConfig.WriteConfig | backend/config.py:36-69 | Reports `True` exactly when nothing raised, and the file then holds the header and the merged pairs. An exception while reading or opening leaves the file as it was. One raised while writing leaves the truncated file holding only the lines written before it, a strict prefix of the full file. |
| EnvConfig.WriteLines | backend/config.py:57-69 | Replacing the file under a fault: `True` exactly when nothing raised. A read or open failure keeps the file, and a failure while writing keeps the lines already written. |
| EnvConfig.FailedWriteLosesKeys | backend/config.py:57-69 | A write that fails before its first line leaves an existing empty file, so every key the file held is lost. |
| EnvConfig.StripNoop | backend/config.py:21 | A line whose ends are not whitespace is its own strip. |
| EnvConfig.StripKeepsFirst | backend/config.py:26 | Stripping keeps a first character that is not whitespace. |
| EnvConfig.HeaderCarriesNothing | backend/config.py:60 | The header line `# Aether Agent Configuration` reads as no pair. |
| EnvConfig.LineReadsBack | backend/config.py:63 | A `k="v"` line with a safe key reads back as exactly `(k, v)`, quotes inside `v` included. |
| EnvConfig.LineStart | backend/config.py:22 | A written line is neither blank nor a comment. |
| EnvConfig.LineIsStripped | backend/config.py:21 | A written line is already stripped. |
| EnvConfig.EqIndexAfterKey | backend/config.py:25 | A written line is cut right after its key. |
| EnvConfig.ParseAt | backend/config.py:24-30 | A stripped non-comment line cut at `i` reads as the stripped key before `i` and the unquoted stripped value after it. |
| EnvConfig.KeyPartBack | backend/config.py:25-26 | The key part of a written line strips back to the key. |
| EnvConfig.ValuePartBack | backend/config.py:28-30 | The value part of a written line unquotes back to the value. |
| EnvConfig.ParsedKeySafe | backend/config.py:44-47 | Every key read from a line without a line break is safe to write back. |
| EnvConfig.PieceChars | backend/config.py:46-47 | A key read from a line holds no `=` and no line break. |
| EnvConfig.FromParsedSafe | backend/config.py:40-51 | The dictionary built from safe keys has only safe keys. |
| EnvConfig.ReadKeysSafe | backend/config.py:40-51 | Every key `write_config` reads back from a file is safe. |
| EnvConfig.MergeSafe | backend/config.py:53-55 | Merging safe passed keys over safe read keys leaves only safe keys. |
| EnvConfig.SerialisedParses | backend/config.py:59-63 | A written file reads back as nothing from the header, then each pair in order. |
| EnvConfig.Written | backend/config.py:59-63 | The read form of a written file: no pair from the header, then each pair in order. |
| EnvConfig.SerialisedAt | backend/config.py:59-63 | Each line of a written file reads back as its pair, and the header as none. |
| EnvConfig.SettledPairs | backend/config.py:31-32 | Reading a written dictionary gives each key the value the dictionary holds. |
| EnvConfig.WriteThenRead | backend/config.py:36-69 | After a successful `write_config`, `get_config` reports for each key the passed value, else the value the file held, else the default. This holds for safe passed keys and values without line breaks. |
| EnvConfig.WriteKeepsOtherKeys | backend/config.py:39-55 | `write_config` keeps every key of the file it was not passed, with the value the file gave it. |
| LocalDb.MetaJson | backend/local_db.py:43 | Metadata is stored exactly when it is present and non-empty. An absent or empty dict stores NULL. |
| LocalDb.CreateSession | backend/local_db.py:21-30 | A fresh id adds one session row with the title, stamped now, and leaves the other tables alone. An id already present fails on the primary key. |
| LocalDb.InsertByRecency | backend/local_db.py:36 | Placing a session into a newest-first list keeps it newest first, with the same rows plus the new one. |
| LocalDb.BoundedAbove | backend/local_db.py:36 | A permutation of sessions all updated no later than a bound stays below it. |
| LocalDb.GetSessions | backend/local_db.py:32-38 | Every session exactly once, newest `updated_at` first. |
| LocalDb.MessagedSessionFirst | backend/local_db.py:50-54 | A session that just received a message, later than every other update, heads the session list with the new time. |
| LocalDb.NewestLeads | backend/local_db.py:36 | In a newest-first listing, a row holding the latest time, when only that session's rows hold it, comes first. |
| LocalDb.MessagesOf | backend/local_db.py:62 | The messages of one session only. |
| LocalDb.GetMessages | backend/local_db.py:58-70 | Exactly the session's messages, each once, oldest first. |
| LocalDb.InsertByCreated | backend/local_db.py:62 | Placing a message into a list in time order keeps it in time order, with the same rows plus the new one. |
| LocalDb.StampedFrom | backend/local_db.py:62 | A permutation of messages all stamped no earlier than a bound stays above it. |
| LocalDb.SortByCreated | backend/local_db.py:62 | `ORDER BY created_at ASC` yields the same rows in time order. |
| LocalDb.InsertLast | backend/local_db.py:62 | A message stamped no earlier than all others is ordered last. |
| LocalDb.SortKeepsChronological | backend/local_db.py:62 | Rows already in time order come out unchanged. |
| LocalDb.RowOrderWhenChronological | backend/local_db.py:58-70 | When rows were stored in time order, `get_messages` is the session's rows in storage order. |
| LocalDb.ChronologicalFilter | backend/local_db.py:62 | Selecting one session's rows from a table in time order keeps them in time order. |
| LocalDb.HeadFirst | backend/local_db.py:62 | No message of a session after the table's first row is older than that row. |
| LocalDb.ConsChronological | backend/local_db.py:62 | A row no later than every row of a time-ordered list can go before it. |
| LocalDb.Touch | backend/local_db.py:51-54 | Exactly the rows with the id get `updated_at = now`. Every other row, and the row count, stay as they were. |
| LocalDb.AddMessage | backend/local_db.py:40-56 | The message is appended with its encoded metadata and time, and its session is touched. The insert has no foreign-key check, so an unknown session id is stored too. The log and the graph are untouched. |
| LocalDb.AddThenGet | backend/local_db.py:40-70 | A message added no earlier than every stored one reads back last in its session, and no other session's messages change. |
| LocalDb.UpdateSessionTitle | backend/local_db.py:72-79 | Exactly the rows with the id get the new title and time. Messages are untouched. |
| LocalDb.DeleteSession | backend/local_db.py:81-86 | Afterwards the id has no session. When it had one, the cascade removes its messages. An unknown id changes nothing, not even messages stored under it. Every other session and its messages are kept. |
| LocalDb.DeleteFacts | backend/local_db.py:84-85 | Removing a session's row and its messages leaves none of either, and keeps every other session with its messages. |
| LocalDb.NoneLeft | backend/local_db.py:84-85 | The cascade leaves no message of the deleted session. |
| LocalDb.FilterOther | backend/local_db.py:84-85 | The cascade leaves every other session's messages as they were. |
| LocalDb.NextLogId | backend/local_db.py:91-93 | The next rowid is above every id in the log. |
| LocalDb.AddLog | backend/local_db.py:88-95 | One entry is appended under the next rowid, keeping the ids ascending. Sessions and messages are untouched. |
| LocalDb.GetLogs | backend/local_db.py:97-103 | The newest `limit` entries, newest first, or all of them for a negative or large limit. Ids descend. |
| LocalDb.LatestLogFirst | backend/local_db.py:88-103 | The line just logged is the first that `get_logs` returns, for any non-zero limit. |
| LocalDb.ConceptNamed | backend/local_db.py:116 | The stored concept with the name, or `None` exactly when no row has it. |
| LocalDb.UpsertConcept | backend/local_db.py:107-123 | It returns the id derived from the lower-cased name. Afterwards the name has a row with the passed type. The description is the passed one, else the stored one. The metadata is the passed metadata's JSON when it is non-empty, else the stored metadata. Other concepts are kept, and names and ids stay unique. It fails exactly when the name is new but a case variant of it holds the id. |
| LocalDb.UpdateKeeps | backend/local_db.py:116-119 | Updating the named row in place keeps the table keyed, finds the new row by name, and keeps every other row. |
| LocalDb.AppendKeeps | backend/local_db.py:113-115 | Appending a row with a fresh name and id keeps the table keyed and finds the row by name. |
| LocalDb.UpsertKeepsDescription | backend/local_db.py:116-119 | An upsert without description or metadata keeps the stored ones. The type is always replaced. |
| LocalDb.CaseVariantClashes | backend/local_db.py:109-120 | Upserting a case variant of a stored name fails: the ids collide, and `ON CONFLICT(name)` does not cover the id. |
| LocalDb.EdgeIndex | backend/local_db.py:135 | The link row with the same source, target and relation, or -1 exactly when there is none. |
| LocalDb.PutEdge | backend/local_db.py:132-137 | A new edge is appended with the passed weight. An existing edge gains 0.1 in place and ignores the passed weight. One row per edge is kept. |
| LocalDb.AddConceptLink | backend/local_db.py:125-138 | Without an error both endpoints exist and the edge is inserted or strengthened. A failing source upsert changes nothing. A failing target upsert leaves the source's upsert committed. The tables stay keyed either way. |
| LocalDb.SourceSurvives | backend/local_db.py:127-128 | Upserting the target keeps the already ensured source. |
| LocalDb.RelinkAddsStep | backend/local_db.py:135 | Linking the same edge twice keeps one row, 0.1 heavier than the first weight. |
| LocalDb.LinkResetsKind | backend/local_db.py:125-128 | As written, linking an already stored concept resets its type to `general`. |
| LocalDb.EnsureConcept | backend/local_db.py:127-128 | The corrected endpoint step: a missing name is created with the default type, and a stored one is left exactly as it was. |
| LocalDb.AddConceptLinkKeepingKinds | backend/local_db.py:125-138 | The corrected link: without an error both endpoints exist and the edge is inserted or strengthened. Every stored concept is kept, even when an endpoint step fails. |
| LocalDb.KeptAcross | backend/local_db.py:127-128 | Ensuring the target keeps the already ensured source. |
| LocalDb.LinkKeepsKinds | backend/local_db.py:125-138 | With the corrected link, every stored concept reads back unchanged, whether or not the call failed. |
| LocalDb.NamedUnique | backend/local_db.py:116 | In a keyed table the row found by name is the one row with that name. |
| LocalDb.ConceptById | backend/local_db.py:155-156 | The concept row with the id, or `None` exactly when no row has it. |
| LocalDb.GetConceptGraph | backend/local_db.py:140-160 | The nodes are every concept row. The edges are exactly the links whose two endpoint rows exist, each with its endpoints' names. The inner join drops the others. |
| LocalDb.EdgesComplete | backend/local_db.py:152-158 | Every joinable link appears among the edges. |
| LocalDb.LinkedShows | backend/local_db.py:125-160 | A link added through `add_concept_link` appears as an edge of the graph. |
| LocalDb.JoinedShows | backend/local_db.py:152-158 | A link whose endpoints exist appears in the graph. |
| LocalDb.PutEdgeHas | backend/local_db.py:132-137 | After the insert the edge has a row. |
| LocalDb.IdFinds | backend/local_db.py:109 | A stored concept is found under the id derived from its name. |
| AgentTools.PhaseOf | backend/agent.py:104-113 | The phase is morning exactly for hours 5-11, afternoon for 12-17 and evening for 18-22. Every other hour is night. |
| AgentTools.PhasesPartitionDay | backend/agent.py:106-113 | Every hour of the day falls in exactly one phase's window, the one the prompt picks. |
| AgentTools.MemoryLines | backend/agent.py:143-144 | One `- content` line per memory, in order. |
| AgentTools.DocLines | backend/agent.py:148-150 | One line per document, in order, with its source (or `Unknown`) and its first 500 characters. |
| AgentTools.WithContext | backend/agent.py:139-153 | The context block starts with the rhythm block and ends with the grounding footer. |
| AgentTools.InjectDynamicContext | backend/agent.py:95-157 | Without a user message, only the rhythm block. When retrieval raises, the empty prompt. Otherwise the rhythm block, extended exactly when some memory or usable document was found. Documents count only when the query embedding came back. |
| AgentTools.ConcatContains | backend/agent.py:143-150 | Each line of a section occurs in the joined text. |
| AgentTools.MemoriesQuoted | backend/agent.py:141-144 | Every retrieved memory appears in the injected prompt. |
| AgentTools.DocsQuoted | backend/agent.py:146-150 | Every retrieved document appears in the injected prompt, once the query embedding came back. |
| AgentTools.CurrentModelName | backend/agent.py:33-34 | `MODEL_OVERRIDE` when set, else `gemini-3-flash`. |
| AgentTools.CreateModelInstance | backend/agent.py:40-51 | An Ollama chat model at the local URL exactly for names starting with `ollama:`, under a shorter base name. Every other name is a Gemini model of that name. |
| AgentTools.OllamaPrefixStripped | backend/agent.py:44 | `ollama:` + a base without that text yields the Ollama model of exactly that base. |
| AgentTools.DefaultIsGemini | backend/agent.py:33-51 | With no override the agent runs Gemini `gemini-3-flash`. |
| AgentTools.VisibleEntries | backend/agent.py:202-207 | Exactly the entries the listing shows, in directory order, each as often as the directory lists it. |
| AgentTools.ListingHides | backend/agent.py:204-207 | A dot-name is shown exactly when it is `.env`. The five heavy folders are never shown. Any other name is shown. |
| AgentTools.ListingLine | backend/agent.py:209-210 | A listing line is the 6-wide type tag and a space, 7 characters, followed by the name. |
| AgentTools.ListingLines | backend/agent.py:202-212 | One listing line per entry, in order. |
| AgentTools.ListingLineDetermines | backend/agent.py:209-210 | Two entries share a listing line exactly when they have the same name and kind. |
| AgentTools.ListingLinesExactly | backend/agent.py:202-212 | An entry's line is among the listing's lines exactly when the entry is in the directory and shown. No hidden entry is listed. |
| AgentTools.ListDirectory | backend/agent.py:183-217 | A path error gives the validation message. A missing path or a non-directory gives its error. Otherwise the answer is the header followed by the shown entries' lines, in directory order, joined by newlines. |
| AgentTools.ListingComplete | backend/agent.py:212 | Every shown entry's line occurs in the listing. |
| AgentTools.ReadFile | backend/agent.py:219-249 | The reply carries the file exactly when the path is valid, exists, is a file and is at most 100,000 bytes. The content then sits right after the header. An oversized file is refused with its size. |
| AgentTools.RefusalDiffers | backend/agent.py:233-239 | No error message can be taken for a file's contents. |
| AgentTools.PendingReply | backend/agent.py:276 | The answer to a proposed write starts `ACTION_PENDING`. |
| AgentTools.PrepareWriteFile | backend/agent.py:251-280 | A valid path records exactly one new pending `write_file` action under the fresh id, with the resolved path, the shown path and the content. The reply asks for approval. An invalid path records nothing. Earlier proposals are kept. |
| AgentTools.ProposalsAccumulate | backend/agent.py:266-274 | A later proposal never drops or alters an earlier pending one. |
| TelegramBridge.StartReply | backend/telegram_bridge.py:19-25 | An authorised user, or anyone when no user id is configured, gets the connected greeting. Anyone else gets the refusal. |
| TelegramBridge.SliceFrom | backend/telegram_bridge.py:56 | `answer[x:x+4000]`: a non-empty piece of the answer from `x`, at most 4000 long, shorter only at the end. |
| TelegramBridge.SliceAnswer | backend/telegram_bridge.py:53-57 | The slices joined give back the answer. Each has 1 to 4000 characters, every one but the last exactly 4000, and there are `ceil(n/4000)` of them. |
| TelegramBridge.CountSlices | backend/telegram_bridge.py:55 | The slice that reaches the end is slice number `ceil(n/4000)`. |
| TelegramBridge.RequestFor | backend/telegram_bridge.py:40-46 | The chat request carries the text and the fixed session `telegram_mobile_link`. |
| TelegramBridge.ReplyTexts | backend/telegram_bridge.py:53-57 | The texts sent back, never more than the actions. |
| TelegramBridge.AnswerReplies | backend/telegram_bridge.py:53-57 | An answer up to 4000 characters is one reply. A longer one is cut into `ceil(n/4000)` replies that join back to it, every one but the last exactly 4000 long. |
| TelegramBridge.RepliesCarry | backend/telegram_bridge.py:56-57 | Replies built from slices send exactly those slices. |
| TelegramBridge.SentPrefix | backend/telegram_bridge.py:53-57 | The replies before the `k`-th carry exactly the answer's first `4000·k` characters. |
| TelegramBridge.HandleMessage | backend/telegram_bridge.py:27-64 | An unauthorised sender gets no action at all. Otherwise: typing first, then the connection failure, the HTTP status, the core's error message (`None` when absent), or the answer (`No response body.` when absent) in pieces that join back to it. A reply that raises inside the `try` ends the replies: those before it stay sent, carrying the answer's first `4000·k` characters, and the connection-failure text with the send error follows. |
| Text.StripFacts | backend/config.py:21 | `strip()` yields a piece of the line with no whitespace at either end. It is empty exactly when the line is all whitespace. |
| Text.Lower | backend/local_db.py:109 | `lower()` maps each capital of Basic Latin, Latin-1 and Latin Extended-A to its small partner (`Ł` to `ł`) and keeps every other character. The length is kept. |
| Text.LowerChar | backend/local_db.py:109 | A character that is no capital is kept, and an ASCII capital moves up by 32. |
| Text.CasePartners | backend/local_db.py:109 | Each capital lower-cases to a different, non-capital character that upper-cases back to it. |
| Text.PolishCaseFolds | backend/local_db.py:109 | `ŁÓDŹ` and `łódź` lower-case to the same name. |
| Text.Capitalize | example/backend/app/services/orchestrator_service.py:78 | `capitalize()`: the first character upper-cased and the rest lower-cased, over the same Latin letters, with the same length. |
| Text.Take | backend/agent.py:150 | `s[:500]`: the first 500 characters, or the whole string when shorter. |
| Text.RemoveAllAbsent | backend/agent.py:44 | `replace(pat, "")` leaves a string without `pat` as it is. |
| Text.Decimal | backend/telegram_bridge.py:61 | `str(n)` for a status code: a non-empty string of decimal digits. |
| Text.DecimalRoundTrip | backend/telegram_bridge.py:61 | The rendered status code reads back as the number and has no leading zero. |

## Left out

- Timing and concurrency are not modelled. This covers the random 1.5-3.0 s pacing sleep between message inserts, the worker's 60 s tick sleep, FastAPI background-task scheduling, and a manual run racing the worker on the same report. Each run is a sequential function of its inputs.
- LLM calls and their prompts are not modelled: persona prompts, the scout and debate agents, the sleep cycle and the world model. The generator's output is an input value. "Exactly ten messages" and the tag choice are prompt wishes that nothing enforces, so the model accepts any output that validates.
- The scout mission's random rotation among queries, and the year-based query text, are non-deterministic inputs. The chosen query's answer is a parameter.
- The vector store, the embeddings and the similarity thresholds are external clients with float scoring. Retrieval answers, embedding outcomes and store outcomes are parameters.
- `validate_path` depends on `Path.resolve` (symbolic links and the real file system). Its verdict, including its failure message, is a parameter of `AgentTools.ListDirectory`, `AgentTools.ReadFile` and `AgentTools.PrepareWriteFile`.
- The agent tools' `add_log` side effects and their console output are not modelled.
- `read_file`'s `errors="ignore"` decoding is not modelled: the file's text is given already decoded.
- The "Error listing/reading/preparing ..." answers to unexpected exceptions are not modelled: the model's file-system inputs cannot raise.
- HTTP and framework plumbing is not modelled: the `main.py` files, routers, dependencies, authentication, the rate limiter, the Supabase and SQLite clients, the MCP server and the desktop shell's retry loop. The endpoints are modelled as store transitions with their status answers.
- `worker.run_mission` is an empty stub and is not modelled. `run_scout_for_debate` calls a function its module never imports, so it always fails before doing anything; it is not modelled either.
- Presentational React is not modelled: layout, modals, icons, IntersectionObserver wiring, and the browser's localStorage copy of the voted set. The voted set is kept in memory only.
- The SQLite schema file is not part of this model. The constraints the statements rely on are stated as requirements: unique concept names and ids, one link per (source, target, relation), and the message-to-session cascade.
- `uuid5` is modelled by its argument, the lower-cased name, so ids collide exactly when lower-cased names do. Lower-casing and capitalisation map the Latin letters of ASCII, Latin-1 and Latin Extended-A, one character to one character.
- Floating-point numbers (scores, link weights, averages) are modelled as exact reals.
- The archive's `.sort()` compares UTF-16 code units; the model compares code points. The two orders differ only for characters outside the Basic Multilingual Plane.
- SQLite leaves the order of rows with equal sort keys open. The model fixes one: `get_messages` keeps equal stamps in storage order, and `get_sessions` puts the later-stored of two equal stamps first. `CURRENT_TIMESTAMP`'s one-second resolution is not modelled: stamps are given integers.
- `EnvConfig.WriteThenRead` holds only for values without line breaks and keys that read back as themselves. A value holding a line break would split across lines in the written file.
- Metadata JSON is modelled as an exact round trip of key/value items. Non-string JSON values are not modelled.
- The report's optional `title` default ("Analiza Absurdu") is not modelled: the column is always present.
- `stats.py`, the social-card rendering and the concept-graph canvas are outside this model, because they hold float averaging and drawing only.
- `Ingest.ProcessContent` does not model the reading of files from disk (`process_file`, `main`) or the rate-limit sleep.
- ClientThreads.DashboardAgent: keys inherited from `Object.prototype` are not modelled. For an `agent_id` such as `constructor`, `toString` or `__proto__`, `AGENT_CONFIG[id]` finds the inherited function or object, so the scout fallback is not taken and the card renders without an icon. The orchestrator stores only the ten validated persona spellings, so such ids do not arise from the backend.
- ClientThreads.ArchiveAgent: keys inherited from `Object.prototype` are not modelled. For such an id the look-up answers the inherited value instead of the grey `#888` fallback, with no colour and no icon. The same reasoning applies: only the ten validated persona spellings are stored.
- Text.Lower: does not map capitals outside ASCII, Latin-1 and Latin Extended-A (Greek, Cyrillic and the rest), and keeps `İ`, which Python and JavaScript lower-case to two characters. The model needs a one-to-one table.
- Text.Capitalize: keeps `ß`, `ı`, `µ`, `ſ` and `ŉ` and does not use the title case of digraphs such as `ǅ`. Python changes these (`ß` to `Ss`, `ı` to `I`), through one-to-many mappings or letters outside the table.
- Archive.FilterArchive: JavaScript `toLowerCase` on scripts other than Latin is not modelled. `Text.Lower` keeps those characters.
- LocalDb.UpsertConcept: Python `lower()` on scripts other than Latin is not modelled, so two non-Latin names that differ only in case get different ids.
- EnvConfig.WriteConfig: a write failure is modelled at line granularity. A failure inside a line, and the buffering that decides how much reaches the disk, are not modelled.
- TelegramBridge.HandleMessage: two faults outside the `try` block are not modelled. The typing action could raise and escape before any reply. The failure reply sent from the `except` block, including the connection-failure reply, could raise again and escape the handler.
- `Ingest.SplitText` requires the chunk size to exceed the overlap: otherwise the source loop never advances on a non-empty text.

## Findings

| source | as written | input that shows it | evidently intended | confidence | as-written member | corrected member |
|---|---|---|---|---|---|---|
| example/frontend/src/components/views/DashboardView.tsx:109-129 | Cards are replaced only inside `if (dData && dData.length > 0)`, so an empty first page leaves the old cards on screen while `hasMore` turns false. | The tag filter changes to a tag with no debates while cards of the previous tag are shown. | A replacing load shows exactly the first page, which may be empty. | medium, not executed | Dashboard.EmptyReloadKeepsStaleCards | Dashboard.ReloadShowsFirstPage |
| backend/local_db.py:125-128 | `add_concept_link` ensures its endpoints through `upsert_concept(name)`, whose conflict clause sets `type = excluded.type`. Linking an existing concept therefore resets its type to `general`. | A concept stored with type `technology`, then linked to another concept. | Linking ensures the endpoints exist without changing concepts already stored. | medium, not executed | LocalDb.LinkResetsKind | LocalDb.LinkKeepsKinds |

=== FILE: agent_tools.dfy ===
/** The desktop agent's deterministic parts (backend/agent.py): the time-of-day prompt and
    the recalled context injected into the system prompt, model selection, and the file tools'
    gates. The clock, the memory and document searches, the file system and path resolution are
    inputs; each tool's audit-log write is not modelled. */
module AgentTools {
  import opened Wrappers
  import opened Seqs
  import opened Text

  // ---------------------------------------------------------------------------------------
  // Digital circadian rhythm

  datatype Phase = Morning | Afternoon | Evening | Night

  /** The phase for an hour of the day. */
  function PhaseOf(hour: int): (p: Phase)
    ensures p == Morning ==> 5 <= hour < 12
    ensures p == Afternoon ==> 12 <= hour < 18
    ensures p == Evening ==> 18 <= hour < 23
    ensures p == Night ==> hour < 5 || hour >= 23
  {
    if 5 <= hour < 12 then Morning
    else if 12 <= hour < 18 then Afternoon
    else if 18 <= hour < 23 then Evening
    else Night
  }

  /** Reference definition: the hours `[lo, hi)` of each daytime phase. Night is every hour no
      daytime phase claims. */
  function Window(p: Phase): (int, int)
    requires p != Night
  {
    match p
    case Morning => (5, 12)
    case Afternoon => (12, 18)
    case Evening => (18, 23)
  }

  predicate InWindow(p: Phase, hour: int) {
    if p == Night then forall q: Phase :: q != Night ==> !(Window(q).0 <= hour < Window(q).1)
    else Window(p).0 <= hour < Window(p).1
  }

  /** Every hour of the day falls in exactly one phase, and `PhaseOf` names it. */
  lemma PhasesPartitionDay(hour: int)
    requires 0 <= hour < 24
    ensures InWindow(PhaseOf(hour), hour)
    ensures forall p: Phase :: InWindow(p, hour) ==> p == PhaseOf(hour)
  {
    forall p: Phase | InWindow(p, hour) ensures p == PhaseOf(hour) {
      if p == Night {
        assert !InWindow(Morning, hour) && !InWindow(Afternoon, hour) && !InWindow(Evening, hour);
      }
    }
    if PhaseOf(hour) == Night {
      forall q: Phase | q != Night ensures !(Window(q).0 <= hour < Window(q).1) {
      }
    }
  }

  const CircadianHeader: string := "\n--- DIGITAL CIRCADIAN RHYTHM (ACTIVE) ---\n"

  function PhaseText(p: Phase): string {
    match p
    case Morning => "MORNING (Strategist). You are fresh and focused on planning. Propose architecture, set daily priorities, and ensure clarity of goals. Be proactive. Your answers must be concise and constructive."
    case Afternoon => "AFTERNOON (Executor). Deep operational work time. Be highly technical, analytical, and focused on precisely resolving current errors and code implementation."
    case Evening => "EVENING (Philosopher). The day is ending. Reflect on the Big Picture of the entire project. Focus on refactoring, code elegance, and whether today's decisions make sense long-term (Active World Model)."
    case Night => "NIGHT (Maintainer). System operating in stealth/quiet mode. Keep answers extremely short and dry. Focus exclusively on critical stability."
  }

  /** The circadian block that opens every injected prompt. */
  function Circadian(hour: int): string {
    CircadianHeader + PhaseText(PhaseOf(hour)) + "\n"
  }

  // ---------------------------------------------------------------------------------------
  // Recalled context

  /** A knowledge-base hit: its metadata's `source`, if any, and its text. */
  datatype Doc = Doc(source: Option<string>, content: string)

  /** What the two searches gave: the memories' texts and, when the query embedding came back,
      the documents; or an exception from either. */
  datatype Retrieval = Raised | Found(memories: seq<string>, embedded: bool, docs: seq<Doc>)

  const ContextHeader: string := "\n--- INJECTED NEURAL CONTEXT (SYSTEM AUTO-RECALL) ---\n"
  const ContextFooter: string := "\n--- END CONTEXT ---\nUse this data to ground your response. If info is missing, use your tools."

  function MemoryLine(m: string): string {
    "- " + m + "\n"
  }

  /** A document line: its source (or "Unknown") and its first 500 characters. */
  function DocLine(d: Doc): string {
    "- (Source: " + d.source.GetOr("Unknown") + "): " + Take(d.content, 500) + "...\n"
  }

  function MemoryLines(ms: seq<string>): (r: seq<string>)
    ensures |r| == |ms| && forall i :: 0 <= i < |ms| ==> r[i] == MemoryLine(ms[i])
  {
    seq(|ms|, i requires 0 <= i < |ms| => MemoryLine(ms[i]))
  }

  function DocLines(ds: seq<Doc>): (r: seq<string>)
    ensures |r| == |ds| && forall i :: 0 <= i < |ds| ==> r[i] == DocLine(ds[i])
  {
    seq(|ds|, i requires 0 <= i < |ds| => DocLine(ds[i]))
  }

  function MemorySection(ms: seq<string>): string {
    if ms == [] then "" else "\n[FROM MEMORY CORE]:\n" + Concat(MemoryLines(ms))
  }

  function DocSection(ds: seq<Doc>): string {
    if ds == [] then "" else "\n[FROM KNOWLEDGE BASE / THE LIBRARY]:\n" + Concat(DocLines(ds))
  }

  /** The documents that count: those found, when the query embedding came back. */
  function UsedDocs(retrieval: Retrieval): seq<Doc>
    requires retrieval.Found?
  {
    if retrieval.embedded then retrieval.docs else []
  }

  /** The circadian block followed by the recalled context between its header and footer. */
  function WithContext(block: string, ms: seq<string>, docs: seq<Doc>): (r: string)
    ensures StartsWith(r, block) && EndsWith(r, ContextFooter) && r != block
  {
    var mid := ContextHeader + MemorySection(ms) + DocSection(docs);
    assert |ContextFooter| > 0;
    Framed(block, mid, ContextFooter);
    block + mid + ContextFooter
  }

  /** `inject_dynamic_context`. The user message is `deps["user_message"]`, absent when the deps
      are missing or hold no such key. Without a message the circadian block is all; an
      exception during retrieval gives the empty string; with nothing found the circadian block
      is all; otherwise the found memories and documents follow it between the context header
      and footer. */
  function InjectDynamicContext(hour: int, userMessage: Option<string>, retrieval: Retrieval): (r: string)
    ensures userMessage.GetOr("") == [] ==> r == Circadian(hour)
    ensures userMessage.GetOr("") != [] && retrieval.Raised? ==> r == []
    ensures userMessage.GetOr("") != [] && retrieval.Found? ==>
      && StartsWith(r, Circadian(hour))
      && (r == Circadian(hour) <==> retrieval.memories == [] && UsedDocs(retrieval) == [])
      && (r != Circadian(hour) ==> r == WithContext(Circadian(hour), retrieval.memories, UsedDocs(retrieval)))
    ensures r != Circadian(hour) && r != [] ==> EndsWith(r, ContextFooter)
  {
    var block := Circadian(hour);
    if userMessage.GetOr("") == [] then block
    else match retrieval
      case Raised => []
      case Found(ms, _, _) =>
        if ms == [] && UsedDocs(retrieval) == [] then
          StartsWithSelf(block);
          block
        else WithContext(block, ms, UsedDocs(retrieval))
  }

  /** Part `k` of a concatenation occurs in it. */
  lemma ConcatContains(ss: seq<string>, k: int)
    requires 0 <= k < |ss|
    ensures Contains(Concat(ss), ss[k])
  {
    ConcatAt(ss, k);
    assert OccursAt(Concat(ss), ss[k], |Concat(ss[..k])|);
  }

  /** Every recalled memory is quoted in the injected prompt as its own bullet. */
  lemma MemoriesQuoted(hour: int, message: string, retrieval: Retrieval, k: int)
    requires message != [] && retrieval.Found? && 0 <= k < |retrieval.memories|
    ensures Contains(InjectDynamicContext(hour, Some(message), retrieval), MemoryLine(retrieval.memories[k]))
  {
    var ms := retrieval.memories;
    var lines := MemoryLines(ms);
    ConcatContains(lines, k);
    ContainsAfter("\n[FROM MEMORY CORE]:\n", Concat(lines), lines[k]);
    ContainsAfter(ContextHeader, MemorySection(ms), lines[k]);
    ContainsBefore(ContextHeader + MemorySection(ms), DocSection(UsedDocs(retrieval)), lines[k]);
    var mid := ContextHeader + MemorySection(ms) + DocSection(UsedDocs(retrieval));
    ContainsAfter(Circadian(hour), mid, lines[k]);
    ContainsBefore(Circadian(hour) + mid, ContextFooter, lines[k]);
  }

  /** With the query embedded, every document found is quoted with its source and its first
      500 characters. */
  lemma DocsQuoted(hour: int, message: string, retrieval: Retrieval, k: int)
    requires message != [] && retrieval.Found? && retrieval.embedded && 0 <= k < |retrieval.docs|
    ensures Contains(InjectDynamicContext(hour, Some(message), retrieval), DocLine(retrieval.docs[k]))
  {
    var ms := retrieval.memories;
    var ds := retrieval.docs;
    assert UsedDocs(retrieval) == ds;
    var lines := DocLines(ds);
    ConcatContains(lines, k);
    ContainsAfter("\n[FROM KNOWLEDGE BASE / THE LIBRARY]:\n", Concat(lines), lines[k]);
    ContainsAfter(ContextHeader + MemorySection(ms), DocSection(ds), lines[k]);
    var mid := ContextHeader + MemorySection(ms) + DocSection(ds);
    ContainsAfter(Circadian(hour), mid, lines[k]);
    ContainsBefore(Circadian(hour) + mid, ContextFooter, lines[k]);
  }

  // ---------------------------------------------------------------------------------------
  // Model selection

  const DefaultModel: string := "gemini-3-flash"
  const OllamaPrefix: string := "ollama:"
  const OllamaUrl: string := "http://localhost:11434/v1"

  /** `get_current_model_name`: `MODEL_OVERRIDE` when set, even to the empty string. */
  function CurrentModelName(modelOverride: Option<string>): (name: string)
    ensures modelOverride.None? ==> name == DefaultModel
    ensures modelOverride.Some? ==> name == modelOverride.value
  {
    modelOverride.GetOr(DefaultModel)
  }

  /** `is_ollama_model`. */
  predicate IsOllamaModel(name: string) {
    StartsWith(name, OllamaPrefix)
  }

  datatype ModelInstance = OllamaChat(baseName: string, baseUrl: string) | Gemini(modelName: string)

  /** `create_model_instance`: a name with the Ollama prefix selects the local OpenAI-compatible
      endpoint under the name with every `ollama:` removed (`str.replace` removes them all);
      any other name is a Gemini model of that name. */
  function CreateModelInstance(name: string): (m: ModelInstance)
    ensures m.OllamaChat? <==> IsOllamaModel(name)
    ensures m.OllamaChat? ==> m.baseUrl == OllamaUrl && |m.baseName| <= |name| - |OllamaPrefix|
    ensures m.Gemini? ==> m.modelName == name
  {
    if StartsWith(name, OllamaPrefix) then OllamaChat(RemoveAll(name, OllamaPrefix), OllamaUrl)
    else Gemini(name)
  }

  /** For an Ollama name the prefix is stripped and the rest kept, provided the rest does not
      itself contain `ollama:`. */
  lemma OllamaPrefixStripped(base: string)
    requires !Contains(base, OllamaPrefix)
    ensures CreateModelInstance(OllamaPrefix + base) == OllamaChat(base, OllamaUrl)
  {
    var name := OllamaPrefix + base;
    StartsWithConcat(OllamaPrefix, base);
    assert name[|OllamaPrefix|..] == base;
    RemoveAllAbsent(base, OllamaPrefix);
  }

  /** The default model is a Gemini model. */
  lemma DefaultIsGemini()
    ensures CreateModelInstance(CurrentModelName(None)) == Gemini(DefaultModel)
  {
    assert DefaultModel[0] != OllamaPrefix[0];
  }

  // ---------------------------------------------------------------------------------------
  // File tools

  /** `validate_path`'s failure message. The resolution itself (symbolic links, the real file
      system) is an input: `Err(detail)` when it refused. */
  function InvalidPath(detail: string): string {
    "Invalid path: " + detail
  }

  /** A directory entry. */
  datatype Entry = Entry(name: string, isDir: bool)

  const HiddenFolders: seq<string> := ["__pycache__", "node_modules", ".venv", "aether_memory", "qdrant_storage"]

  /** The listing filter: dot-names other than `.env`, and the heavy folders, are hidden. */
  predicate Shown(name: string) {
    !(StartsWith(name, ".") && name != ".env") && name !in HiddenFolders
  }

  /** The entries a listing shows, in directory order. */
  function VisibleEntries(items: seq<Entry>): (r: seq<Entry>)
    ensures forall k :: 0 <= k < |r| ==> r[k] in items && Shown(r[k].name)
    ensures forall k :: 0 <= k < |items| && Shown(items[k].name) ==> items[k] in r
    ensures Subsequence(r, items)
    ensures forall e :: multiset(r)[e] == if Shown(e.name) then multiset(items)[e] else 0
  {
    var keep := (e: Entry) => Shown(e.name);
    FilterKeepsOrder(items, keep);
    Filter(items, keep)
  }

  /** `.env` is the one dot-name shown, and none of the heavy folders is. */
  lemma ListingHides(name: string)
    ensures StartsWith(name, ".") ==> (Shown(name) <==> name == ".env")
    ensures name in HiddenFolders ==> !Shown(name)
    ensures !StartsWith(name, ".") && name !in HiddenFolders ==> Shown(name)
  {
  }

  /** `f"{type_str:<6} {name}"`: the type padded to six characters, a space, the name. */
  function ListingLine(e: Entry): (line: string)
    ensures EndsWith(line, e.name) && |line| == 7 + |e.name|
    ensures line[7..] == e.name
    ensures line[..7] == if e.isDir then "<DIR>  " else "<FILE> "
  {
    var line := (if e.isDir then "<DIR> " else "<FILE>") + " " + e.name;
    EndsWithConcat((if e.isDir then "<DIR> " else "<FILE>") + " ", e.name);
    line
  }

  function ListingHeader(path: string): string {
    "Contents of '" + path + "':\n"
  }

  /** One listing line per entry, in order. */
  function ListingLines(entries: seq<Entry>): (lines: seq<string>)
    ensures |lines| == |entries|
    ensures forall i :: 0 <= i < |entries| ==> lines[i] == ListingLine(entries[i])
  {
    seq(|entries|, i requires 0 <= i < |entries| => ListingLine(entries[i]))
  }

  /** Two entries have the same listing line exactly when they have the same name and kind. */
  lemma ListingLineDetermines(a: Entry, b: Entry)
    ensures ListingLine(a) == ListingLine(b) <==> a == b
  {
    if ListingLine(a) == ListingLine(b) {
      assert a.name == ListingLine(a)[7..];
      assert ListingLine(a)[..7][1] == if a.isDir then 'D' else 'F';
    }
  }

  /** A line is in the listing of a directory exactly when it is the line of one of the
      directory's shown entries; so no hidden entry is ever listed. */
  lemma ListingLinesExactly(items: seq<Entry>, e: Entry)
    ensures ListingLine(e) in ListingLines(VisibleEntries(items)) <==> e in items && Shown(e.name)
  {
    var shown := VisibleEntries(items);
    var lines := ListingLines(shown);
    if ListingLine(e) in lines {
      var i :| 0 <= i < |lines| && lines[i] == ListingLine(e);
      ListingLineDetermines(shown[i], e);
    }
    if e in items && Shown(e.name) {
      var k :| 0 <= k < |items| && items[k] == e;
      var i :| 0 <= i < |shown| && shown[i] == e;
      assert lines[i] == ListingLine(e);
    }
  }

  /** `list_directory`: the validation message, one of two errors, or the header followed by the
      shown entries' lines. */
  function ListDirectory(path: string, resolved: Result<()>, exists_: bool, isDir: bool, items: seq<Entry>): (r: string)
    ensures resolved.Err? ==> r == InvalidPath(resolved.error)
    ensures resolved.Ok? && !exists_ ==> r == "Error: Directory '" + path + "' does not exist."
    ensures resolved.Ok? && exists_ && !isDir ==> r == "Error: '" + path + "' is not a directory."
    ensures resolved.Ok? && exists_ && isDir ==> StartsWith(r, ListingHeader(path))
    ensures resolved.Ok? && exists_ && isDir ==> r == ListingHeader(path) + Join("\n", ListingLines(VisibleEntries(items)))
    ensures resolved.Ok? && exists_ && isDir ==>
      forall k :: 0 <= k < |items| && Shown(items[k].name) ==> Contains(r, ListingLine(items[k]))
  {
    if resolved.Err? then InvalidPath(resolved.error)
    else if !exists_ then "Error: Directory '" + path + "' does not exist."
    else if !isDir then "Error: '" + path + "' is not a directory."
    else
      var shown := VisibleEntries(items);
      var lines := ListingLines(shown);
      var r := ListingHeader(path) + Join("\n", lines);
      StartsWithConcat(ListingHeader(path), Join("\n", lines));
      ListingComplete(path, items, shown, lines);
      r
  }

  lemma ListingComplete(path: string, items: seq<Entry>, shown: seq<Entry>, lines: seq<string>)
    requires forall k :: 0 <= k < |items| && Shown(items[k].name) ==> items[k] in shown
    requires |lines| == |shown| && forall i :: 0 <= i < |shown| ==> lines[i] == ListingLine(shown[i])
    ensures forall k :: 0 <= k < |items| && Shown(items[k].name) ==>
      Contains(ListingHeader(path) + Join("\n", lines), ListingLine(items[k]))
  {
    forall k | 0 <= k < |items| && Shown(items[k].name)
      ensures Contains(ListingHeader(path) + Join("\n", lines), ListingLine(items[k]))
    {
      var j :| 0 <= j < |shown| && shown[j] == items[k];
      JoinContains("\n", lines, j);
      ContainsAfter(ListingHeader(path), Join("\n", lines), lines[j]);
    }
  }

  const MaxReadBytes: nat := 100000
  const ContentOpen: string := "--- Content of '"

  /** `read_file`: the validation message, one of three errors, or the file's text between a
      header and a footer. Files over 100,000 bytes are refused with their size. */
  function ReadFile(path: string, resolved: Result<()>, exists_: bool, isFile: bool, size: nat, content: string): (r: string)
    ensures resolved.Err? ==> r == InvalidPath(resolved.error)
    ensures StartsWith(r, ContentOpen) <==> resolved.Ok? && exists_ && isFile && size <= MaxReadBytes
    ensures StartsWith(r, ContentOpen) ==> OccursAt(r, content, |ContentOpen + path + "' ---\n"|)
    ensures resolved.Ok? && exists_ && isFile && size > MaxReadBytes ==>
      r == "Error: File '" + path + "' is too large to read (Size: " + Decimal(size) + " bytes)."
  {
    if resolved.Err? then
      RefusalDiffers(InvalidPath(resolved.error));
      InvalidPath(resolved.error)
    else if !exists_ then
      RefusalDiffers("Error: File '" + path + "' does not exist.");
      "Error: File '" + path + "' does not exist."
    else if !isFile then
      RefusalDiffers("Error: '" + path + "' is not a file.");
      "Error: '" + path + "' is not a file."
    else if size > MaxReadBytes then
      RefusalDiffers("Error: File '" + path + "' is too large to read (Size: " + Decimal(size) + " bytes).");
      "Error: File '" + path + "' is too large to read (Size: " + Decimal(size) + " bytes)."
    else
      var pre := ContentOpen + path + "' ---\n";
      var r := pre + content + "\n--- End of file ---";
      OccursAtConcat(pre, content, "\n--- End of file ---");
      assert r == ContentOpen + (path + "' ---\n" + content + "\n--- End of file ---");
      StartsWithConcat(ContentOpen, path + "' ---\n" + content + "\n--- End of file ---");
      r
  }

  /** A message that starts with 'I' or 'E' is not a file's contents. */
  lemma RefusalDiffers(msg: string)
    requires |msg| > 0 && (msg[0] == 'I' || msg[0] == 'E')
    ensures !StartsWith(msg, ContentOpen)
  {
  }

  /** A write proposed for human approval. */
  datatype PendingAction = PendingAction(kind: string, path: string, displayPath: string, content: string, status: string)

  datatype Proposal = Proposal(pending: map<string, PendingAction>, reply: string)

  const PendingLead: string := "ACTION_PENDING"

  /** The answer to a proposed write. */
  function PendingReply(path: string): (reply: string)
    ensures StartsWith(reply, PendingLead)
  {
    StartsWithConcat(PendingLead, ": File write proposed for '" + path + "'. Tell the user they need to approve this action in the UI.");
    PendingLead + (": File write proposed for '" + path + "'. Tell the user they need to approve this action in the UI.")
  }

  /** `prepare_write_file`: records the write under a fresh id with status "pending" and answers
      that approval is needed. Nothing is written; the file system is not an argument. An
      invalid path records nothing. */
  function PrepareWriteFile(pending: map<string, PendingAction>, path: string, resolved: Result<string>, content: string, freshId: string): (p: Proposal)
    ensures resolved.Err? ==> p.pending == pending && p.reply == InvalidPath(resolved.error)
    ensures resolved.Ok? ==>
      && p.pending.Keys == pending.Keys + {freshId}
      && p.pending[freshId] == PendingAction("write_file", resolved.value, path, content, "pending")
      && StartsWith(p.reply, PendingLead)
    ensures forall id :: id in pending && id != freshId ==> id in p.pending && p.pending[id] == pending[id]
  {
    if resolved.Err? then Proposal(pending, InvalidPath(resolved.error))
    else Proposal(pending[freshId := PendingAction("write_file", resolved.value, path, content, "pending")], PendingReply(path))
  }

  /** Proposals only accumulate: every action proposed earlier is still pending, unchanged,
      after further proposals under fresh ids. */
  lemma ProposalsAccumulate(pending: map<string, PendingAction>, path1: string, r1: Result<string>, c1: string, id1: string,
                            path2: string, r2: Result<string>, c2: string, id2: string)
    requires r1.Ok? && id1 != id2
    ensures var p1 := PrepareWriteFile(pending, path1, r1, c1, id1);
      var p2 := PrepareWriteFile(p1.pending, path2, r2, c2, id2);
      id1 in p2.pending && p2.pending[id1].status == "pending" && p2.pending[id1].content == c1
  {
  }
}

=== FILE: archive.dfy ===
/** The archive view's derived data (example/frontend/src/components/views/ArchiveView.tsx):
    the sorted tag set, the score statistics and the search/tag filter. The debates are the
    store's answer, newest first. */
module Archive {
  import opened Wrappers
  import opened Seqs
  import opened Text

  /** A debate row as the archive reads it; every column the code guards with `?.` or `|| 0`
      may be missing. */
  datatype ArchivedDebate = ArchivedDebate(
    id: string, title: Option<string>, summary: Option<string>,
    absurdScore: Option<real>, tags: Option<seq<string>>)

  /** String order by code point, shortest first on a common prefix. */
  predicate Less(a: string, b: string)
    decreases |a|
  {
    if a == [] then b != []
    else if b == [] then false
    else if a[0] != b[0] then a[0] < b[0]
    else Less(a[1..], b[1..])
  }

  lemma {:induction false} LessIrreflexive(a: string)
    ensures !Less(a, a)
    decreases |a|
  {
    if a != [] {
      LessIrreflexive(a[1..]);
    }
  }

  lemma {:induction false} LessTransitive(a: string, b: string, c: string)
    requires Less(a, b) && Less(b, c)
    ensures Less(a, c)
    decreases |a|
  {
    if a != [] && b != [] && c != [] && a[0] == b[0] && b[0] == c[0] {
      LessTransitive(a[1..], b[1..], c[1..]);
    }
  }

  lemma {:induction false} LessTotal(a: string, b: string)
    requires a != b
    ensures Less(a, b) || Less(b, a)
    decreases |a|
  {
    if a != [] && b != [] && a[0] == b[0] {
      assert a == [a[0]] + a[1..] && b == [b[0]] + b[1..];
      LessTotal(a[1..], b[1..]);
    }
  }

  lemma {:induction false} LessAsymmetric(a: string, b: string)
    requires Less(a, b)
    ensures !Less(b, a)
    decreases |a|
  {
    if a != [] && b != [] && a[0] == b[0] {
      LessAsymmetric(a[1..], b[1..]);
    }
  }

  predicate StrictlySorted(s: seq<string>) {
    forall i, j :: 0 <= i < j < |s| ==> Less(s[i], s[j])
  }

  /** `t` added to a strictly sorted list at its place, unless already there. */
  function InsertUnique(t: string, s: seq<string>): (r: seq<string>)
    requires StrictlySorted(s)
    ensures StrictlySorted(r)
    ensures forall x :: x in r <==> x in s || x == t
    decreases |s|
  {
    if s == [] then [t]
    else if t == s[0] then s
    else if Less(t, s[0]) then
      forall k | 0 <= k < |s| ensures Less(t, s[k]) {
        if k > 0 {
          LessTransitive(t, s[0], s[k]);
        }
      }
      [t] + s
    else
      var rest := InsertUnique(t, s[1..]);
      LessTotal(t, s[0]);
      forall k | 0 <= k < |rest| ensures Less(s[0], rest[k]) {
        if rest[k] != t {
          assert rest[k] in rest;
          assert rest[k] in s[1..];
          var j :| 0 <= j < |s[1..]| && s[1..][j] == rest[k];
          assert s[j + 1] == rest[k];
        }
      }
      assert forall x :: x in s <==> x == s[0] || x in s[1..];
      [s[0]] + rest
  }

  /** Some debate of `ds` carries tag `x`. */
  predicate HasTag(ds: seq<ArchivedDebate>, x: string) {
    exists k :: 0 <= k < |ds| && ds[k].tags.Some? && x in ds[k].tags.value
  }

  /** Every tag of every debate, in reading order. */
  function AllTagsList(ds: seq<ArchivedDebate>): (ts: seq<string>)
    ensures forall x :: x in ts <==> HasTag(ds, x)
  {
    if ds == [] then []
    else
      var rest := AllTagsList(ds[1..]);
      assert forall k :: 1 <= k < |ds| ==> ds[k] == ds[1..][k - 1];
      (if ds[0].tags.Some? then ds[0].tags.value else []) + rest
  }

  function SortedSetOf(ts: seq<string>): (r: seq<string>)
    ensures StrictlySorted(r)
    ensures forall x :: x in r <==> x in ts
    decreases |ts|
  {
    if ts == [] then []
    else
      var init := ts[..|ts| - 1];
      assert ts == init + [ts[|ts| - 1]];
      InsertUnique(ts[|ts| - 1], SortedSetOf(init))
  }

  /** `allTags`: the distinct tags over all debates, sorted. */
  function AllTags(ds: seq<ArchivedDebate>): (r: seq<string>)
    ensures StrictlySorted(r)
    ensures forall x :: x in r <==> HasTag(ds, x)
  {
    SortedSetOf(AllTagsList(ds))
  }

  /** A strictly sorted list is fixed by its elements. */
  lemma {:induction false} SortedUnique(a: seq<string>, b: seq<string>)
    requires StrictlySorted(a) && StrictlySorted(b)
    requires forall x :: x in a <==> x in b
    ensures a == b
    decreases |a|
  {
    EmptyTogether(a, b);
    if a != [] && b != [] {
      if a[0] != b[0] {
        assert a[0] in b;
        assert b[0] in a;
        var i :| 0 <= i < |b| && b[i] == a[0];
        var j :| 0 <= j < |a| && a[j] == b[0];
        assert i > 0 && j > 0;
        assert Less(b[0], a[0]) && Less(a[0], b[0]);
        LessAsymmetric(a[0], b[0]);
        assert false;
      }
      forall x ensures x in a[1..] <==> x in b[1..] {
        if x in a[1..] {
          var i :| 0 <= i < |a[1..]| && a[1..][i] == x;
          assert Less(a[0], a[i + 1]);
          LessIrreflexive(a[0]);
          assert x in a;
          var j :| 0 <= j < |b| && b[j] == x;
          assert j != 0;
          assert b[1..][j - 1] == x;
        }
        if x in b[1..] {
          var i :| 0 <= i < |b[1..]| && b[1..][i] == x;
          assert Less(b[0], b[i + 1]);
          LessIrreflexive(b[0]);
          assert x in b;
          var j :| 0 <= j < |a| && a[j] == x;
          assert j != 0;
          assert a[1..][j - 1] == x;
        }
      }
      SortedUnique(a[1..], b[1..]);
      assert a == [a[0]] + a[1..] && b == [b[0]] + b[1..];
    }
  }

  lemma EmptyTogether(a: seq<string>, b: seq<string>)
    requires forall x :: x in a <==> x in b
    ensures a == [] <==> b == []
  {
    if a != [] {
      assert a[0] in b;
    }
    if b != [] {
      assert b[0] in a;
    }
  }

  /** The tag list depends only on which tags occur, not on the debates' order or repetition. */
  lemma AllTagsCanonical(ds: seq<ArchivedDebate>, es: seq<ArchivedDebate>)
    requires forall x :: HasTag(ds, x) <==> HasTag(es, x)
    ensures AllTags(ds) == AllTags(es)
  {
    SortedUnique(AllTags(ds), AllTags(es));
  }

  /** `Math.round`: the nearest integer, halves rounded up. */
  function Round(x: real): (r: int)
    ensures r as real - 0.5 <= x < r as real + 0.5
  {
    (x + 0.5).Floor
  }

  /** `absurd_score || 0`. */
  function ScoreOr0(d: ArchivedDebate): real {
    if d.absurdScore.Some? then d.absurdScore.value else 0.0
  }

  function TotalScore(ds: seq<ArchivedDebate>): real {
    if ds == [] then 0.0 else ScoreOr0(ds[0]) + TotalScore(ds[1..])
  }

  datatype Stats = Stats(totalDebates: nat, totalScore: int, avgScore: int)

  /** The statistics: row count, rounded total, and the rounded mean (0 for an empty archive). */
  function ArchiveStats(ds: seq<ArchivedDebate>): (s: Stats)
    ensures s.totalDebates == |ds|
    ensures s.totalScore as real - 0.5 <= TotalScore(ds) < s.totalScore as real + 0.5
    ensures ds == [] ==> s.avgScore == 0
    ensures ds != [] ==> s.avgScore as real - 0.5 <= TotalScore(ds) / |ds| as real < s.avgScore as real + 0.5
  {
    var total := TotalScore(ds);
    Stats(|ds|, Round(total), if |ds| > 0 then Round(total / |ds| as real) else 0)
  }

  /** The total stays between `n` times the least and `n` times the greatest score. */
  lemma {:induction false} TotalBounded(ds: seq<ArchivedDebate>, lo: real, hi: real)
    requires forall k :: 0 <= k < |ds| ==> lo <= ScoreOr0(ds[k]) <= hi
    ensures |ds| as real * lo <= TotalScore(ds) <= |ds| as real * hi
    decreases |ds|
  {
    if ds != [] {
      TotalBounded(ds[1..], lo, hi);
    }
  }

  /** With every score on the 0..100 scale, the average shown is on that scale too. */
  lemma AverageOnScale(ds: seq<ArchivedDebate>)
    requires forall k :: 0 <= k < |ds| ==> 0.0 <= ScoreOr0(ds[k]) <= 100.0
    ensures 0 <= ArchiveStats(ds).avgScore <= 100
  {
    if ds != [] {
      TotalBounded(ds, 0.0, 100.0);
      var n := |ds| as real;
      assert 0.0 <= TotalScore(ds) / n <= 100.0 by {
        assert TotalScore(ds) / n * n == TotalScore(ds);
      }
    }
  }

  /** `x?.toLowerCase().includes(query)`: a missing field never matches. */
  predicate FieldMatches(field: Option<string>, query: string) {
    field.Some? && Contains(Lower(field.value), query)
  }

  /** The search stage: a blank query keeps everything; otherwise the lower-cased (but not
      trimmed) query must occur in the lower-cased title or summary. */
  predicate MatchesQuery(d: ArchivedDebate, query: string) {
    JsTrim(query) == [] || FieldMatches(d.title, Lower(query)) || FieldMatches(d.summary, Lower(query))
  }

  /** The tag stage: no (or an empty) selected tag keeps everything. */
  predicate MatchesTag(d: ArchivedDebate, tag: Option<string>) {
    tag.None? || tag.value == "" || (d.tags.Some? && tag.value in d.tags.value)
  }

  predicate Keeps(d: ArchivedDebate, query: string, tag: Option<string>) {
    MatchesQuery(d, query) && MatchesTag(d, tag)
  }

  /** The search stage of the filter effect. */
  function SearchStage(ds: seq<ArchivedDebate>, query: string): seq<ArchivedDebate> {
    if JsTrim(query) != [] then
      Filter(ds, (d: ArchivedDebate) => FieldMatches(d.title, Lower(query)) || FieldMatches(d.summary, Lower(query)))
    else ds
  }

  /** The tag stage of the filter effect. */
  function TagStage(ds: seq<ArchivedDebate>, tag: Option<string>): seq<ArchivedDebate> {
    if tag.Some? && tag.value != "" then Filter(ds, (d: ArchivedDebate) => d.tags.Some? && tag.value in d.tags.value)
    else ds
  }

  /** The filter effect: the search stage, then the tag stage, each keeping order. The result
      is the debates passing both tests, in their order. */
  function FilterArchive(ds: seq<ArchivedDebate>, query: string, tag: Option<string>): (r: seq<ArchivedDebate>)
    ensures r == Filter(ds, (d: ArchivedDebate) => Keeps(d, query, tag))
  {
    StagesAgree(ds, query, tag);
    TagStage(SearchStage(ds, query), tag)
  }

  lemma StagesAgree(ds: seq<ArchivedDebate>, query: string, tag: Option<string>)
    ensures TagStage(SearchStage(ds, query), tag) == Filter(ds, (d: ArchivedDebate) => Keeps(d, query, tag))
  {
    var searched := SearchStage(ds, query);
    var mq := (d: ArchivedDebate) => MatchesQuery(d, query);
    var mt := (d: ArchivedDebate) => MatchesTag(d, tag);
    FilterStages(ds, mq, mt, (d: ArchivedDebate) => Keeps(d, query, tag));
    if JsTrim(query) != [] {
      FilterSameOn(ds, (d: ArchivedDebate) => MatchesQuery(d, query),
        (d: ArchivedDebate) => FieldMatches(d.title, Lower(query)) || FieldMatches(d.summary, Lower(query)));
    } else {
      FilterAll(ds, (d: ArchivedDebate) => MatchesQuery(d, query));
    }
    if tag.Some? && tag.value != "" {
      FilterSameOn(searched, (d: ArchivedDebate) => MatchesTag(d, tag),
        (d: ArchivedDebate) => d.tags.Some? && tag.value in d.tags.value);
    } else {
      FilterAll(searched, (d: ArchivedDebate) => MatchesTag(d, tag));
    }
    assert searched == Filter(ds, mq);
    assert TagStage(searched, tag) == Filter(searched, mt);
  }

  /** Filtering twice is filtering once by both tests. */
  lemma {:induction false} FilterStages<T>(s: seq<T>, p: T -> bool, q: T -> bool, both: T -> bool)
    requires forall x :: both(x) == (p(x) && q(x))
    ensures Filter(Filter(s, p), q) == Filter(s, both)
    decreases |s|
  {
    if s != [] {
      FilterStages(s[1..], p, q, both);
    }
  }

  /** A blank query and no tag show the whole archive. */
  lemma BlankFilterKeepsAll(ds: seq<ArchivedDebate>, query: string)
    requires JsTrim(query) == []
    ensures FilterArchive(ds, query, None) == ds
  {
    FilterAll(ds, (d: ArchivedDebate) => Keeps(d, query, None));
  }

  /** Selecting a tag only narrows the result. */
  lemma TagNarrows(ds: seq<ArchivedDebate>, query: string, tag: string)
    ensures forall d :: d in FilterArchive(ds, query, Some(tag)) ==> d in FilterArchive(ds, query, None)
  {
  }
}

=== FILE: client_threads.dfy ===
/** The flat-list-to-tree grouping both client views apply to a debate's messages
    (example/frontend/src/components/views/DashboardView.tsx and ArchiveView.tsx), the score
    bands the views colour by, and the agent look-ups. Timestamps are the parsed instants in
    milliseconds. */
module ClientThreads {
  import opened Wrappers
  import opened Seqs
  import opened Text
  import DebateSchema

  datatype ClientMessage = ClientMessage(
    id: string, debateId: string, agentId: string, content: string,
    timestamp: int, parentId: Option<string>)

  predicate SortedByTime(s: seq<ClientMessage>) {
    forall i, j :: 0 <= i < j < |s| ==> s[i].timestamp <= s[j].timestamp
  }

  /** The messages of `s` stamped at instant `t`, in their order in `s`. */
  function AtTime(s: seq<ClientMessage>, t: int): seq<ClientMessage> {
    Filter(s, (m: ClientMessage) => m.timestamp == t)
  }

  /** `m` placed in front of the first element stamped later than it. */
  function InsertByTime(m: ClientMessage, s: seq<ClientMessage>): (r: seq<ClientMessage>)
    requires SortedByTime(s)
    ensures SortedByTime(r)
    ensures multiset(r) == multiset(s) + multiset{m}
    decreases |s|
  {
    if s == [] then [m]
    else if s[0].timestamp <= m.timestamp then
      var rest := InsertByTime(m, s[1..]);
      assert s == [s[0]] + s[1..];
      BoundedBelow(s[0].timestamp, m, s[1..], rest);
      [s[0]] + rest
    else [m] + s
  }

  /** Every element of a permutation of `s` plus `m` is stamped no earlier than a bound
      shared by `m` and all of `s`. */
  lemma BoundedBelow(lo: int, m: ClientMessage, s: seq<ClientMessage>, r: seq<ClientMessage>)
    requires lo <= m.timestamp
    requires forall k :: 0 <= k < |s| ==> lo <= s[k].timestamp
    requires multiset(r) == multiset(s) + multiset{m}
    ensures forall k :: 0 <= k < |r| ==> lo <= r[k].timestamp
  {
    forall k | 0 <= k < |r| ensures lo <= r[k].timestamp {
      assert r[k] in multiset(r);
      if r[k] != m {
        assert r[k] in multiset(s);
        var j :| 0 <= j < |s| && s[j] == r[k];
      }
    }
  }

  /** Inserting after every element stamped no later keeps same-instant messages in arrival order. */
  lemma {:induction false} InsertKeepsTies(m: ClientMessage, s: seq<ClientMessage>, t: int)
    requires SortedByTime(s)
    ensures AtTime(InsertByTime(m, s), t) == AtTime(s + [m], t)
    decreases |s|
  {
    var p := (x: ClientMessage) => x.timestamp == t;
    if s == [] {
    } else if s[0].timestamp <= m.timestamp {
      InsertKeepsTies(m, s[1..], t);
      assert [s[0]] + InsertByTime(m, s[1..]) == InsertByTime(m, s);
      FilterAppend([s[0]], InsertByTime(m, s[1..]), p);
      FilterAppend([s[0]], s[1..] + [m], p);
      HeadTailAppend(s, m);
    } else {
      FilterAppend([m], s, p);
      FilterAppend(s, [m], p);
      if m.timestamp == t {
        forall k | 0 <= k < |s| ensures !p(s[k]) {
          assert s[0].timestamp <= s[k].timestamp;
        }
        FilterNone(s, p);
      }
    }
  }

  lemma {:induction false} FilterNone<T>(s: seq<T>, p: T -> bool)
    requires forall k :: 0 <= k < |s| ==> !p(s[k])
    ensures Filter(s, p) == []
    decreases |s|
  {
    if s != [] {
      FilterNone(s[1..], p);
    }
  }

  /** The stable sort by timestamp (`[...msgs].sort((a, b) => time(a) - time(b))`; the
      language's sort is stable), as an insertion sort over the arrival order. */
  function SortByTime(s: seq<ClientMessage>): (r: seq<ClientMessage>)
    ensures SortedByTime(r)
    ensures multiset(r) == multiset(s)
    decreases |s|
  {
    if s == [] then []
    else
      var init := s[..|s| - 1];
      FrontLast(s);
      InsertByTime(s[|s| - 1], SortByTime(init))
  }

  /** The sort is stable: for every instant, the messages stamped then keep their relative order. */
  lemma {:induction false} SortIsStable(s: seq<ClientMessage>, t: int)
    ensures AtTime(SortByTime(s), t) == AtTime(s, t)
    decreases |s|
  {
    if s != [] {
      var init := s[..|s| - 1];
      var last := s[|s| - 1];
      SortIsStable(init, t);
      InsertKeepsTies(last, SortByTime(init), t);
      var p := (x: ClientMessage) => x.timestamp == t;
      FilterAppend(SortByTime(init), [last], p);
      FilterAppend(init, [last], p);
      FrontLast(s);
    }
  }

  /** The ids present in the list (`messageMap` is only asked whether it has a key). */
  function IdSet(s: seq<ClientMessage>): (ids: set<string>)
    ensures forall k :: 0 <= k < |s| ==> s[k].id in ids
    ensures forall i :: i in ids ==> exists k :: 0 <= k < |s| && s[k].id == i
  {
    set k | 0 <= k < |s| :: s[k].id
  }

  /** A message hangs under another when its parent id is truthy (not null, not empty) and
      names a message of the list. */
  predicate IsChild(m: ClientMessage, ids: set<string>) {
    m.parentId.Some? && m.parentId.value != "" && m.parentId.value in ids
  }

  predicate IsRoot(m: ClientMessage, ids: set<string>) {
    !IsChild(m, ids)
  }

  predicate ChildOf(m: ClientMessage, ids: set<string>, parent: string) {
    IsChild(m, ids) && m.parentId.value == parent
  }

  /** The roots of a list, in its order. */
  function RootsOf(s: seq<ClientMessage>, ids: set<string>): seq<ClientMessage> {
    Filter(s, (m: ClientMessage) => IsRoot(m, ids))
  }

  /** The children of `parent` in a list, in its order. */
  function ChildrenOf(s: seq<ClientMessage>, ids: set<string>, parent: string): seq<ClientMessage> {
    Filter(s, (m: ClientMessage) => ChildOf(m, ids, parent))
  }

  lemma ChildrenOfAppend(s: seq<ClientMessage>, m: ClientMessage, ids: set<string>, parent: string)
    ensures ChildrenOf(s + [m], ids, parent) == ChildrenOf(s, ids, parent) + (if ChildOf(m, ids, parent) then [m] else [])
  {
    FilterAppend(s, [m], (x: ClientMessage) => ChildOf(x, ids, parent));
  }

  lemma RootsOfAppend(s: seq<ClientMessage>, m: ClientMessage, ids: set<string>)
    ensures RootsOf(s + [m], ids) == RootsOf(s, ids) + (if IsRoot(m, ids) then [m] else [])
  {
    FilterAppend(s, [m], (x: ClientMessage) => IsRoot(x, ids));
  }

  /** `childrenMap.get(p) || []`. */
  function Lookup(children: map<string, seq<ClientMessage>>, p: string): seq<ClientMessage> {
    if p in children then children[p] else []
  }

  /** The grouping loop: the sorted list, the roots in order, and per parent id the children
      in order. */
  method GroupThread(messages: seq<ClientMessage>)
      returns (sorted: seq<ClientMessage>, roots: seq<ClientMessage>, children: map<string, seq<ClientMessage>>)
    ensures sorted == SortByTime(messages)
    ensures roots == RootsOf(sorted, IdSet(sorted))
    ensures forall p :: Lookup(children, p) == ChildrenOf(sorted, IdSet(sorted), p)
  {
    sorted := SortByTime(messages);
    var ids := IdSet(sorted);
    roots := [];
    children := map[];
    var i := 0;
    while i < |sorted|
      invariant 0 <= i <= |sorted|
      invariant roots == RootsOf(sorted[..i], ids)
      invariant forall p :: Lookup(children, p) == ChildrenOf(sorted[..i], ids, p)
    {
      TakeOneMore(sorted, i);
      var step := GroupStep(roots, children, sorted[i], sorted[..i], ids);
      roots, children := step.0, step.1;
      i := i + 1;
    }
    assert sorted[..i] == sorted;
  }

  /** One turn of the grouping loop: a root joins the roots, a child its parent's list. */
  function GroupStep(roots: seq<ClientMessage>, children: map<string, seq<ClientMessage>>, m: ClientMessage,
                     done: seq<ClientMessage>, ids: set<string>): (r: (seq<ClientMessage>, map<string, seq<ClientMessage>>))
    requires roots == RootsOf(done, ids)
    requires forall p :: Lookup(children, p) == ChildrenOf(done, ids, p)
    ensures r.0 == RootsOf(done + [m], ids)
    ensures forall p :: Lookup(r.1, p) == ChildrenOf(done + [m], ids, p)
  {
    RootsOfAppend(done, m, ids);
    if IsChild(m, ids) then (roots, AddChild(children, m, done, ids))
    else
      NoChildStep(children, m, done, ids);
      (roots + [m], children)
  }

  /** One step of the grouping for a message that hangs under a parent: it is appended to that
      parent's list. */
  function AddChild(children: map<string, seq<ClientMessage>>, m: ClientMessage,
                    done: seq<ClientMessage>, ids: set<string>): (r: map<string, seq<ClientMessage>>)
    requires IsChild(m, ids)
    requires forall p :: Lookup(children, p) == ChildrenOf(done, ids, p)
    ensures forall p :: Lookup(r, p) == ChildrenOf(done + [m], ids, p)
  {
    var parent := m.parentId.value;
    var r := children[parent := Lookup(children, parent) + [m]];
    forall p ensures Lookup(r, p) == ChildrenOf(done + [m], ids, p) {
      ChildrenOfAppend(done, m, ids, p);
      if p == parent {
        assert Lookup(r, p) == Lookup(children, p) + [m];
      } else {
        assert Lookup(r, p) == Lookup(children, p);
      }
    }
    r
  }

  /** A root leaves every parent's list as it was. */
  lemma NoChildStep(children: map<string, seq<ClientMessage>>, m: ClientMessage,
                    done: seq<ClientMessage>, ids: set<string>)
    requires !IsChild(m, ids)
    requires forall p :: Lookup(children, p) == ChildrenOf(done, ids, p)
    ensures forall p :: Lookup(children, p) == ChildrenOf(done + [m], ids, p)
  {
    forall p ensures Lookup(children, p) == ChildrenOf(done + [m], ids, p) {
      ChildrenOfAppend(done, m, ids, p);
    }
  }

  /** Every message lands in exactly one place: among the roots, or under its own parent and
      no other. */
  lemma Partition(sorted: seq<ClientMessage>, m: ClientMessage, p: string)
    requires m in sorted
    ensures var ids := IdSet(sorted);
      && (m in Filter(sorted, (x: ClientMessage) => IsRoot(x, ids)) <==> !IsChild(m, ids))
      && (m in Filter(sorted, (x: ClientMessage) => ChildOf(x, ids, p)) <==> IsChild(m, ids) && m.parentId.value == p)
  {
  }

  /** Consuming the builder's output: when every stored parent link names a message of the
      thread, the roots are exactly the messages without a parent. */
  lemma RootsAreParentless(sorted: seq<ClientMessage>)
    requires forall k :: 0 <= k < |sorted| && sorted[k].parentId.Some? ==>
      sorted[k].parentId.value != "" && sorted[k].parentId.value in IdSet(sorted)
    ensures Filter(sorted, (x: ClientMessage) => IsRoot(x, IdSet(sorted))) ==
            Filter(sorted, (x: ClientMessage) => x.parentId.None?)
  {
    var ids := IdSet(sorted);
    FilterSameOn(sorted, (x: ClientMessage) => IsRoot(x, ids), (x: ClientMessage) => x.parentId.None?);
  }

  /** A parent link that names no message of the list (dangling, or the empty string) puts the
      message among the roots. */
  lemma DanglingParentIsRoot(sorted: seq<ClientMessage>, k: int)
    requires 0 <= k < |sorted|
    requires sorted[k].parentId.Some? && (sorted[k].parentId.value == "" || sorted[k].parentId.value !in IdSet(sorted))
    ensures sorted[k] in Filter(sorted, (x: ClientMessage) => IsRoot(x, IdSet(sorted)))
  {
  }

  /** The three score bands both views colour by. */
  datatype Band = Low | Elevated | Critical

  function BandOf(score: real): (b: Band)
    ensures b == Critical <==> score >= 71.0
    ensures b == Low <==> score < 31.0
  {
    if score >= 71.0 then Critical else if score >= 31.0 then Elevated else Low
  }

  function Rank(b: Band): nat {
    match b
    case Low => 0
    case Elevated => 1
    case Critical => 2
  }

  /** A higher score never falls into a lower band. */
  lemma BandMonotone(s: real, t: real)
    requires s <= t
    ensures Rank(BandOf(s)) <= Rank(BandOf(t))
  {
  }

  /** The dashboard's footer colour. */
  function DashboardScoreColor(score: real): string {
    if score >= 71.0 then "#f44" else if score >= 31.0 then "var(--accent)" else "#4f4"
  }

  /** The archive's `getScoreColor`. */
  function ArchiveScoreColor(score: real): string {
    if score >= 71.0 then "var(--error)" else if score >= 31.0 then "var(--accent)" else "var(--acid-green)"
  }

  /** Both views cut at the same thresholds: two scores get the same colour in one view iff
      they get the same colour in the other, iff they share a band. */
  lemma ColoursFollowBand(s: real, t: real)
    ensures DashboardScoreColor(s) == DashboardScoreColor(t) <==> BandOf(s) == BandOf(t)
    ensures ArchiveScoreColor(s) == ArchiveScoreColor(t) <==> BandOf(s) == BandOf(t)
  {
  }

  /** A persona entry as the views draw it: display name, colour, whether an icon is shown. */
  datatype AgentConfig = AgentConfig(name: string, color: string, hasIcon: bool)

  /** The shared persona table, keyed by lower-case id (example/frontend/src/lib/constants.ts). */
  function KnownAgent(key: string): Option<AgentConfig> {
    if key == "scout" then Some(AgentConfig("Scout", "#fff", true))
    else if key == "legalist" then Some(AgentConfig("Legalist", "var(--accent)", true))
    else if key == "shrink" then Some(AgentConfig("Shrink", "var(--secondary)", true))
    else if key == "historian" then Some(AgentConfig("Historian", "#888", true))
    else if key == "modernist" then Some(AgentConfig("Modernist", "var(--acid-green)", true))
    else if key == "bureaucrat" then Some(AgentConfig("Bureaucrat", "#ff4444", true))
    else if key == "analyst" then Some(AgentConfig("Analyst", "#00d4ff", true))
    else if key == "ecologist" then Some(AgentConfig("Ecologist", "#afff00", true))
    else if key == "citizen" then Some(AgentConfig("Citizen", "#ddd", true))
    else if key == "auditor" then Some(AgentConfig("Auditor", "var(--error)", true))
    else None
  }

  /** The dashboard looks the id up as it is and draws an unknown one as the scout. */
  function DashboardAgent(agentId: string): (c: AgentConfig)
    ensures c.hasIcon
    ensures KnownAgent(agentId).None? ==> c.name == "Scout"
  {
    match KnownAgent(agentId)
    case Some(c) => c
    case None => KnownAgent("scout").value
  }

  /** The archive looks the lower-cased id up and draws an unknown one under its own id, in
      grey, without an icon. */
  function ArchiveAgent(agentId: string): (c: AgentConfig)
    ensures c.hasIcon <==> KnownAgent(Lower(agentId)).Some?
    ensures !c.hasIcon ==> c.name == agentId && c.color == "#888"
  {
    match KnownAgent(Lower(agentId))
    case Some(c) => c
    case None => AgentConfig(agentId, "#888", false)
  }

  /** Every persona id the generator may emit is known to both views, both draw it alike, and
      the display name is the capitalised id the orchestrator stores as `agent_name`. */
  lemma PersonasResolve(a: DebateSchema.AgentId)
    ensures var id := DebateSchema.AgentIdName(a);
      && KnownAgent(id).Some?
      && DashboardAgent(id) == ArchiveAgent(id) == KnownAgent(id).value
      && DashboardAgent(id).name == Capitalize(id)
  {
    match a
    case Scout => ScoutBureaucratResolve(a);
    case Bureaucrat => ScoutBureaucratResolve(a);
    case Legalist => LegalistHistorianResolve(a);
    case Historian => LegalistHistorianResolve(a);
    case Modernist => ModernistAuditorResolve(a);
    case Auditor => ModernistAuditorResolve(a);
    case Shrink => ShrinkAnalystResolve(a);
    case Analyst => ShrinkAnalystResolve(a);
    case Ecologist => EcologistCitizenResolve(a);
    case Citizen => EcologistCitizenResolve(a);
  }

  lemma ScoutBureaucratResolve(a: DebateSchema.AgentId)
    requires a.Scout? || a.Bureaucrat?
    ensures var id := DebateSchema.AgentIdName(a);
      && KnownAgent(id).Some?
      && DashboardAgent(id) == ArchiveAgent(id) == KnownAgent(id).value
      && DashboardAgent(id).name == Capitalize(id)
  {
    match a
    case Scout => KeyResolves("scout");
    case Bureaucrat => KeyResolves("bureaucrat");
  }

  lemma LegalistHistorianResolve(a: DebateSchema.AgentId)
    requires a.Legalist? || a.Historian?
    ensures var id := DebateSchema.AgentIdName(a);
      && KnownAgent(id).Some?
      && DashboardAgent(id) == ArchiveAgent(id) == KnownAgent(id).value
      && DashboardAgent(id).name == Capitalize(id)
  {
    match a
    case Legalist => KeyResolves("legalist");
    case Historian => KeyResolves("historian");
  }

  lemma ModernistAuditorResolve(a: DebateSchema.AgentId)
    requires a.Modernist? || a.Auditor?
    ensures var id := DebateSchema.AgentIdName(a);
      && KnownAgent(id).Some?
      && DashboardAgent(id) == ArchiveAgent(id) == KnownAgent(id).value
      && DashboardAgent(id).name == Capitalize(id)
  {
    match a
    case Modernist => KeyResolves("modernist");
    case Auditor => KeyResolves("auditor");
  }

  lemma ShrinkAnalystResolve(a: DebateSchema.AgentId)
    requires a.Shrink? || a.Analyst?
    ensures var id := DebateSchema.AgentIdName(a);
      && KnownAgent(id).Some?
      && DashboardAgent(id) == ArchiveAgent(id) == KnownAgent(id).value
      && DashboardAgent(id).name == Capitalize(id)
  {
    match a
    case Shrink => KeyResolves("shrink");
    case Analyst => KeyResolves("analyst");
  }

  lemma EcologistCitizenResolve(a: DebateSchema.AgentId)
    requires a.Ecologist? || a.Citizen?
    ensures var id := DebateSchema.AgentIdName(a);
      && KnownAgent(id).Some?
      && DashboardAgent(id) == ArchiveAgent(id) == KnownAgent(id).value
      && DashboardAgent(id).name == Capitalize(id)
  {
    match a
    case Ecologist => KeyResolves("ecologist");
    case Citizen => KeyResolves("citizen");
  }

  lemma KeyResolves(id: string)
    requires |id| > 0 && forall k :: 0 <= k < |id| ==> 'a' <= id[k] <= 'z'
    requires KnownAgent(id).Some? && KnownAgent(id).value.name == [UpperChar(id[0])] + id[1..]
    ensures DashboardAgent(id) == ArchiveAgent(id) == KnownAgent(id).value
    ensures DashboardAgent(id).name == Capitalize(id)
  {
    LowerOfLower(id);
    LowerOfLower(id[1..]);
  }

  /** The archive's look-up ignores ASCII case. */
  lemma ArchiveIgnoresCase(x: string, y: string)
    requires Lower(x) == Lower(y) && KnownAgent(Lower(x)).Some?
    ensures ArchiveAgent(x) == ArchiveAgent(y)
  {
  }

  /** The two views disagree on ids the dashboard's case-sensitive look-up misses: for `Auditor`
      the dashboard falls back to the scout, while the archive lower-cases it and finds the
      auditor, whose display name happens to be `Auditor`. */
  lemma UnknownIdsDiffer()
    ensures DashboardAgent("Auditor").name == "Scout"
    ensures ArchiveAgent("Auditor").name == "Auditor"
  {
    AuditorLowered();
    UpperUnknown("Auditor");
  }

  /** An id neither view knows: the dashboard falls back to the scout, and the archive draws the
      id itself, in grey and without an icon. */
  lemma StrangerIdsDiffer()
    ensures DashboardAgent("Zz").name == "Scout"
    ensures ArchiveAgent("Zz") == AgentConfig("Zz", "#888", false)
  {
    UpperUnknown("Zz");
    var l := Lower("Zz");
    assert l[0] == 'z' && l[1] == LowerChar('z') == 'z';
    assert l == "zz";
  }

  /** The known keys are all lower-case, so an id starting with a capital is unknown. */
  lemma UpperUnknown(s: string)
    requires |s| > 0 && 'A' <= s[0] <= 'Z'
    ensures KnownAgent(s).None?
  {
  }

  lemma AuditorLowered()
    ensures Lower("Auditor") == "auditor"
  {
    var l := Lower("Auditor");
    assert l[0] == 'a';
    assert l[1..] == Lower("uditor");
    LowerOfLower("uditor");
  }
}

=== FILE: dashboard.dfy ===
/** The dashboard's state reducers (example/frontend/src/components/views/DashboardView.tsx):
    the one-vote guard, the realtime change reducer, and the paged feed. The store's answers
    are inputs; the voted set is the in-memory set, its persistence in the browser is left out. */
module Dashboard {
  import opened Wrappers
  import opened Seqs
  import opened ClientThreads

  /** A debate row as the feed reads it. */
  datatype Header = Header(
    id: string, title: string, summary: string, absurdScore: real,
    tags: seq<string>, confirmations: Option<int>, sourceUrl: Option<string>)

  /** A debate on screen: its row and the messages loaded for it. */
  datatype Card = Card(header: Header, messages: seq<ClientMessage>)

  const PageSize: nat := 5

  /** `(confirmations || 0)`: a missing count reads as 0. */
  function CountOr0(c: Option<int>): int {
    if c.Some? then c.value else 0
  }

  /** The row write a vote sends: new confirmations and new score for one id. */
  datatype VoteWrite = VoteWrite(id: string, confirmations: int, absurdScore: real)

  datatype Voting = Voting(cards: seq<Card>, voted: set<string>)

  datatype VoteResult = VoteResult(state: Voting, write: Option<VoteWrite>)

  /** `handleConfirmAbsurd`: a second vote from the same browser is ignored. Otherwise both the
      confirmations and the score of the first card with that id go up by one; the new values
      are written to the store and to every card with that id; the id joins the voted set.
      A card that is not on screen counts from 0. */
  function Vote(s: Voting, debateId: string): (r: VoteResult)
    ensures debateId in s.voted ==> r.state == s && r.write.None?
    ensures debateId !in s.voted ==> r.state.voted == s.voted + {debateId} && r.write.Some?
    ensures |r.state.cards| == |s.cards|
    ensures forall k :: 0 <= k < |s.cards| && s.cards[k].header.id != debateId ==> r.state.cards[k] == s.cards[k]
    ensures forall k :: 0 <= k < |s.cards| ==> r.state.cards[k].messages == s.cards[k].messages
    ensures debateId !in s.voted ==>
      var i := FirstIndex(s.cards, (c: Card) => c.header.id == debateId);
      && (i >= 0 ==> r.write.value == VoteWrite(debateId, CountOr0(s.cards[i].header.confirmations) + 1,
                                                 s.cards[i].header.absurdScore + 1.0))
      && (i < 0 ==> r.write.value == VoteWrite(debateId, 1, 1.0))
      && (forall k :: 0 <= k < |s.cards| && s.cards[k].header.id == debateId ==>
            r.state.cards[k].header == s.cards[k].header.(confirmations := Some(r.write.value.confirmations),
                                                            absurdScore := r.write.value.absurdScore))
  {
    if debateId in s.voted then VoteResult(s, None)
    else
      var i := FirstIndex(s.cards, (c: Card) => c.header.id == debateId);
      var conf := if i >= 0 then CountOr0(s.cards[i].header.confirmations) + 1 else 1;
      var score := if i >= 0 then s.cards[i].header.absurdScore + 1.0 else 1.0;
      var cards := UpdateWhere(s.cards, (c: Card) => c.header.id == debateId,
        (c: Card) => c.(header := c.header.(confirmations := Some(conf), absurdScore := score)));
      VoteResult(Voting(cards, s.voted + {debateId}), Some(VoteWrite(debateId, conf, score)))
  }

  /** One browser adds at most one confirmation per debate: voting again changes nothing and
      writes nothing. */
  lemma VoteOnce(s: Voting, debateId: string)
    ensures var once := Vote(s, debateId).state;
      Vote(once, debateId).state == once && Vote(once, debateId).write.None?
  {
  }

  /** A first vote raises the first matching card's count and score by exactly one. */
  lemma VoteAddsOne(s: Voting, debateId: string, i: int)
    requires debateId !in s.voted
    requires 0 <= i < |s.cards| && s.cards[i].header.id == debateId
    requires forall k :: 0 <= k < i ==> s.cards[k].header.id != debateId
    ensures var c := Vote(s, debateId).state.cards[i].header;
      && CountOr0(c.confirmations) == CountOr0(s.cards[i].header.confirmations) + 1
      && c.absurdScore == s.cards[i].header.absurdScore + 1.0
  {
    var i' := FirstIndex(s.cards, (c: Card) => c.header.id == debateId);
    assert i' == i;
  }

  /** The realtime events the dashboard subscribes to. */
  datatype Event =
    | DebateInserted(row: Header)
    | DebateUpdated(row: Header)
    | DebateDeleted(id: string)
    | MessageInserted(msg: ClientMessage)

  predicate HasMessage(ms: seq<ClientMessage>, id: string) {
    exists k :: 0 <= k < |ms| && ms[k].id == id
  }

  /** The card receives the message: it is the message's debate and does not hold that id yet. */
  predicate Receives(c: Card, m: ClientMessage) {
    c.header.id == m.debateId && !HasMessage(c.messages, m.id)
  }

  /** The change reducer: a new debate goes on top with no messages; an update replaces the
      row fields of every card with that id and keeps their messages; a delete drops every card
      with that id; a new message is appended to its debate's card unless already there. */
  function Apply(cards: seq<Card>, e: Event): (r: seq<Card>)
    ensures e.DebateInserted? ==> |r| == |cards| + 1 && r[0] == Card(e.row, []) && r[1..] == cards
    ensures e.DebateUpdated? || e.MessageInserted? ==> |r| == |cards|
    ensures e.DebateUpdated? ==> forall k :: 0 <= k < |cards| ==>
      r[k].messages == cards[k].messages &&
      r[k].header == (if cards[k].header.id == e.row.id then e.row else cards[k].header)
    ensures e.DebateDeleted? ==>
      && (forall k :: 0 <= k < |r| ==> r[k].header.id != e.id)
      && (forall k :: 0 <= k < |cards| && cards[k].header.id != e.id ==> cards[k] in r)
      && (forall k :: 0 <= k < |r| ==> r[k] in cards)
      && Subsequence(r, cards)
      && (forall c :: multiset(r)[c] == if c.header.id != e.id then multiset(cards)[c] else 0)
    ensures e.MessageInserted? ==> forall k :: 0 <= k < |cards| ==>
      r[k].header == cards[k].header &&
      r[k].messages == cards[k].messages + (if Receives(cards[k], e.msg) then [e.msg] else [])
  {
    match e
    case DebateInserted(row) => [Card(row, [])] + cards
    case DebateUpdated(row) =>
      UpdateWhere(cards, (c: Card) => c.header.id == row.id, (c: Card) => c.(header := row))
    case DebateDeleted(id) =>
      var keep := (c: Card) => c.header.id != id;
      FilterKeepsOrder(cards, keep);
      Filter(cards, keep)
    case MessageInserted(m) =>
      UpdateWhere(cards, (c: Card) => Receives(c, m), (c: Card) => c.(messages := c.messages + [m]))
  }

  /** A message event delivered twice has the effect of one. */
  lemma MessageInsertIdempotent(cards: seq<Card>, m: ClientMessage)
    ensures Apply(Apply(cards, MessageInserted(m)), MessageInserted(m)) == Apply(cards, MessageInserted(m))
  {
    var once := Apply(cards, MessageInserted(m));
    var twice := Apply(once, MessageInserted(m));
    forall k | 0 <= k < |cards| ensures twice[k] == once[k] {
      if Receives(cards[k], m) {
        assert once[k].messages[|cards[k].messages|] == m;
      }
    }
  }

  /** So are update and delete events. */
  lemma HeaderEventsIdempotent(cards: seq<Card>, e: Event)
    requires e.DebateUpdated? || e.DebateDeleted?
    ensures Apply(Apply(cards, e), e) == Apply(cards, e)
  {
    if e.DebateDeleted? {
      var once := Apply(cards, e);
      FilterAll(once, (c: Card) => c.header.id != e.id);
    }
  }

  predicate DistinctIds(ms: seq<ClientMessage>) {
    forall i, j :: 0 <= i < j < |ms| ==> ms[i].id != ms[j].id
  }

  /** The de-duplication keeps every card's message ids distinct. */
  lemma MessageInsertKeepsIdsDistinct(cards: seq<Card>, m: ClientMessage)
    requires forall k :: 0 <= k < |cards| ==> DistinctIds(cards[k].messages)
    ensures var r := Apply(cards, MessageInserted(m));
      forall k :: 0 <= k < |r| ==> DistinctIds(r[k].messages)
  {
    var r := Apply(cards, MessageInserted(m));
    forall k | 0 <= k < |r| ensures DistinctIds(r[k].messages) {
      if Receives(cards[k], m) {
        var ms := cards[k].messages;
        forall i, j | 0 <= i < j < |ms| + 1 ensures (ms + [m])[i].id != (ms + [m])[j].id {
          if j == |ms| {
            assert (ms + [m])[i] == ms[i];
          }
        }
      }
    }
  }

  /** The paged feed: the cards on screen, whether another page may exist, whether a page
      load is under way. */
  datatype Feed = Feed(cards: seq<Card>, hasMore: bool, loadingMore: bool)

  /** `.range(offset, offset + 4)` over the debates in display order. */
  function Page(rows: seq<Header>, offset: nat): (p: seq<Header>)
    ensures |p| <= PageSize
    ensures offset <= |rows| ==> |p| == (if |rows| - offset < PageSize then |rows| - offset else PageSize)
    ensures forall k :: 0 <= k < |p| ==> offset + k < |rows| && p[k] == rows[offset + k]
  {
    if offset >= |rows| then []
    else if offset + PageSize <= |rows| then rows[offset..offset + PageSize]
    else rows[offset..]
  }

  /** A debate's messages out of the page's message answer (ordered by time). */
  function MessagesFor(msgs: seq<ClientMessage>, id: string): seq<ClientMessage> {
    Filter(msgs, (m: ClientMessage) => m.debateId == id)
  }

  function Merge(page: seq<Header>, msgs: seq<ClientMessage>): (cards: seq<Card>)
    ensures |cards| == |page|
    ensures forall k :: 0 <= k < |page| ==> cards[k] == Card(page[k], MessagesFor(msgs, page[k].id))
  {
    if page == [] then [] else [Card(page[0], MessagesFor(msgs, page[0].id))] + Merge(page[1..], msgs)
  }

  function Headers(cards: seq<Card>): (hs: seq<Header>)
    ensures |hs| == |cards|
    ensures forall k :: 0 <= k < |cards| ==> hs[k] == cards[k].header
  {
    if cards == [] then [] else [cards[0].header] + Headers(cards[1..])
  }

  /** `fetchDebates(offset, append)` against the debates `rows` (already filtered by tag and
      ordered newest first) and the message table `msgs`. A failed read changes nothing but the
      loading flag. A short page ends the feed. An empty page leaves the cards as they were,
      even when it was meant to replace them. */
  function Fetch(f: Feed, rows: seq<Header>, msgs: seq<ClientMessage>, offset: nat, append: bool, fault: bool): (r: Feed)
    ensures !r.loadingMore
    ensures fault ==> r == f.(loadingMore := false)
    ensures !fault ==> (r.hasMore <==> f.hasMore && |Page(rows, offset)| == PageSize)
    ensures !fault && Page(rows, offset) == [] ==> r.cards == f.cards
    ensures !fault && Page(rows, offset) != [] ==>
      r.cards == (if append then f.cards else []) + Merge(Page(rows, offset), msgs)
  {
    if fault then f.(loadingMore := false)
    else
      var page := Page(rows, offset);
      var hasMore := if |page| < PageSize then false else f.hasMore;
      if |page| > 0 then
        var merged := Merge(page, msgs);
        Feed(if append then f.cards + merged else merged, hasMore, false)
      else Feed(f.cards, hasMore, false)
  }

  /** The same fetch with a replacing load that always replaces, as the filter change evidently
      intends: an empty first page empties the feed. */
  function FetchReplacing(f: Feed, rows: seq<Header>, msgs: seq<ClientMessage>, offset: nat, append: bool, fault: bool): (r: Feed)
    ensures !fault && !append ==> r.cards == Merge(Page(rows, offset), msgs)
    ensures append || fault ==> r == Fetch(f, rows, msgs, offset, append, fault)
  {
    if fault || append then Fetch(f, rows, msgs, offset, append, fault)
    else
      var page := Page(rows, offset);
      Feed(Merge(page, msgs), |page| == PageSize && f.hasMore, false)
  }

  /** The load that runs on mount and on every tag change: the feed is reopened, then the
      first page replaces the cards. */
  function Reload(f: Feed, rows: seq<Header>, msgs: seq<ClientMessage>): Feed {
    FetchReplacing(f.(hasMore := true), rows, msgs, 0, false, false)
  }

  /** The same load as written, with the fetch that keeps the cards on an empty page. */
  function ReloadAsWritten(f: Feed, rows: seq<Header>, msgs: seq<ClientMessage>): Feed {
    Fetch(f.(hasMore := true), rows, msgs, 0, false, false)
  }

  /** `loadMore`: the next page at offset = the number of cards, only when no load is under
      way and the feed is not exhausted. */
  function LoadMore(f: Feed, rows: seq<Header>, msgs: seq<ClientMessage>): (r: Feed)
    ensures f.loadingMore || !f.hasMore ==> r == f
  {
    if !f.loadingMore && f.hasMore then Fetch(f, rows, msgs, |f.cards|, true, false) else f
  }

  function Min(a: int, b: int): int {
    if a <= b then a else b
  }

  /** After `c` page loads without interference the feed shows exactly the first 5c debates
      (or all of them) with their messages, and it is open iff every page so far was full. */
  predicate Shows(f: Feed, rows: seq<Header>, msgs: seq<ClientMessage>, c: nat) {
    && Headers(f.cards) == rows[..Min(PageSize * c, |rows|)]
    && (f.hasMore <==> |rows| >= PageSize * c)
    && !f.loadingMore
    && CarriesMessages(f.cards, msgs)
  }

  /** Every card holds its own debate's messages. */
  predicate CarriesMessages(cards: seq<Card>, msgs: seq<ClientMessage>) {
    forall k :: 0 <= k < |cards| ==> cards[k].messages == MessagesFor(msgs, cards[k].header.id)
  }

  lemma CarriesAppend(a: seq<Card>, b: seq<Card>, msgs: seq<ClientMessage>)
    requires CarriesMessages(a, msgs) && CarriesMessages(b, msgs)
    ensures CarriesMessages(a + b, msgs)
  {
    forall k | 0 <= k < |a + b| ensures (a + b)[k].messages == MessagesFor(msgs, (a + b)[k].header.id) {
      if k >= |a| {
        assert (a + b)[k] == b[k - |a|];
      }
    }
  }

  /** The reload shows the first page whatever was on screen before. */
  lemma ReloadShowsFirstPage(f: Feed, rows: seq<Header>, msgs: seq<ClientMessage>)
    ensures Shows(Reload(f, rows, msgs), rows, msgs, 1)
  {
    var r := Reload(f, rows, msgs);
    var page := Page(rows, 0);
    assert Headers(r.cards) == rows[..Min(PageSize, |rows|)];
  }

  lemma HeadersAppend(a: seq<Card>, b: seq<Card>)
    ensures Headers(a + b) == Headers(a) + Headers(b)
  {
    assert Headers(a + b) == Headers(a) + Headers(b);
  }

  lemma HeadersOfMerge(page: seq<Header>, msgs: seq<ClientMessage>)
    ensures Headers(Merge(page, msgs)) == page
  {
    assert Headers(Merge(page, msgs)) == page;
  }

  /** Each further load extends the feed by the next page and keeps the invariant. */
  lemma LoadMoreShowsNextPage(f: Feed, rows: seq<Header>, msgs: seq<ClientMessage>, c: nat)
    requires c >= 1 && Shows(f, rows, msgs, c)
    ensures Shows(LoadMore(f, rows, msgs), rows, msgs, c + 1)
  {
    if f.hasMore {
      var n := |f.cards|;
      assert n == PageSize * c;
      var page := Page(rows, n);
      if page != [] {
        NextPageAppended(f, rows, msgs, c);
      }
    }
  }

  lemma NextPageAppended(f: Feed, rows: seq<Header>, msgs: seq<ClientMessage>, c: nat)
    requires c >= 1 && Shows(f, rows, msgs, c) && f.hasMore
    requires Page(rows, |f.cards|) != []
    ensures Shows(LoadMore(f, rows, msgs), rows, msgs, c + 1)
  {
    LoadMoreAppends(f, rows, msgs);
    NextPageShows(f, LoadMore(f, rows, msgs), rows, msgs, c);
  }

  /** A feed that got the next page behind the cards of `c` pages shows `c + 1` pages. */
  lemma NextPageShows(f: Feed, r: Feed, rows: seq<Header>, msgs: seq<ClientMessage>, c: nat)
    requires c >= 1 && Shows(f, rows, msgs, c) && f.hasMore
    requires r.cards == f.cards + Merge(Page(rows, |f.cards|), msgs)
    requires r.hasMore <==> |Page(rows, |f.cards|)| == PageSize
    requires !r.loadingMore
    ensures Shows(r, rows, msgs, c + 1)
  {
    var n := |f.cards|;
    var page := Page(rows, n);
    assert n == PageSize * c;
    NextPageCounts(|rows|, n, c, |page|);
    NextHeaders(f.cards, Merge(page, msgs), page, rows, msgs, n, Min(PageSize * (c + 1), |rows|));
    MergeCarries(page, msgs);
    CarriesAppend(f.cards, Merge(page, msgs), msgs);
  }

  /** An open, idle feed loads the next page behind its cards. */
  lemma LoadMoreAppends(f: Feed, rows: seq<Header>, msgs: seq<ClientMessage>)
    requires f.hasMore && !f.loadingMore && Page(rows, |f.cards|) != []
    ensures var r := LoadMore(f, rows, msgs); var page := Page(rows, |f.cards|);
      r.cards == f.cards + Merge(page, msgs) && (r.hasMore <==> |page| == PageSize) && !r.loadingMore
  {
  }

  lemma MergeCarries(page: seq<Header>, msgs: seq<ClientMessage>)
    ensures CarriesMessages(Merge(page, msgs), msgs)
  {
  }

  /** The next page is full exactly when the rows reach past it, and it ends where the next count ends. */
  lemma NextPageCounts(total: nat, n: nat, c: nat, len: nat)
    requires n == PageSize * c && n <= total
    requires len == (if total - n < PageSize then total - n else PageSize)
    ensures len == PageSize <==> total >= PageSize * (c + 1)
    ensures n + len == Min(PageSize * (c + 1), total)
  {
    assert PageSize * (c + 1) == n + PageSize;
  }

  lemma NextHeaders(cards: seq<Card>, merged: seq<Card>, page: seq<Header>, rows: seq<Header>,
                    msgs: seq<ClientMessage>, n: nat, m: nat)
    requires n == |cards| && n <= m <= |rows|
    requires Headers(cards) == rows[..n]
    requires merged == Merge(page, msgs) && page == rows[n..m]
    ensures Headers(cards + merged) == rows[..m]
  {
    HeadersAppend(cards, merged);
    HeadersOfMerge(page, msgs);
    assert rows[..n] + rows[n..m] == rows[..m];
  }

  /** The feed after a reload and `n` further loads. */
  function AfterLoads(f: Feed, rows: seq<Header>, msgs: seq<ClientMessage>, n: nat): Feed {
    if n == 0 then Reload(f, rows, msgs) else LoadMore(AfterLoads(f, rows, msgs, n - 1), rows, msgs)
  }

  /** Paging neither skips nor repeats a debate: after a reload and `n` loads the cards are the
      first min(5(n+1), total) debates in order, each with its own messages. */
  lemma {:induction false} PagingShowsPrefix(f: Feed, rows: seq<Header>, msgs: seq<ClientMessage>, n: nat)
    ensures Shows(AfterLoads(f, rows, msgs, n), rows, msgs, n + 1)
  {
    if n == 0 {
      ReloadShowsFirstPage(f, rows, msgs);
    } else {
      PagingShowsPrefix(f, rows, msgs, n - 1);
      LoadMoreShowsNextPage(AfterLoads(f, rows, msgs, n - 1), rows, msgs, n);
    }
  }

  /** As written, changing the tag to one with no debates keeps the previous tag's cards on
      screen. */
  lemma EmptyReloadKeepsStaleCards(h: Header)
    ensures ReloadAsWritten(Feed([Card(h, [])], false, false), [], []).cards == [Card(h, [])]
    ensures Reload(Feed([Card(h, [])], false, false), [], []).cards == []
  {
  }
}

=== FILE: debate_schema.dfy ===
/** The closed schemas of the debate generator's structured output and the
    application's Debate/Message models (example/backend/app/models/debate.py). */
module DebateSchema {
  import opened Wrappers

  /** The ten persona ids a generated message may carry. */
  datatype AgentId =
    | Scout | Bureaucrat | Legalist | Historian | Modernist
    | Auditor | Shrink | Analyst | Ecologist | Citizen

  /** The ten categories of a generated message. */
  datatype MessageType =
    | Discovery | BureaucratType | Legal | History | Tech
    | Audit | ShrinkType | Stats | Eco | Human

  const AllAgentIds: seq<AgentId> :=
    [Scout, Bureaucrat, Legalist, Historian, Modernist, Auditor, Shrink, Analyst, Ecologist, Citizen]

  const AllMessageTypes: seq<MessageType> :=
    [Discovery, BureaucratType, Legal, History, Tech, Audit, ShrinkType, Stats, Eco, Human]

  /** The wire spelling of a persona id. */
  function AgentIdName(a: AgentId): string {
    match a
    case Scout => "scout"
    case Bureaucrat => "bureaucrat"
    case Legalist => "legalist"
    case Historian => "historian"
    case Modernist => "modernist"
    case Auditor => "auditor"
    case Shrink => "shrink"
    case Analyst => "analyst"
    case Ecologist => "ecologist"
    case Citizen => "citizen"
  }

  /** The wire spelling of a message category. */
  function MessageTypeName(t: MessageType): string {
    match t
    case Discovery => "discovery"
    case BureaucratType => "bureaucrat"
    case Legal => "legal"
    case History => "history"
    case Tech => "tech"
    case Audit => "audit"
    case ShrinkType => "shrink"
    case Stats => "stats"
    case Eco => "eco"
    case Human => "human"
  }

  /** Literal-type validation of `agent_id`: exactly the ten spellings are accepted. */
  function ParseAgentId(s: string): (r: Option<AgentId>)
    ensures r.Some? ==> AgentIdName(r.value) == s
    ensures r.None? ==> forall a :: AgentIdName(a) != s
  {
    if s == "scout" then Some(Scout)
    else if s == "bureaucrat" then Some(Bureaucrat)
    else if s == "legalist" then Some(Legalist)
    else if s == "historian" then Some(Historian)
    else if s == "modernist" then Some(Modernist)
    else if s == "auditor" then Some(Auditor)
    else if s == "shrink" then Some(Shrink)
    else if s == "analyst" then Some(Analyst)
    else if s == "ecologist" then Some(Ecologist)
    else if s == "citizen" then Some(Citizen)
    else None
  }

  /** Literal-type validation of `message_type`. */
  function ParseMessageType(s: string): (r: Option<MessageType>)
    ensures r.Some? ==> MessageTypeName(r.value) == s
    ensures r.None? ==> forall t :: MessageTypeName(t) != s
  {
    if s == "discovery" then Some(Discovery)
    else if s == "bureaucrat" then Some(BureaucratType)
    else if s == "legal" then Some(Legal)
    else if s == "history" then Some(History)
    else if s == "tech" then Some(Tech)
    else if s == "audit" then Some(Audit)
    else if s == "shrink" then Some(ShrinkType)
    else if s == "stats" then Some(Stats)
    else if s == "eco" then Some(Eco)
    else if s == "human" then Some(Human)
    else None
  }

  /** There are exactly ten pairwise distinct persona spellings. */
  lemma AgentNamesDistinct()
    ensures |AllAgentIds| == 10
    ensures forall i, j :: 0 <= i < j < |AllAgentIds| ==> AgentIdName(AllAgentIds[i]) != AgentIdName(AllAgentIds[j])
  {
    forall i, j | 0 <= i < j < |AllAgentIds| ensures AgentIdName(AllAgentIds[i]) != AgentIdName(AllAgentIds[j]) {
      AgentIdsClosed(AllAgentIds[i]);
      AgentIdsClosed(AllAgentIds[j]);
    }
  }

  /** Printing then validating a persona id gives it back, and every id is listed. */
  lemma AgentIdsClosed(a: AgentId)
    ensures ParseAgentId(AgentIdName(a)) == Some(a)
    ensures a in AllAgentIds
  {
    if a.Scout? || a.Bureaucrat? || a.Legalist? || a.Historian? || a.Modernist? {
      EarlyAgentIdsClosed(a);
    } else {
      LateAgentIdsClosed(a);
    }
  }

  lemma EarlyAgentIdsClosed(a: AgentId)
    requires a.Scout? || a.Bureaucrat? || a.Legalist? || a.Historian? || a.Modernist?
    ensures ParseAgentId(AgentIdName(a)) == Some(a) && a in AllAgentIds
  {
    match a
    case Scout =>
    case Bureaucrat =>
    case Legalist =>
    case Historian =>
    case Modernist =>
  }

  lemma LateAgentIdsClosed(a: AgentId)
    requires !(a.Scout? || a.Bureaucrat? || a.Legalist? || a.Historian? || a.Modernist?)
    ensures ParseAgentId(AgentIdName(a)) == Some(a) && a in AllAgentIds
  {
    match a
    case Auditor =>
    case Shrink =>
    case Analyst =>
    case Ecologist =>
    case Citizen =>
  }

  /** There are exactly ten pairwise distinct category spellings. */
  lemma MessageTypeNamesDistinct()
    ensures |AllMessageTypes| == 10
    ensures forall i, j :: 0 <= i < j < |AllMessageTypes| ==> MessageTypeName(AllMessageTypes[i]) != MessageTypeName(AllMessageTypes[j])
  {
    forall i, j | 0 <= i < j < |AllMessageTypes| ensures MessageTypeName(AllMessageTypes[i]) != MessageTypeName(AllMessageTypes[j]) {
      MessageTypesClosed(AllMessageTypes[i]);
      MessageTypesClosed(AllMessageTypes[j]);
    }
  }

  /** Printing then validating a message category gives it back, and every category is listed. */
  lemma MessageTypesClosed(t: MessageType)
    ensures ParseMessageType(MessageTypeName(t)) == Some(t)
    ensures t in AllMessageTypes
  {
    if t.Discovery? || t.BureaucratType? || t.Legal? || t.History? || t.Tech? {
      EarlyMessageTypesClosed(t);
    } else {
      LateMessageTypesClosed(t);
    }
  }

  lemma EarlyMessageTypesClosed(t: MessageType)
    requires t.Discovery? || t.BureaucratType? || t.Legal? || t.History? || t.Tech?
    ensures ParseMessageType(MessageTypeName(t)) == Some(t) && t in AllMessageTypes
  {
    match t
    case Discovery =>
    case BureaucratType =>
    case Legal =>
    case History =>
    case Tech =>
  }

  lemma LateMessageTypesClosed(t: MessageType)
    requires !(t.Discovery? || t.BureaucratType? || t.Legal? || t.History? || t.Tech?)
    ensures ParseMessageType(MessageTypeName(t)) == Some(t) && t in AllMessageTypes
  {
    match t
    case Audit =>
    case ShrinkType =>
    case Stats =>
    case Eco =>
    case Human =>
  }

  /** One generated reply. `parentIndex` is optional and carries no range constraint. */
  datatype AgentMessage = AgentMessage(agentId: AgentId, content: string, messageType: MessageType, parentIndex: Option<int>)

  /** The generator's structured result: no bound on the score, no length constraint on
      `messages`, no vocabulary constraint on `tags`. */
  datatype DebateResult = DebateResult(summary: string, absurdScore: real, messages: seq<AgentMessage>, tags: seq<string>)

  /** A reply as the generator emits it, before schema validation. */
  datatype RawMessage = RawMessage(agentId: string, content: string, messageType: string, parentIndex: Option<int>)

  datatype RawResult = RawResult(summary: string, absurdScore: real, messages: seq<RawMessage>, tags: seq<string>)

  /** Schema validation of one reply; `parentIndex` passes through unchecked. */
  function ValidateMessage(m: RawMessage): (r: Option<AgentMessage>)
    ensures r.Some? <==> ParseAgentId(m.agentId).Some? && ParseMessageType(m.messageType).Some?
    ensures r.Some? ==> AgentIdName(r.value.agentId) == m.agentId && MessageTypeName(r.value.messageType) == m.messageType
    ensures r.Some? ==> r.value.content == m.content && r.value.parentIndex == m.parentIndex
  {
    match (ParseAgentId(m.agentId), ParseMessageType(m.messageType))
    case (Some(a), Some(t)) => Some(AgentMessage(a, m.content, t, m.parentIndex))
    case _ => None
  }

  /** Schema validation of every reply: all of them pass, or the list is rejected. */
  function ValidateMessages(ms: seq<RawMessage>): (r: Option<seq<AgentMessage>>)
    ensures r.Some? <==> forall k :: 0 <= k < |ms| ==> ValidateMessage(ms[k]).Some?
    ensures r.Some? ==> |r.value| == |ms| && forall k :: 0 <= k < |ms| ==> Some(r.value[k]) == ValidateMessage(ms[k])
    decreases |ms|
  {
    if ms == [] then Some([])
    else
      var head := ValidateMessage(ms[0]);
      var tail := ValidateMessages(ms[1..]);
      if head.None? then None
      else if tail.None? then
        BadTail(ms);
        None
      else
        GoodCons(ms, head.value, tail.value, ValidateMessage);
        Some([head.value] + tail.value)
  }

  /** A reply that fails validation in the tail fails the whole list. */
  lemma BadTail(ms: seq<RawMessage>)
    requires ms != [] && !forall k :: 0 <= k < |ms| - 1 ==> ValidateMessage(ms[1..][k]).Some?
    ensures !forall k :: 0 <= k < |ms| ==> ValidateMessage(ms[k]).Some?
  {
    var j :| 0 <= j < |ms| - 1 && ValidateMessage(ms[1..][j]).None?;
    assert ms[j + 1] == ms[1..][j];
  }

  /** A validated head in front of the validated tail validates the whole list. */
  lemma GoodCons<T, U>(xs: seq<T>, y: U, ys: seq<U>, check: T -> Option<U>)
    requires xs != [] && check(xs[0]) == Some(y)
    requires |ys| == |xs| - 1 && forall k :: 0 <= k < |ys| ==> check(xs[1..][k]) == Some(ys[k])
    ensures forall k :: 0 <= k < |xs| ==> check(xs[k]) == Some(([y] + ys)[k])
  {
    forall k | 0 < k < |xs| ensures check(xs[k]) == Some(([y] + ys)[k]) {
      assert xs[k] == xs[1..][k - 1];
    }
  }

  /** Validation of a whole result: it fails as a unit when any reply is outside the
      closed vocabularies; otherwise every field passes through unchanged. */
  function ValidateResult(raw: RawResult): (r: Result<DebateResult>)
    ensures r.Ok? <==> forall k :: 0 <= k < |raw.messages| ==> ValidateMessage(raw.messages[k]).Some?
    ensures r.Ok? ==> r.value.summary == raw.summary && r.value.absurdScore == raw.absurdScore
    ensures r.Ok? ==> r.value.tags == raw.tags && |r.value.messages| == |raw.messages|
  {
    match ValidateMessages(raw.messages)
    case Some(ms) => Ok(DebateResult(raw.summary, raw.absurdScore, ms, raw.tags))
    case None => Err("validation error")
  }

  /** The application's Message model; `timestamp` is the creation clock reading. */
  datatype Message = Message(
    id: Option<string>, debateId: Option<string>, agentId: string, agentName: string, role: string,
    content: string, timestamp: int, kind: string, parentId: Option<string>)

  /** The application's Debate model. */
  datatype Debate = Debate(
    id: string, title: string, summary: Option<string>, absurdScore: real, status: string,
    createdAt: int, messages: seq<Message>, tags: seq<string>)

  /** A Message built with every defaulted field left at its default. */
  function NewMessage(agentId: string, agentName: string, role: string, content: string, now: int): (m: Message)
    ensures m.id.None? && m.debateId.None? && m.parentId.None?
    ensures m.kind == "text" && m.timestamp == now
    ensures m.agentId == agentId && m.agentName == agentName && m.role == role && m.content == content
  {
    Message(None, None, agentId, agentName, role, content, now, "text", None)
  }

  /** A Debate built with every defaulted field left at its default. */
  function NewDebate(id: string, title: string, now: int): (d: Debate)
    ensures d.status == "active" && d.absurdScore == 0.0 && d.summary.None?
    ensures d.tags == [] && d.messages == [] && d.createdAt == now
    ensures d.id == id && d.title == title
  {
    Debate(id, title, None, 0.0, "active", now, [], [])
  }
}

=== FILE: env_config.dfy ===
/** The desktop agent's `.env` handling (backend/config.py). The file is modelled as its
    sequence of lines (`None` when it does not exist); a line never holds a line break. The
    read-modify-write dictionary keeps insertion order, as Python's `dict` does. */
module EnvConfig {
  import opened Wrappers
  import opened Text
  import opened Seqs

  const KnownKeys: seq<string> := ["GEMINI_API_KEY", "TAVILY_API_KEY", "QDRANT_URL", "QDRANT_API_KEY", "MODEL_OVERRIDE"]
  const DefaultModel: string := "gemini-3-flash"
  const Header: string := "# Aether Agent Configuration"

  /** The value `get_config` reports for a key no line sets. */
  function DefaultOf(key: string): string {
    if key == "MODEL_OVERRIDE" then DefaultModel else ""
  }

  function KnownSet(): set<string> {
    set k | k in KnownKeys
  }

  datatype Pair = Pair(key: string, value: string)

  predicate LineBreak(c: char) {
    c == '\n' || c == '\r'
  }

  predicate NoLineBreak(s: string) {
    forall k :: 0 <= k < |s| ==> !LineBreak(s[k])
  }

  function Lines(file: Option<seq<string>>): seq<string> {
    if file.Some? then file.value else []
  }

  // ---------------------------------------------------------------------------------------
  // Reading one line

  /** `v[1:-1]` when `v` starts and ends with the same kind of quote; a lone quote becomes empty. */
  function Unquote(v: string): (r: string)
    ensures |v| >= 2 && v[0] == v[|v| - 1] && (v[0] == '"' || v[0] == '\'') ==> r == v[1..|v| - 1]
    ensures |v| == 0 || !((v[0] == '"' && v[|v| - 1] == '"') || (v[0] == '\'' && v[|v| - 1] == '\'')) ==> r == v
  {
    if |v| > 0 && ((v[0] == '"' && v[|v| - 1] == '"') || (v[0] == '\'' && v[|v| - 1] == '\'')) then
      if |v| >= 2 then v[1..|v| - 1] else ""
    else v
  }

  predicate IsEq(c: char) {
    c == '='
  }

  /** Where a line is cut: its first `=`, or -1. */
  function EqIndex(l: string): (i: int)
    ensures -1 <= i < |l|
    ensures i >= 0 ==> l[i] == '=' && forall k :: 0 <= k < i ==> l[k] != '='
    ensures i == -1 ==> forall k :: 0 <= k < |l| ==> l[k] != '='
  {
    FirstIndex(l, IsEq)
  }

  /** One line of the file: blank and `#` lines and lines without `=` carry nothing; otherwise
      the line is cut at its first `=`, both sides are stripped, and the value loses one pair of
      outer quotes. */
  function ParseLine(line: string): Option<Pair> {
    ParseStripped(PyStrip(line))
  }

  function ParseStripped(l: string): Option<Pair> {
    if l == [] || l[0] == '#' then None
    else
      var i := EqIndex(l);
      if i < 0 then None
      else Some(Pair(PyStrip(l[..i]), Unquote(PyStrip(l[i + 1..]))))
  }

  /** Every line of a file, read. */
  function ParseAll(lines: seq<string>): (ps: seq<Option<Pair>>)
    ensures |ps| == |lines|
    ensures forall i :: 0 <= i < |lines| ==> ps[i] == ParseLine(lines[i])
  {
    seq(|lines|, i requires 0 <= i < |lines| => ParseLine(lines[i]))
  }

  // ---------------------------------------------------------------------------------------
  // get_config

  /** The value read lines give `key`: that of the last line that sets it, if any. */
  function Settled(ps: seq<Option<Pair>>, key: string): Option<string> {
    if ps == [] then None
    else
      var p := ps[|ps| - 1];
      if p.Some? && p.value.key == key then Some(p.value.value) else Settled(ps[..|ps| - 1], key)
  }

  /** The value the lines of a file give `key`. */
  function LatestOpt(lines: seq<string>, key: string): Option<string> {
    Settled(ParseAll(lines), key)
  }

  /** A line added at the end overrides the lines before it for the key it sets. */
  lemma SettledAppend(ps: seq<Option<Pair>>, p: Option<Pair>, key: string)
    ensures Settled(ps + [p], key) == if p.Some? && p.value.key == key then Some(p.value.value) else Settled(ps, key)
  {
    assert (ps + [p])[..|ps|] == ps;
  }

  /** `get_config`: exactly the five known keys, each with the value of the last line that sets
      it or else its default. Unknown keys are read and dropped. */
  method GetConfig(file: Option<seq<string>>) returns (config: map<string, string>)
    ensures config.Keys == KnownSet()
    ensures forall k :: k in KnownSet() ==> config[k] == LatestOpt(Lines(file), k).GetOr(DefaultOf(k))
  {
    var lines := Lines(file);
    ghost var ps := ParseAll(lines);
    config := map k | k in KnownSet() :: DefaultOf(k);
    var i := 0;
    while i < |lines|
      invariant 0 <= i <= |lines|
      invariant config.Keys == KnownSet()
      invariant forall k :: k in KnownSet() ==> config[k] == Settled(ps[..i], k).GetOr(DefaultOf(k))
    {
      var p := ParseLine(lines[i]);
      ghost var prev := config;
      if p.Some? && p.value.key in config {
        config := config[p.value.key := p.value.value];
      }
      PrefixStep(ps, i);
      ConfigStep(prev, config, ps[..i], p);
      i := i + 1;
    }
    assert ps[..i] == ps;
  }

  lemma PrefixStep<T>(s: seq<T>, i: int)
    requires 0 <= i < |s|
    ensures s[..i + 1] == s[..i] + [s[i]]
  {
  }

  /** One line read by `get_config` keeps the configuration equal to the reference reading. */
  lemma ConfigStep(prev: map<string, string>, config: map<string, string>, ps: seq<Option<Pair>>, p: Option<Pair>)
    requires prev.Keys == KnownSet()
    requires forall k :: k in KnownSet() ==> prev[k] == Settled(ps, k).GetOr(DefaultOf(k))
    requires config == if p.Some? && p.value.key in prev then prev[p.value.key := p.value.value] else prev
    ensures config.Keys == KnownSet()
    ensures forall k :: k in KnownSet() ==> config[k] == Settled(ps + [p], k).GetOr(DefaultOf(k))
  {
    forall k | k in KnownSet() ensures config[k] == Settled(ps + [p], k).GetOr(DefaultOf(k)) {
      SettledAppend(ps, p, k);
    }
  }

  // ---------------------------------------------------------------------------------------
  // The insertion-ordered dictionary of write_config

  /** The value a dictionary holds for `key` (its keys are distinct, so at most one pair matches). */
  function Lookup(d: seq<Pair>, key: string): Option<string> {
    if d == [] then None
    else if d[|d| - 1].key == key then Some(d[|d| - 1].value)
    else Lookup(d[..|d| - 1], key)
  }

  predicate UniqueKeys(d: seq<Pair>) {
    forall i, j :: 0 <= i < j < |d| ==> d[i].key != d[j].key
  }

  lemma LookupAbsent(d: seq<Pair>, key: string)
    requires forall i :: 0 <= i < |d| ==> d[i].key != key
    ensures Lookup(d, key) == None
  {
  }

  lemma {:induction false} LookupAt(d: seq<Pair>, i: int)
    requires UniqueKeys(d) && 0 <= i < |d|
    ensures Lookup(d, d[i].key) == Some(d[i].value)
    decreases |d|
  {
    if i < |d| - 1 {
      LookupAt(d[..|d| - 1], i);
    }
  }

  lemma {:induction false} LookupOther(d: seq<Pair>, i: int, p: Pair, k: string)
    requires 0 <= i < |d| && d[i].key == p.key && k != p.key
    ensures Lookup(d[i := p], k) == Lookup(d, k)
    decreases |d|
  {
    if i < |d| - 1 {
      assert d[i := p][..|d| - 1] == d[..|d| - 1][i := p];
      LookupOther(d[..|d| - 1], i, p, k);
    } else {
      assert d[i := p][..|d| - 1] == d[..|d| - 1];
    }
  }

  /** `d[key] = value` on an insertion-ordered dictionary: an existing key keeps its place,
      a new one goes last. */
  function DictSet(d: seq<Pair>, key: string, value: string): (r: seq<Pair>)
    requires UniqueKeys(d)
    ensures UniqueKeys(r)
    ensures Lookup(r, key) == Some(value)
    ensures forall k :: k != key ==> Lookup(r, k) == Lookup(d, k)
    ensures |r| == |d| || r == d + [Pair(key, value)]
    ensures forall i :: 0 <= i < |d| ==> i < |r| && r[i].key == d[i].key
    ensures forall i :: |d| <= i < |r| ==> r[i].key == key
  {
    var i := FirstIndex(d, (p: Pair) => p.key == key);
    if i < 0 then
      LookupAbsent(d, key);
      var r := d + [Pair(key, value)];
      assert r[..|r| - 1] == d;
      r
    else
      var r := d[i := Pair(key, value)];
      LookupAt(r, i);
      forall k | k != key ensures Lookup(r, k) == Lookup(d, k) {
        LookupOther(d, i, Pair(key, value), k);
      }
      r
  }

  /** The dictionary built from read lines, each line that carries a pair setting it. */
  function FromParsed(ps: seq<Option<Pair>>): (d: seq<Pair>)
    ensures UniqueKeys(d)
  {
    if ps == [] then []
    else
      var d := FromParsed(ps[..|ps| - 1]);
      var p := ps[|ps| - 1];
      if p.Some? then DictSet(d, p.value.key, p.value.value) else d
  }

  /** The settings `write_config` reads back from the file, a later line overriding an earlier
      one; unlike `get_config` it keeps every key. */
  function ReadSettings(lines: seq<string>): (d: seq<Pair>)
    ensures UniqueKeys(d)
  {
    FromParsed(ParseAll(lines))
  }

  /** The read-back dictionary agrees with `get_config`'s reading, key by key. */
  lemma {:induction false} FromParsedAgrees(ps: seq<Option<Pair>>, key: string)
    ensures Lookup(FromParsed(ps), key) == Settled(ps, key)
    decreases |ps|
  {
    if ps != [] {
      FromParsedAgrees(ps[..|ps| - 1], key);
    }
  }

  /** The passed values laid over the read ones, in the passed order. */
  function Merge(d: seq<Pair>, updates: seq<Pair>): (r: seq<Pair>)
    requires UniqueKeys(d)
    ensures UniqueKeys(r)
  {
    if updates == [] then d
    else
      var last := updates[|updates| - 1];
      DictSet(Merge(d, updates[..|updates| - 1]), last.key, last.value)
  }

  /** Only the passed keys change; every other key keeps its value from the file. */
  lemma {:induction false} MergeOverrides(d: seq<Pair>, updates: seq<Pair>, key: string)
    requires UniqueKeys(d)
    ensures Lookup(Merge(d, updates), key) == if Lookup(updates, key).Some? then Lookup(updates, key) else Lookup(d, key)
    decreases |updates|
  {
    if updates != [] {
      MergeOverrides(d, updates[..|updates| - 1], key);
    }
  }

  /** Keys already in the file keep their place; new keys follow, in the order passed. */
  lemma {:induction false} MergeKeepsOrder(d: seq<Pair>, updates: seq<Pair>)
    requires UniqueKeys(d)
    ensures |Merge(d, updates)| >= |d|
    ensures forall i :: 0 <= i < |d| ==> Merge(d, updates)[i].key == d[i].key
    decreases |updates|
  {
    if updates != [] {
      MergeKeepsOrder(d, updates[..|updates| - 1]);
    }
  }

  // ---------------------------------------------------------------------------------------
  // write_config

  /** The line written for one pair. */
  function LineOf(p: Pair): string {
    p.key + "=\"" + p.value + "\""
  }

  /** The file `write_config` writes: the comment header, then one quoted line per key. */
  function Serialise(d: seq<Pair>): (ls: seq<string>)
    ensures |ls| == |d| + 1 && ls[0] == Header
    ensures forall i :: 0 <= i < |d| ==> ls[i + 1] == LineOf(d[i])
  {
    [Header] + seq(|d|, i requires 0 <= i < |d| => LineOf(d[i]))
  }

  datatype WriteResult = WriteResult(file: Option<seq<string>>, ok: bool)

  /** Where `write_config` can raise: reading the existing file, opening it for writing (before
      it is truncated), or after `written` lines of the new file have reached it. */
  datatype WriteFault = ReadFails | OpenFails | FailsAfter(written: nat)

  /** The lines a complete `write_config` leaves in the file. */
  function Rewritten(file: Option<seq<string>>, updates: seq<Pair>): (ls: seq<string>)
    ensures |ls| > 0 && ls[0] == Header
  {
    Serialise(Merge(ReadSettings(Lines(file)), updates))
  }

  /** Whether the fault happens while `lines` are being written: there is only something to
      read when the file exists, and a write can only fail before its last line is out. */
  predicate RaisesWriting(file: Option<seq<string>>, lines: seq<string>, fault: Option<WriteFault>) {
    match fault
    case None => false
    case Some(ReadFails) => file.Some?
    case Some(OpenFails) => true
    case Some(FailsAfter(n)) => n < |lines|
  }

  predicate WriteRaises(file: Option<seq<string>>, updates: seq<Pair>, fault: Option<WriteFault>) {
    RaisesWriting(file, Rewritten(file, updates), fault)
  }

  /** Replacing the file by `lines` under a fault: a read or open failure leaves the file as
      it was; a failure while writing leaves the truncated file with the lines already out. */
  function WriteLines(file: Option<seq<string>>, lines: seq<string>, fault: Option<WriteFault>): (r: WriteResult)
    ensures r.ok <==> !RaisesWriting(file, lines, fault)
    ensures r.ok ==> r.file == Some(lines)
    ensures !r.ok && fault.Some? && !fault.value.FailsAfter? ==> r.file == file
    ensures !r.ok && fault.Some? && fault.value.FailsAfter? ==>
      r.file.Some? && r.file.value < lines && |r.file.value| == fault.value.written
  {
    match fault
    case None => WriteResult(Some(lines), true)
    case Some(ReadFails) => if file.Some? then WriteResult(file, false) else WriteResult(Some(lines), true)
    case Some(OpenFails) => WriteResult(file, false)
    case Some(FailsAfter(n)) => if n < |lines| then WriteResult(Some(lines[..n]), false) else WriteResult(Some(lines), true)
  }

  /** `write_config`: read the existing pairs, lay the passed ones over them and rewrite the
      whole file. Any exception is reported as `False`. One raised while reading or opening
      leaves the file as it was; one raised while writing leaves the truncated file holding
      only the lines written so far. */
  function WriteConfig(file: Option<seq<string>>, updates: seq<Pair>, fault: Option<WriteFault>): (r: WriteResult)
    ensures r.ok <==> !WriteRaises(file, updates, fault)
    ensures r.ok ==> r.file == Some(Rewritten(file, updates))
    ensures r.ok ==> r.file.Some? && |r.file.value| > 0 && r.file.value[0] == Header
    ensures !r.ok && fault.Some? && !fault.value.FailsAfter? ==> r.file == file
    ensures !r.ok && fault.Some? && fault.value.FailsAfter? ==>
      r.file.Some? && r.file.value < Rewritten(file, updates) && |r.file.value| == fault.value.written
  {
    WriteLines(file, Rewritten(file, updates), fault)
  }

  /** A write that fails before its first line is out leaves an existing but empty file, so
      every key the file held is lost, not kept. */
  lemma FailedWriteLosesKeys(file: Option<seq<string>>, updates: seq<Pair>, key: string)
    ensures var w := WriteConfig(file, updates, Some(FailsAfter(0)));
      !w.ok && w.file == Some([]) && LatestOpt(Lines(w.file), key).None?
  {
  }

  // ---------------------------------------------------------------------------------------
  // Reading back what was written

  /** A key that reads back as itself from a `k="v"` line: no `=`, no line break, no
      surrounding whitespace, and not the start of a comment. */
  predicate SafeKey(k: string) {
    && (forall c :: 0 <= c < |k| ==> k[c] != '=' && !LineBreak(k[c]))
    && (k == [] || (!PyIsSpace(k[0]) && !PyIsSpace(k[|k| - 1]) && k[0] != '#'))
  }

  predicate SafeKeys(d: seq<Pair>) {
    forall i :: 0 <= i < |d| ==> SafeKey(d[i].key)
  }

  /** A string whose ends are not whitespace is its own strip. */
  lemma StripNoop(s: string, ws: char -> bool)
    requires s == [] || (!ws(s[0]) && !ws(s[|s| - 1]))
    ensures Strip(s, ws) == s
  {
  }

  /** Stripping keeps a first character that is not whitespace. */
  lemma StripKeepsFirst(s: string, ws: char -> bool)
    requires |s| > 0 && !ws(s[0])
    ensures |Strip(s, ws)| > 0 && Strip(s, ws)[0] == s[0]
  {
    assert StripLeft(s, ws) == s;
  }

  lemma HeaderCarriesNothing()
    ensures ParseLine(Header) == None
  {
    StripNoop(Header, PyIsSpace);
  }

  /** A line written for a pair with a safe key reads back as that pair. */
  lemma LineReadsBack(p: Pair)
    requires SafeKey(p.key)
    ensures ParseLine(LineOf(p)) == Some(p)
  {
    var q := "\"" + p.value + "\"";
    var line := p.key + "=" + q;
    assert LineOf(p) == line;
    LineIsStripped(p.key, q);
    assert ParseLine(line) == ParseStripped(line);
    LineStart(p.key, q);
    EqIndexAfterKey(p.key, q);
    ParseAt(line, |p.key|);
    KeyPartBack(p.key, q);
    ValuePartBack(p.key, p.value);
  }

  lemma LineStart(key: string, q: string)
    requires SafeKey(key)
    ensures var line := key + "=" + q; line != [] && line[0] != '#'
  {
    var line := key + "=" + q;
    if key != [] {
      assert line[0] == key[0];
    } else {
      assert line[0] == '=';
    }
  }

  lemma LineIsStripped(key: string, q: string)
    requires SafeKey(key) && |q| > 0 && q[|q| - 1] == '"'
    ensures PyStrip(key + "=" + q) == key + "=" + q
  {
    var line := key + "=" + q;
    var first := if key != [] then key[0] else '=';
    assert line[0] == first && !PyIsSpace(first);
    assert line[|line| - 1] == '"';
    StripNoop(line, PyIsSpace);
  }

  lemma EqIndexAfterKey(key: string, q: string)
    requires forall k :: 0 <= k < |key| ==> key[k] != '='
    ensures EqIndex(key + "=" + q) == |key|
  {
    var line := key + "=" + q;
    assert line[|key|] == '=';
    assert forall k :: 0 <= k < |key| ==> line[k] == key[k];
  }

  /** Parsing a stripped line that is cut at `i`. */
  lemma ParseAt(l: string, i: int)
    requires l != [] && l[0] != '#' && EqIndex(l) == i && i >= 0
    ensures ParseStripped(l) == Some(Pair(PyStrip(l[..i]), Unquote(PyStrip(l[i + 1..]))))
  {
  }

  lemma KeyPartBack(key: string, q: string)
    requires SafeKey(key)
    ensures PyStrip((key + "=" + q)[..|key|]) == key
  {
    assert (key + "=" + q)[..|key|] == key;
    StripNoop(key, PyIsSpace);
  }

  /** A value written between double quotes reads back unchanged, quotes inside included. */
  lemma ValuePartBack(key: string, v: string)
    ensures var line := key + "=" + ("\"" + v + "\""); Unquote(PyStrip(line[|key| + 1..])) == v
  {
    var q := "\"" + v + "\"";
    assert (key + "=" + q)[|key| + 1..] == q;
    StripNoop(q, PyIsSpace);
    assert q[0] == '"' && q[|q| - 1] == '"';
    assert q[1..|q| - 1] == v;
  }

  /** Every key read from a file reads back as itself once written. */
  lemma ParsedKeySafe(line: string)
    requires NoLineBreak(line) && ParseLine(line).Some?
    ensures SafeKey(ParseLine(line).value.key)
  {
    var l := PyStrip(line);
    var i := EqIndex(l);
    var key := PyStrip(l[..i]);
    assert ParseLine(line).value.key == key;
    StripFacts(line, PyIsSpace);
    StripFacts(l[..i], PyIsSpace);
    PieceChars(line, l, l[..i], key, i);
    if key != [] {
      StripKeepsFirst(l[..i], PyIsSpace);
    }
  }

  /** The key is a piece of the part before the first `=`, which is a piece of the line. */
  lemma PieceChars(line: string, l: string, before: string, key: string, i: int)
    requires NoLineBreak(line) && (exists j :: OccursAt(line, l, j))
    requires 0 <= i < |l| && before == l[..i] && EqIndex(l) == i
    requires exists t :: OccursAt(before, key, t)
    ensures forall c :: 0 <= c < |key| ==> key[c] != '=' && !LineBreak(key[c])
  {
    var j :| OccursAt(line, l, j);
    var t :| OccursAt(before, key, t);
    forall c | 0 <= c < |key| ensures key[c] != '=' && !LineBreak(key[c]) {
      assert key[c] == l[t + c] == line[j + t + c];
    }
  }

  lemma {:induction false} FromParsedSafe(ps: seq<Option<Pair>>)
    requires forall i :: 0 <= i < |ps| && ps[i].Some? ==> SafeKey(ps[i].value.key)
    ensures SafeKeys(FromParsed(ps))
    decreases |ps|
  {
    if ps != [] {
      FromParsedSafe(ps[..|ps| - 1]);
    }
  }

  lemma ReadKeysSafe(lines: seq<string>)
    requires forall k :: 0 <= k < |lines| ==> NoLineBreak(lines[k])
    ensures SafeKeys(ReadSettings(lines))
  {
    var ps := ParseAll(lines);
    forall i | 0 <= i < |ps| && ps[i].Some? ensures SafeKey(ps[i].value.key) {
      ParsedKeySafe(lines[i]);
    }
    FromParsedSafe(ps);
  }

  lemma {:induction false} MergeSafe(d: seq<Pair>, updates: seq<Pair>)
    requires UniqueKeys(d) && SafeKeys(d) && SafeKeys(updates)
    ensures SafeKeys(Merge(d, updates))
    decreases |updates|
  {
    if updates != [] {
      var init := updates[..|updates| - 1];
      assert SafeKeys(init);
      MergeSafe(d, init);
      assert SafeKey(updates[|updates| - 1].key);
    }
  }

  /** How a written file reads: nothing from the header, then each pair in turn. */
  lemma SerialisedParses(d: seq<Pair>)
    requires SafeKeys(d)
    ensures ParseAll(Serialise(d)) == Written(d)
  {
    var read := ParseAll(Serialise(d));
    var written := Written(d);
    forall j | 0 <= j < |written| ensures read[j] == written[j] {
      SerialisedAt(d, j);
    }
    SameElements(read, written);
  }

  lemma SameElements<T>(a: seq<T>, b: seq<T>)
    requires |a| == |b| && forall j :: 0 <= j < |b| ==> a[j] == b[j]
    ensures a == b
  {
  }

  /** The read form of a written dictionary. */
  function Written(d: seq<Pair>): (ps: seq<Option<Pair>>)
    ensures |ps| == |d| + 1 && ps[0] == None
    ensures forall i :: 0 <= i < |d| ==> ps[i + 1] == Some(d[i])
  {
    [None] + seq(|d|, i requires 0 <= i < |d| => Some(d[i]))
  }

  lemma SerialisedAt(d: seq<Pair>, j: int)
    requires SafeKeys(d) && 0 <= j < |d| + 1
    ensures ParseAll(Serialise(d))[j] == Written(d)[j]
  {
    if j == 0 {
      HeaderCarriesNothing();
    } else {
      assert Serialise(d)[j] == LineOf(d[j - 1]);
      LineReadsBack(d[j - 1]);
    }
  }

  /** A dictionary written out pair by pair reads back as itself. */
  lemma {:induction false} SettledPairs(d: seq<Pair>, key: string)
    requires UniqueKeys(d)
    ensures Settled(Written(d), key) == Lookup(d, key)
    decreases |d|
  {
    var ps := Written(d);
    if d == [] {
      assert ps[..0] == [];
    } else {
      var init := d[..|d| - 1];
      assert ps == Written(init) + [Some(d[|d| - 1])];
      SettledAppend(Written(init), Some(d[|d| - 1]), key);
      SettledPairs(init, key);
    }
  }

  /** After `write_config`, `get_config` reports for each known key the passed value if one was
      passed, else the value the file held, else the default. Passed keys must be safe and
      values free of line breaks, so that each pair lands on a line of its own. */
  lemma WriteThenRead(file: Option<seq<string>>, updates: seq<Pair>, key: string)
    requires forall k :: 0 <= k < |Lines(file)| ==> NoLineBreak(Lines(file)[k])
    requires SafeKeys(updates) && forall i :: 0 <= i < |updates| ==> NoLineBreak(updates[i].value)
    ensures var w := WriteConfig(file, updates, None);
      LatestOpt(Lines(w.file), key).GetOr(DefaultOf(key)) ==
        if Lookup(updates, key).Some? then Lookup(updates, key).value
        else LatestOpt(Lines(file), key).GetOr(DefaultOf(key))
  {
    var read := ReadSettings(Lines(file));
    ReadKeysSafe(Lines(file));
    var merged := Merge(read, updates);
    MergeSafe(read, updates);
    SerialisedParses(merged);
    SettledPairs(merged, key);
    MergeOverrides(read, updates, key);
    FromParsedAgrees(ParseAll(Lines(file)), key);
  }

  /** `write_config` keeps every key already in the file; only passed keys change value. */
  lemma WriteKeepsOtherKeys(file: Option<seq<string>>, updates: seq<Pair>, key: string)
    requires Lookup(updates, key).None?
    ensures Lookup(Merge(ReadSettings(Lines(file)), updates), key) == LatestOpt(Lines(file), key)
  {
    MergeOverrides(ReadSettings(Lines(file)), updates, key);
    FromParsedAgrees(ParseAll(Lines(file)), key);
  }
}

=== FILE: ingest.dfy ===
/** The knowledge-base ingestion splitter (backend/ingest.py): overlapping fixed-size chunks,
    and the per-chunk storage records. The embedding service and the vector store are inputs:
    whether a chunk's embedding came back, whether the Qdrant upsert behind
    `add_document_chunk` failed (backend/database.py swallows that failure and answers an error
    dict that `process_content` never reads), and whether `add_document_chunk` itself raised,
    which the `DatabaseService` of backend/database.py never does but any other `db` object
    passed in may. */
module Ingest {

  const ChunkSize: nat := 1000
  const ChunkOverlap: int := 200

  /** Python's `text[start:end]` for `0 <= start`: cut at the end of the text. */
  function Slice(text: string, start: nat, end: nat): (r: string)
    ensures start < end && start < |text| ==> |r| == (if end <= |text| then end else |text|) - start
    ensures !(start < end && start < |text|) ==> r == []
    ensures forall i :: 0 <= i < |r| ==> start + i < |text| && r[i] == text[start + i]
  {
    if start >= |text| || end <= start then []
    else if end <= |text| then text[start..end]
    else text[start..]
  }

  /** Where the `k`-th chunk starts: `k` steps of `size - overlap` into the text. */
  function StartOf(size: nat, overlap: int, k: nat): nat
    requires size > overlap
  {
    k * (size - overlap)
  }

  /** The `k`-th chunk. */
  function ChunkAt(text: string, size: nat, overlap: int, k: nat): string
    requires size > overlap
  {
    Slice(text, StartOf(size, overlap, k), StartOf(size, overlap, k) + size)
  }

  /** `split_text`. The loop only advances when the chunk size exceeds the overlap; otherwise it
      never ends on a non-empty text, so that is required. */
  method SplitText(text: string, size: nat, overlap: int) returns (chunks: seq<string>)
    requires size > overlap
    ensures forall k :: 0 <= k < |chunks| ==> chunks[k] == ChunkAt(text, size, overlap, k)
    ensures forall k :: 0 <= k < |chunks| ==> StartOf(size, overlap, k) < |text|
    ensures StartOf(size, overlap, |chunks|) >= |text|
    ensures forall k :: 0 <= k < |chunks| ==> |chunks[k]| <= size
    ensures text == [] <==> chunks == []
  {
    var step := size - overlap;
    chunks := [];
    var start := 0;
    while start < |text|
      invariant start == StartOf(size, overlap, |chunks|)
      invariant forall k :: 0 <= k < |chunks| ==> chunks[k] == ChunkAt(text, size, overlap, k)
      invariant forall k :: 0 <= k < |chunks| ==> StartOf(size, overlap, k) < |text|
      invariant forall k :: 0 <= k < |chunks| ==> |chunks[k]| <= size
      invariant |text| > 0 && start == 0 ==> chunks == []
      invariant chunks != [] || start == 0
      decreases |text| - start
    {
      chunks := chunks + [Slice(text, start, start + size)];
      start := start + step;
      assert start == StartOf(size, overlap, |chunks|) by {
        assert (|chunks| - 1) * step + step == |chunks| * step;
      }
    }
  }

  /** The first chunk is the text's first `size` characters (or the whole text). */
  lemma FirstChunk(text: string, size: nat, overlap: int)
    requires size > overlap && text != []
    ensures ChunkAt(text, size, overlap, 0) == (if |text| <= size then text else text[..size])
  {
  }

  /** Consecutive chunks share `overlap` characters: the tail of chunk `k` after one step is
      the head of chunk `k + 1`, wherever both reach. */
  lemma ChunksOverlap(text: string, size: nat, overlap: int, k: nat, j: nat)
    requires 0 <= overlap < size
    requires j < overlap
    requires (size - overlap) + j < |ChunkAt(text, size, overlap, k)|
    ensures j < |ChunkAt(text, size, overlap, k + 1)|
    ensures ChunkAt(text, size, overlap, k)[(size - overlap) + j] == ChunkAt(text, size, overlap, k + 1)[j]
  {
    var step := size - overlap;
    assert StartOf(size, overlap, k + 1) == StartOf(size, overlap, k) + step by {
      assert (k + 1) * step == k * step + step;
    }
  }

  /** With a non-negative overlap every character of the text lies in some chunk. */
  lemma Coverage(text: string, size: nat, overlap: int, chunks: seq<string>, i: nat)
    requires 0 <= overlap < size
    requires forall k :: 0 <= k < |chunks| ==> chunks[k] == ChunkAt(text, size, overlap, k)
    requires StartOf(size, overlap, |chunks|) >= |text|
    requires i < |text|
    ensures exists k :: 0 <= k < |chunks| && StartOf(size, overlap, k) <= i < StartOf(size, overlap, k) + |chunks[k]|
  {
    var step := size - overlap;
    var k := i / step;
    DivBounds(i, step);
    var st := StartOf(size, overlap, k);
    assert st <= i < st + step;
    assert st < StartOf(size, overlap, |chunks|);
    FactorLess(k, |chunks|, step);
    var c := Slice(text, st, st + size);
    assert chunks[k] == c;
    assert |c| == (if st + size <= |text| then st + size else |text|) - st;
  }

  lemma DivBounds(i: nat, step: nat)
    requires step > 0
    ensures (i / step) * step <= i < (i / step) * step + step
  {
  }

  lemma FactorLess(a: nat, b: nat, s: nat)
    requires s > 0 && a * s < b * s
    ensures a < b
  {
  }

  /** The stored form of a chunk: its text and its metadata. */
  datatype ChunkRecord = ChunkRecord(content: string, source: string, chunkIndex: nat, totalChunks: nat)

  function Record(chunks: seq<string>, filename: string, i: nat): ChunkRecord
    requires i < |chunks|
  {
    ChunkRecord(chunks[i], filename, i, |chunks|)
  }

  /** Reference definition: the records of the first `n` chunks whose embedding came back. */
  function Records(chunks: seq<string>, filename: string, embedded: nat -> bool, n: nat): seq<ChunkRecord>
    requires n <= |chunks|
  {
    if n == 0 then []
    else Records(chunks, filename, embedded, n - 1) + (if embedded(n - 1) then [Record(chunks, filename, n - 1)] else [])
  }

  /** Each record is the labelled form of an embedded chunk below `n`, in chunk order. */
  predicate Labelled(rs: seq<ChunkRecord>, chunks: seq<string>, filename: string, embedded: nat -> bool, n: nat) {
    && (forall t :: 0 <= t < |rs| ==>
          rs[t].chunkIndex < n && rs[t].chunkIndex < |chunks| && rs[t].content == chunks[rs[t].chunkIndex]
          && rs[t].source == filename && rs[t].totalChunks == |chunks| && embedded(rs[t].chunkIndex))
    && (forall a, b :: 0 <= a < b < |rs| ==> rs[a].chunkIndex < rs[b].chunkIndex)
  }

  /** Every embedded chunk below `n` has a record. */
  predicate Covered(rs: seq<ChunkRecord>, embedded: nat -> bool, n: nat) {
    forall j :: 0 <= j < n && embedded(j) ==> exists t :: 0 <= t < |rs| && rs[t].chunkIndex == j
  }

  /** The records are labelled faithfully, in chunk order, and each embedded chunk has one. */
  lemma RecordsLabelled(chunks: seq<string>, filename: string, embedded: nat -> bool, n: nat)
    requires n <= |chunks|
    ensures Labelled(Records(chunks, filename, embedded, n), chunks, filename, embedded, n)
    ensures Covered(Records(chunks, filename, embedded, n), embedded, n)
  {
    RecordsFaithful(chunks, filename, embedded, n);
    RecordsComplete(chunks, filename, embedded, n);
  }

  lemma {:induction false} RecordsFaithful(chunks: seq<string>, filename: string, embedded: nat -> bool, n: nat)
    requires n <= |chunks|
    ensures Labelled(Records(chunks, filename, embedded, n), chunks, filename, embedded, n)
  {
    if n > 0 {
      RecordsFaithful(chunks, filename, embedded, n - 1);
      var prev := Records(chunks, filename, embedded, n - 1);
      var rs := Records(chunks, filename, embedded, n);
      if embedded(n - 1) {
        assert rs == prev + [Record(chunks, filename, n - 1)];
        assert forall t :: 0 <= t < |prev| ==> rs[t] == prev[t];
      } else {
        assert rs == prev;
      }
    }
  }

  lemma {:induction false} RecordsComplete(chunks: seq<string>, filename: string, embedded: nat -> bool, n: nat)
    requires n <= |chunks|
    ensures Covered(Records(chunks, filename, embedded, n), embedded, n)
  {
    if n > 0 {
      RecordsComplete(chunks, filename, embedded, n - 1);
      var prev := Records(chunks, filename, embedded, n - 1);
      var rs := Records(chunks, filename, embedded, n);
      assert rs == prev + (if embedded(n - 1) then [Record(chunks, filename, n - 1)] else []);
      forall j | 0 <= j < n && embedded(j) ensures exists t :: 0 <= t < |rs| && rs[t].chunkIndex == j {
        if j < n - 1 {
          var t :| 0 <= t < |prev| && prev[t].chunkIndex == j;
          assert rs[t] == prev[t];
        } else {
          assert rs[|prev|].chunkIndex == j;
        }
      }
    }
  }

  /** The chunks the vector store ends up holding: embedded, and not lost to a failed upsert. */
  function Persisted(embedded: nat -> bool, upsertFails: nat -> bool): nat -> bool {
    (i: nat) => embedded(i) && !upsertFails(i)
  }

  /** The records the vector store holds are exactly the embedded chunks whose upsert went
      through, labelled and in chunk order: a swallowed upsert failure loses its chunk and
      nothing else. */
  lemma KeptExactly(chunks: seq<string>, filename: string, embedded: nat -> bool, upsertFails: nat -> bool, n: nat)
    requires n <= |chunks|
    ensures var kept := Records(chunks, filename, Persisted(embedded, upsertFails), n);
      && (forall t :: 0 <= t < |kept| ==>
            kept[t].chunkIndex < n && embedded(kept[t].chunkIndex) && !upsertFails(kept[t].chunkIndex)
            && kept[t] == Record(chunks, filename, kept[t].chunkIndex))
      && (forall j :: 0 <= j < n && embedded(j) && !upsertFails(j) ==>
            exists t :: 0 <= t < |kept| && kept[t].chunkIndex == j)
  {
    var e := Persisted(embedded, upsertFails);
    RecordsLabelled(chunks, filename, e, n);
    forall j | 0 <= j < n && embedded(j) && !upsertFails(j)
      ensures exists t :: 0 <= t < |Records(chunks, filename, e, n)| && Records(chunks, filename, e, n)[t].chunkIndex == j
    {
      assert e(j);
    }
  }

  /** `process_content`: chunk with size 1000 and overlap 200, then hand every chunk whose
      embedding came back to `add_document_chunk`, labelled with its index, the chunk count and
      the file name. A chunk without an embedding is skipped. A failed upsert is swallowed by
      the store: the chunk is lost and the run goes on. A call that raises ends the run with
      failure. `stored` is what was handed to the store, `kept` what the store holds. */
  method ProcessContent(content: string, filename: string, embedded: nat -> bool,
                        upsertFails: nat -> bool, storeRaises: nat -> bool)
      returns (chunks: seq<string>, stored: seq<ChunkRecord>, kept: seq<ChunkRecord>, ok: bool)
    ensures forall k :: 0 <= k < |chunks| ==> chunks[k] == ChunkAt(content, ChunkSize, ChunkOverlap, k)
    ensures StartOf(ChunkSize, ChunkOverlap, |chunks|) >= |content|
    ensures ok <==> forall i :: 0 <= i < |chunks| && embedded(i) ==> !storeRaises(i)
    ensures ok ==> stored == Records(chunks, filename, embedded, |chunks|)
    ensures ok ==> kept == Records(chunks, filename, Persisted(embedded, upsertFails), |chunks|)
    ensures !ok ==>
      exists n :: 0 <= n < |chunks| && embedded(n) && storeRaises(n) && stored == Records(chunks, filename, embedded, n)
        && kept == Records(chunks, filename, Persisted(embedded, upsertFails), n)
  {
    chunks := SplitText(content, ChunkSize, ChunkOverlap);
    stored := [];
    kept := [];
    ok := true;
    var i := 0;
    while i < |chunks|
      invariant 0 <= i <= |chunks|
      invariant stored == Records(chunks, filename, embedded, i)
      invariant kept == Records(chunks, filename, Persisted(embedded, upsertFails), i)
      invariant forall j :: 0 <= j < i && embedded(j) ==> !storeRaises(j)
    {
      if embedded(i) {
        if storeRaises(i) {
          ok := false;
          return;
        }
        stored := stored + [Record(chunks, filename, i)];
        if !upsertFails(i) {
          kept := kept + [Record(chunks, filename, i)];
        }
      }
      i := i + 1;
    }
  }
}

=== FILE: local_db.dfy ===
/** The desktop agent's SQLite store (backend/local_db.py): chat sessions and their messages,
    the system log, and the concept graph. Each table is a sequence of rows in rowid order.
    Fresh uuid4 values and `CURRENT_TIMESTAMP` are parameters. The schema file is not part of
    this model; the constraints the code's statements rely on are assumed: `concepts.name`
    unique, `concepts.id` the primary key, a unique key on `concept_links(source_id, target_id,
    relation)`, and `messages.session_id` referencing `sessions.id` with `ON DELETE CASCADE`. */
module LocalDb {
  import opened Wrappers
  import opened Seqs
  import opened Text

  /** Message metadata as the caller passes it: the items of a dict. It is stored as JSON and
      decoded on the way out; the round trip is taken as exact. */
  type Meta = seq<(string, string)>

  datatype Session = Session(id: string, title: string, updatedAt: int)
  datatype Message = Message(id: string, sessionId: string, role: string, content: string, metadata: Option<Meta>, createdAt: int)
  datatype LogEntry = LogEntry(id: int, kind: string, source: string, message: string)
  datatype Concept = Concept(id: string, name: string, kind: string, description: Option<string>, metadata: Option<Meta>)
  datatype Link = Link(id: string, sourceId: string, targetId: string, relation: string, weight: real)

  datatype Db = Db(sessions: seq<Session>, messages: seq<Message>, logs: seq<LogEntry>, concepts: seq<Concept>, links: seq<Link>)

  const DefaultKind: string := "general"
  const LinkStep: real := 0.1

  /** `json.dumps(metadata) if metadata else None`: an absent or empty dict stores NULL. */
  function MetaJson(m: Option<Meta>): (r: Option<Meta>)
    ensures r.Some? <==> m.Some? && m.value != []
    ensures r.Some? ==> r == m
  {
    if m.Some? && m.value != [] then m else None
  }

  // ---------------------------------------------------------------------------------------
  // Sessions and messages

  predicate HasSession(db: Db, id: string) {
    exists i :: 0 <= i < |db.sessions| && db.sessions[i].id == id
  }

  /** `create_session`: a new row under a fresh id, stamped with the current time. */
  function CreateSession(db: Db, id: string, title: string, now: int): (r: Result<Db>)
    ensures r.Err? <==> HasSession(db, id)
    ensures r.Ok? ==> r.value.sessions == db.sessions + [Session(id, title, now)]
    ensures r.Ok? ==> r.value.messages == db.messages && r.value.concepts == db.concepts
  {
    if HasSession(db, id) then Err("UNIQUE constraint failed: sessions.id")
    else Ok(db.(sessions := db.sessions + [Session(id, title, now)]))
  }

  /** The messages of one session, in rowid order. */
  function MessagesOf(messages: seq<Message>, sessionId: string): (r: seq<Message>)
    ensures forall k :: 0 <= k < |r| ==> r[k].sessionId == sessionId
  {
    Filter(messages, (m: Message) => m.sessionId == sessionId)
  }

  /** The rows of a table are in the order of their timestamps. */
  predicate Chronological(messages: seq<Message>) {
    forall i, j :: 0 <= i < j < |messages| ==> messages[i].createdAt <= messages[j].createdAt
  }

  /** One message placed into a list in time order, after every message stamped no later. */
  function InsertByCreated(m: Message, s: seq<Message>): (r: seq<Message>)
    requires Chronological(s)
    ensures Chronological(r)
    ensures multiset(r) == multiset(s) + multiset{m}
    decreases |s|
  {
    if s == [] then [m]
    else if s[0].createdAt <= m.createdAt then
      var rest := InsertByCreated(m, s[1..]);
      assert s == [s[0]] + s[1..];
      StampedFrom(s[0].createdAt, m, s[1..], rest);
      [s[0]] + rest
    else [m] + s
  }

  /** Every element of a permutation of `s` plus `m` is stamped no earlier than a bound shared
      by `m` and all of `s`. */
  lemma StampedFrom(lo: int, m: Message, s: seq<Message>, r: seq<Message>)
    requires lo <= m.createdAt
    requires forall k :: 0 <= k < |s| ==> lo <= s[k].createdAt
    requires multiset(r) == multiset(s) + multiset{m}
    ensures forall k :: 0 <= k < |r| ==> lo <= r[k].createdAt
  {
    forall k | 0 <= k < |r| ensures lo <= r[k].createdAt {
      assert r[k] in multiset(r);
      if r[k] != m {
        assert r[k] in multiset(s);
        var j :| 0 <= j < |s| && s[j] == r[k];
      }
    }
  }

  /** `ORDER BY created_at ASC`, rows with equal stamps kept in rowid order. */
  function SortByCreated(s: seq<Message>): (r: seq<Message>)
    ensures Chronological(r)
    ensures multiset(r) == multiset(s)
    decreases |s|
  {
    if s == [] then []
    else
      var init := s[..|s| - 1];
      assert s == init + [s[|s| - 1]];
      InsertByCreated(s[|s| - 1], SortByCreated(init))
  }

  /** `get_messages`: exactly the session's messages, oldest first, metadata decoded. */
  function GetMessages(db: Db, sessionId: string): (r: seq<Message>)
    ensures forall k :: 0 <= k < |r| ==> r[k].sessionId == sessionId && r[k] in db.messages
    ensures forall k :: 0 <= k < |db.messages| && db.messages[k].sessionId == sessionId ==> db.messages[k] in r
    ensures multiset(r) == multiset(MessagesOf(db.messages, sessionId))
    ensures Chronological(r)
  {
    var f := MessagesOf(db.messages, sessionId);
    var r := SortByCreated(f);
    forall k | 0 <= k < |r| ensures r[k].sessionId == sessionId && r[k] in db.messages {
      assert r[k] in multiset(f);
    }
    forall k | 0 <= k < |db.messages| && db.messages[k].sessionId == sessionId ensures db.messages[k] in r {
      assert db.messages[k] in multiset(f);
    }
    r
  }

  /** A message stamped no earlier than every message of a list in time order goes last. */
  lemma {:induction false} InsertLast(m: Message, s: seq<Message>)
    requires Chronological(s) && forall k :: 0 <= k < |s| ==> s[k].createdAt <= m.createdAt
    ensures InsertByCreated(m, s) == s + [m]
    decreases |s|
  {
    if s != [] {
      InsertLast(m, s[1..]);
      assert [s[0]] + (s[1..] + [m]) == s + [m];
    }
  }

  /** A list already in time order is left as it is. */
  lemma {:induction false} SortKeepsChronological(s: seq<Message>)
    requires Chronological(s)
    ensures SortByCreated(s) == s
    decreases |s|
  {
    if s != [] {
      var init := s[..|s| - 1];
      SortKeepsChronological(init);
      InsertLast(s[|s| - 1], init);
      assert init + [s[|s| - 1]] == s;
    }
  }

  /** When rows were stored in time order, `get_messages` is the session's rows in rowid order. */
  lemma RowOrderWhenChronological(db: Db, sessionId: string)
    requires Chronological(db.messages)
    ensures GetMessages(db, sessionId) == MessagesOf(db.messages, sessionId)
  {
    ChronologicalFilter(db.messages, sessionId);
    SortKeepsChronological(MessagesOf(db.messages, sessionId));
  }

  lemma {:induction false} ChronologicalFilter(messages: seq<Message>, sessionId: string)
    requires Chronological(messages)
    ensures Chronological(MessagesOf(messages, sessionId))
    decreases |messages|
  {
    if messages != [] {
      var rest := messages[1..];
      assert Chronological(rest);
      ChronologicalFilter(rest, sessionId);
      if messages[0].sessionId == sessionId {
        assert MessagesOf(messages, sessionId) == [messages[0]] + MessagesOf(rest, sessionId);
        HeadFirst(messages, sessionId);
        ConsChronological(messages[0], MessagesOf(rest, sessionId));
      }
    }
  }

  /** No message after the first is older than it, so neither is any of a session's. */
  lemma HeadFirst(messages: seq<Message>, sessionId: string)
    requires Chronological(messages) && messages != []
    ensures forall k :: 0 <= k < |MessagesOf(messages[1..], sessionId)| ==>
      messages[0].createdAt <= MessagesOf(messages[1..], sessionId)[k].createdAt
  {
    var rest := messages[1..];
    forall k | 0 <= k < |MessagesOf(rest, sessionId)| ensures messages[0].createdAt <= MessagesOf(rest, sessionId)[k].createdAt {
      var j :| 0 <= j < |rest| && rest[j] == MessagesOf(rest, sessionId)[k];
      assert messages[j + 1] == rest[j];
    }
  }

  lemma ConsChronological(h: Message, t: seq<Message>)
    requires Chronological(t) && forall k :: 0 <= k < |t| ==> h.createdAt <= t[k].createdAt
    ensures Chronological([h] + t)
  {
    var r := [h] + t;
    forall i, j | 0 <= i < j < |r| ensures r[i].createdAt <= r[j].createdAt {
      assert r[j] == t[j - 1];
      if i > 0 {
        assert r[i] == t[i - 1];
      }
    }
  }

  /** A session's `updated_at` moved to `now`; no row changes when the id is unknown. */
  function Touch(sessions: seq<Session>, id: string, now: int): (r: seq<Session>)
    ensures |r| == |sessions|
    ensures forall k :: 0 <= k < |sessions| ==> r[k] == if sessions[k].id == id then sessions[k].(updatedAt := now) else sessions[k]
  {
    UpdateWhere(sessions, (s: Session) => s.id == id, (s: Session) => s.(updatedAt := now))
  }

  /** Newest first: no session follows one updated earlier than it. */
  predicate NewestFirst(ss: seq<Session>) {
    forall i, j :: 0 <= i < j < |ss| ==> ss[i].updatedAt >= ss[j].updatedAt
  }

  /** One session placed into a newest-first list, before every session updated no later. */
  function InsertByRecency(s: Session, ss: seq<Session>): (r: seq<Session>)
    requires NewestFirst(ss)
    ensures NewestFirst(r)
    ensures multiset(r) == multiset(ss) + multiset{s}
    decreases |ss|
  {
    if ss == [] then [s]
    else if s.updatedAt < ss[0].updatedAt then
      var rest := InsertByRecency(s, ss[1..]);
      assert ss == [ss[0]] + ss[1..];
      BoundedAbove(ss[0].updatedAt, s, ss[1..], rest);
      [ss[0]] + rest
    else [s] + ss
  }

  /** Every element of a permutation of `ss` plus `s` is updated no later than a bound shared
      by `s` and all of `ss`. */
  lemma BoundedAbove(hi: int, s: Session, ss: seq<Session>, r: seq<Session>)
    requires s.updatedAt <= hi
    requires forall k :: 0 <= k < |ss| ==> ss[k].updatedAt <= hi
    requires multiset(r) == multiset(ss) + multiset{s}
    ensures forall k :: 0 <= k < |r| ==> r[k].updatedAt <= hi
  {
    forall k | 0 <= k < |r| ensures r[k].updatedAt <= hi {
      assert r[k] in multiset(r);
      if r[k] != s {
        assert r[k] in multiset(ss);
        var j :| 0 <= j < |ss| && ss[j] == r[k];
      }
    }
  }

  /** `get_sessions`: `ORDER BY updated_at DESC`, every session once. SQLite leaves the order
      of equal timestamps open; the model keeps the later row first. */
  function GetSessions(db: Db): (r: seq<Session>)
    ensures NewestFirst(r)
    ensures multiset(r) == multiset(db.sessions)
    decreases |db.sessions|
  {
    if db.sessions == [] then []
    else
      var init := db.sessions[..|db.sessions| - 1];
      var last := db.sessions[|db.sessions| - 1];
      assert db.sessions == init + [last];
      InsertByRecency(last, GetSessions(db.(sessions := init)))
  }

  /** The session a message was just added to, at a time later than every stored update, is
      listed first. */
  lemma MessagedSessionFirst(db: Db, id: string, sessionId: string, role: string, content: string, metadata: Option<Meta>, now: int)
    requires HasSession(db, sessionId)
    requires forall k :: 0 <= k < |db.sessions| ==> db.sessions[k].updatedAt < now
    ensures var r := GetSessions(AddMessage(db, id, sessionId, role, content, metadata, now));
      |r| > 0 && r[0].id == sessionId && r[0].updatedAt == now
  {
    var after := AddMessage(db, id, sessionId, role, content, metadata, now);
    var touched := Touch(db.sessions, sessionId, now);
    assert after.sessions == touched;
    var i :| 0 <= i < |db.sessions| && db.sessions[i].id == sessionId;
    NewestLeads(touched, GetSessions(after), i, sessionId, now);
  }

  /** In a newest-first permutation, the only rows stamped with the latest time lead. */
  lemma NewestLeads(ss: seq<Session>, r: seq<Session>, i: int, sessionId: string, now: int)
    requires NewestFirst(r) && multiset(r) == multiset(ss)
    requires 0 <= i < |ss| && ss[i].id == sessionId && ss[i].updatedAt == now
    requires forall k :: 0 <= k < |ss| ==> ss[k].updatedAt <= now && (ss[k].updatedAt == now ==> ss[k].id == sessionId)
    ensures |r| > 0 && r[0].id == sessionId && r[0].updatedAt == now
  {
    assert ss[i] in multiset(r);
    var j :| 0 <= j < |r| && r[j] == ss[i];
    assert r[0].updatedAt >= now;
    assert r[0] in multiset(ss);
    var k :| 0 <= k < |ss| && ss[k] == r[0];
  }

  /** `add_message`: the message is inserted under its session and the session's `updated_at`
      is bumped. The insert runs without the foreign-key pragma, so a message naming an unknown
      session is still stored. */
  function AddMessage(db: Db, id: string, sessionId: string, role: string, content: string, metadata: Option<Meta>, now: int): (r: Db)
    ensures r.messages == db.messages + [Message(id, sessionId, role, content, MetaJson(metadata), now)]
    ensures r.sessions == Touch(db.sessions, sessionId, now)
    ensures r.logs == db.logs && r.concepts == db.concepts && r.links == db.links
  {
    db.(messages := db.messages + [Message(id, sessionId, role, content, MetaJson(metadata), now)],
        sessions := Touch(db.sessions, sessionId, now))
  }

  /** A message added at a time no earlier than every stored message is read back last in its
      session, and no other session's messages change. */
  lemma AddThenGet(db: Db, id: string, sessionId: string, role: string, content: string, metadata: Option<Meta>, now: int, other: string)
    requires forall k :: 0 <= k < |db.messages| ==> db.messages[k].createdAt <= now
    ensures var r := AddMessage(db, id, sessionId, role, content, metadata, now);
      && GetMessages(r, sessionId) == GetMessages(db, sessionId) + [Message(id, sessionId, role, content, MetaJson(metadata), now)]
      && (other != sessionId ==> GetMessages(r, other) == GetMessages(db, other))
  {
    var m := Message(id, sessionId, role, content, MetaJson(metadata), now);
    var ms := db.messages + [m];
    FilterAppend(db.messages, [m], (x: Message) => x.sessionId == sessionId);
    FilterAppend(db.messages, [m], (x: Message) => x.sessionId == other);
    var f := MessagesOf(db.messages, sessionId);
    assert MessagesOf(ms, sessionId) == f + [m];
    assert (f + [m])[..|f|] == f;
    var sorted := SortByCreated(f);
    forall k | 0 <= k < |sorted| ensures sorted[k].createdAt <= now {
      assert sorted[k] in multiset(f);
    }
    InsertLast(m, sorted);
    if other != sessionId {
      assert MessagesOf(ms, other) == MessagesOf(db.messages, other);
    }
  }

  /** `update_session_title`. */
  function UpdateSessionTitle(db: Db, id: string, title: string, now: int): (r: Db)
    ensures |r.sessions| == |db.sessions|
    ensures forall k :: 0 <= k < |db.sessions| ==>
      r.sessions[k] == if db.sessions[k].id == id then Session(id, title, now) else db.sessions[k]
    ensures r.messages == db.messages
  {
    db.(sessions := UpdateWhere(db.sessions, (s: Session) => s.id == id, (s: Session) => s.(title := title, updatedAt := now)))
  }

  /** `delete_session` with foreign keys on: the session row goes and the cascade takes its
      messages. With no such session nothing is deleted, so messages stored under an unknown
      id stay. */
  function DeleteSession(db: Db, id: string): (r: Db)
    ensures !HasSession(r, id)
    ensures HasSession(db, id) ==> MessagesOf(r.messages, id) == []
    ensures !HasSession(db, id) ==> r == db
    ensures forall s :: s != id ==> (HasSession(r, s) <==> HasSession(db, s))
    ensures forall s :: s != id ==> MessagesOf(r.messages, s) == MessagesOf(db.messages, s)
  {
    if !HasSession(db, id) then db
    else
      var r := db.(sessions := Filter(db.sessions, (s: Session) => s.id != id),
                   messages := Filter(db.messages, (m: Message) => m.sessionId != id));
      DeleteFacts(db, id, r);
      r
  }

  lemma DeleteFacts(db: Db, id: string, r: Db)
    requires r == db.(sessions := Filter(db.sessions, (s: Session) => s.id != id),
                      messages := Filter(db.messages, (m: Message) => m.sessionId != id))
    ensures !HasSession(r, id)
    ensures MessagesOf(r.messages, id) == []
    ensures forall s :: s != id ==> (HasSession(r, s) <==> HasSession(db, s))
    ensures forall s :: s != id ==> MessagesOf(r.messages, s) == MessagesOf(db.messages, s)
  {
    forall s | s != id ensures HasSession(r, s) <==> HasSession(db, s) {
      if HasSession(db, s) {
        var i :| 0 <= i < |db.sessions| && db.sessions[i].id == s;
        assert db.sessions[i] in r.sessions;
        var j :| 0 <= j < |r.sessions| && r.sessions[j] == db.sessions[i];
      }
    }
    NoneLeft(db.messages, id);
    forall s | s != id ensures MessagesOf(r.messages, s) == MessagesOf(db.messages, s) {
      FilterOther(db.messages, id, s);
    }
  }

  lemma {:induction false} NoneLeft(messages: seq<Message>, id: string)
    decreases |messages|
    ensures MessagesOf(Filter(messages, (m: Message) => m.sessionId != id), id) == []
  {
    if messages != [] {
      NoneLeft(messages[1..], id);
    }
  }

  /** Removing one session's messages leaves another session's messages as they were. */
  lemma {:induction false} FilterOther(messages: seq<Message>, id: string, s: string)
    requires s != id
    ensures MessagesOf(Filter(messages, (m: Message) => m.sessionId != id), s) == MessagesOf(messages, s)
    decreases |messages|
  {
    if messages != [] {
      FilterOther(messages[1..], id, s);
    }
  }

  // ---------------------------------------------------------------------------------------
  // System log

  /** The rowid the next log line gets: one past the largest so far. */
  function NextLogId(logs: seq<LogEntry>): (n: int)
    ensures forall k :: 0 <= k < |logs| ==> logs[k].id < n
  {
    if logs == [] then 1
    else
      var prev := NextLogId(logs[..|logs| - 1]);
      var last := logs[|logs| - 1].id;
      if last >= prev then last + 1 else prev
  }

  /** The log's ids increase in rowid order. */
  predicate Ascending(logs: seq<LogEntry>) {
    forall i, j :: 0 <= i < j < |logs| ==> logs[i].id < logs[j].id
  }

  /** `add_log`. */
  function AddLog(db: Db, kind: string, source: string, message: string): (r: Db)
    ensures r.logs == db.logs + [LogEntry(NextLogId(db.logs), kind, source, message)]
    ensures Ascending(db.logs) ==> Ascending(r.logs)
    ensures r.sessions == db.sessions && r.messages == db.messages
  {
    db.(logs := db.logs + [LogEntry(NextLogId(db.logs), kind, source, message)])
  }

  /** `get_logs`: `ORDER BY id DESC LIMIT limit`, newest first. SQLite reads a negative limit
      as no limit at all. */
  function GetLogs(db: Db, limit: int): (r: seq<LogEntry>)
    ensures |r| == if limit < 0 || limit >= |db.logs| then |db.logs| else limit
    ensures forall k :: 0 <= k < |r| ==> r[k] == db.logs[|db.logs| - 1 - k]
    ensures Ascending(db.logs) ==> forall i, j :: 0 <= i < j < |r| ==> r[i].id > r[j].id
  {
    var n := if limit < 0 || limit >= |db.logs| then |db.logs| else limit;
    seq(n, k requires 0 <= k < n => db.logs[|db.logs| - 1 - k])
  }

  /** The line just logged comes first. */
  lemma LatestLogFirst(db: Db, kind: string, source: string, message: string, limit: int)
    requires limit != 0
    ensures var r := GetLogs(AddLog(db, kind, source, message), limit);
      |r| > 0 && r[0] == LogEntry(NextLogId(db.logs), kind, source, message)
  {
  }

  // ---------------------------------------------------------------------------------------
  // Concept graph

  /** `uuid5(NAMESPACE_DNS, name.lower())`. The hash is modelled by its argument: two names get
      the same id exactly when they agree after lower-casing. */
  function ConceptId(name: string): string {
    Lower(name)
  }

  predicate NamedConcept(c: Concept, name: string) {
    c.name == name
  }

  /** Names are unique, ids are unique. */
  predicate ConceptsKeyed(cs: seq<Concept>) {
    && (forall i, j :: 0 <= i < j < |cs| ==> cs[i].name != cs[j].name)
    && (forall i, j :: 0 <= i < j < |cs| ==> cs[i].id != cs[j].id)
    && (forall i :: 0 <= i < |cs| ==> cs[i].id == ConceptId(cs[i].name))
  }

  /** The concept stored under a name, if any. */
  function ConceptNamed(cs: seq<Concept>, name: string): (r: Option<Concept>)
    ensures r.Some? ==> r.value in cs && r.value.name == name
    ensures r.None? ==> forall k :: 0 <= k < |cs| ==> cs[k].name != name
  {
    var i := FirstIndex(cs, (c: Concept) => c.name == name);
    if i < 0 then None else Some(cs[i])
  }

  /** The upsert's effect on an existing row: type replaced, description and metadata replaced
      only by non-NULL values. */
  function Merged(prev: Concept, kind: string, description: Option<string>, metadata: Option<Meta>): Concept {
    prev.(kind := kind,
         description := if description.Some? then description else prev.description,
         metadata := if metadata.Some? then metadata else prev.metadata)
  }

  /** `upsert_concept`: insert, or on a name conflict update the row in place. A different name
      whose lower-cased form matches a stored one clashes on the primary key, which the
      `ON CONFLICT(name)` clause does not cover, so the statement fails. */
  function UpsertConcept(db: Db, name: string, kind: string, description: Option<string>, metadata: Option<Meta>): (r: Result<(Db, string)>)
    requires ConceptsKeyed(db.concepts)
    ensures r.Ok? ==> r.value.1 == ConceptId(name) && ConceptsKeyed(r.value.0.concepts)
    ensures r.Ok? ==> ConceptNamed(r.value.0.concepts, name).Some?
    ensures r.Ok? ==> var c := ConceptNamed(r.value.0.concepts, name).value;
      && c.id == ConceptId(name) && c.kind == kind
      && c.description == (if description.Some? then description
                            else if ConceptNamed(db.concepts, name).Some? then ConceptNamed(db.concepts, name).value.description
                            else None)
      && c.metadata == (if MetaJson(metadata).Some? then MetaJson(metadata)
                         else if ConceptNamed(db.concepts, name).Some? then ConceptNamed(db.concepts, name).value.metadata
                         else None)
    ensures r.Err? <==> ConceptNamed(db.concepts, name).None? && exists k :: 0 <= k < |db.concepts| && db.concepts[k].id == ConceptId(name)
    ensures r.Ok? ==> r.value.0.sessions == db.sessions && r.value.0.links == db.links
    ensures r.Ok? ==> forall k :: 0 <= k < |db.concepts| && db.concepts[k].name != name ==> db.concepts[k] in r.value.0.concepts
  {
    var id := ConceptId(name);
    var meta := MetaJson(metadata);
    var i := FirstIndex(db.concepts, (c: Concept) => c.name == name);
    if i >= 0 then
      var cs := db.concepts[i := Merged(db.concepts[i], kind, description, meta)];
      UpdateKeeps(db.concepts, i, Merged(db.concepts[i], kind, description, meta), name);
      Ok((db.(concepts := cs), id))
    else if exists k :: 0 <= k < |db.concepts| && db.concepts[k].id == id then
      Err("UNIQUE constraint failed: concepts.id")
    else
      var c := Concept(id, name, kind, description, meta);
      var cs := db.concepts + [c];
      AppendKeeps(db.concepts, c);
      Ok((db.(concepts := cs), id))
  }

  lemma UpdateKeeps(cs: seq<Concept>, i: int, c: Concept, name: string)
    requires ConceptsKeyed(cs) && 0 <= i < |cs| && cs[i].name == name && c.name == name && c.id == cs[i].id
    requires forall k :: 0 <= k < i ==> cs[k].name != name
    ensures ConceptsKeyed(cs[i := c])
    ensures ConceptNamed(cs[i := c], name) == Some(c)
    ensures forall k :: 0 <= k < |cs| && cs[k].name != name ==> cs[k] in cs[i := c]
  {
    var r := cs[i := c];
    assert r[i].name == name;
    assert forall k :: 0 <= k < i ==> r[k].name != name;
    forall k | 0 <= k < |cs| && cs[k].name != name ensures cs[k] in r {
      assert r[k] == cs[k];
    }
  }

  lemma AppendKeeps(cs: seq<Concept>, c: Concept)
    requires ConceptsKeyed(cs) && c.id == ConceptId(c.name)
    requires forall k :: 0 <= k < |cs| ==> cs[k].name != c.name && cs[k].id != c.id
    ensures ConceptsKeyed(cs + [c])
    ensures ConceptNamed(cs + [c], c.name) == Some(c)
  {
    var r := cs + [c];
    assert r[|cs|].name == c.name;
    assert forall k :: 0 <= k < |cs| ==> r[k].name != c.name;
  }

  /** A description or metadata left out (NULL) keeps the stored one; the type is always replaced. */
  lemma UpsertKeepsDescription(db: Db, name: string, kind: string)
    requires ConceptsKeyed(db.concepts) && ConceptNamed(db.concepts, name).Some?
    ensures var r := UpsertConcept(db, name, kind, None, None);
      && r.Ok?
      && var c := ConceptNamed(r.value.0.concepts, name).value;
      && var prev := ConceptNamed(db.concepts, name).value;
      && c.kind == kind && c.description == prev.description && c.metadata == prev.metadata
  {
    var i := FirstIndex(db.concepts, (c: Concept) => c.name == name);
    assert i >= 0;
  }

  /** A case variant of a stored name makes the upsert fail. */
  lemma CaseVariantClashes(db: Db, stored: string, name: string, kind: string)
    requires ConceptsKeyed(db.concepts) && ConceptNamed(db.concepts, stored).Some?
    requires name != stored && Lower(name) == Lower(stored)
    requires ConceptNamed(db.concepts, name).None?
    ensures UpsertConcept(db, name, kind, None, None).Err?
  {
    var c := ConceptNamed(db.concepts, stored).value;
    var k :| 0 <= k < |db.concepts| && db.concepts[k] == c;
    assert db.concepts[k].id == ConceptId(name);
  }

  // ---------------------------------------------------------------------------------------
  // Links

  predicate SameEdge(l: Link, sourceId: string, targetId: string, relation: string) {
    l.sourceId == sourceId && l.targetId == targetId && l.relation == relation
  }

  /** One link per (source, target, relation). */
  predicate LinksKeyed(ls: seq<Link>) {
    forall i, j :: 0 <= i < j < |ls| ==>
      !SameEdge(ls[j], ls[i].sourceId, ls[i].targetId, ls[i].relation)
  }

  /** The link row for an edge, if any. */
  function EdgeIndex(ls: seq<Link>, sourceId: string, targetId: string, relation: string): (i: int)
    ensures -1 <= i < |ls|
    ensures i >= 0 ==> SameEdge(ls[i], sourceId, targetId, relation)
    ensures i < 0 ==> forall k :: 0 <= k < |ls| ==> !SameEdge(ls[k], sourceId, targetId, relation)
  {
    FirstIndex(ls, (l: Link) => SameEdge(l, sourceId, targetId, relation))
  }

  /** The edge insert: a new row with the passed weight, or, for an edge already present,
      0.1 added to the stored weight (the passed weight is then unused). */
  function PutEdge(ls: seq<Link>, linkId: string, sourceId: string, targetId: string, relation: string, weight: real): (r: seq<Link>)
    requires LinksKeyed(ls)
    ensures LinksKeyed(r)
    ensures var i := EdgeIndex(ls, sourceId, targetId, relation);
      if i >= 0 then r == ls[i := ls[i].(weight := ls[i].weight + LinkStep)]
      else r == ls + [Link(linkId, sourceId, targetId, relation, weight)]
  {
    var i := EdgeIndex(ls, sourceId, targetId, relation);
    if i >= 0 then
      ls[i := ls[i].(weight := ls[i].weight + LinkStep)]
    else
      ls + [Link(linkId, sourceId, targetId, relation, weight)]
  }

  /** The tables after a link call, and the error of the upsert that raised, if any. Each upsert
      commits on its own, so a call that raised may leave its first upsert behind. */
  datatype LinkOutcome = LinkOutcome(db: Db, error: Option<string>)

  /** `add_concept_link` as written: both endpoints are upserted with the default arguments, then
      the edge is inserted or strengthened. When the target's upsert raises, the source's
      upsert has already been committed. */
  function AddConceptLink(db: Db, source: string, target: string, relation: string, weight: real, linkId: string): (r: LinkOutcome)
    requires ConceptsKeyed(db.concepts) && LinksKeyed(db.links)
    ensures ConceptsKeyed(r.db.concepts) && LinksKeyed(r.db.links)
    ensures r.error.None? ==> ConceptNamed(r.db.concepts, source).Some? && ConceptNamed(r.db.concepts, target).Some?
    ensures r.error.None? ==> r.db.links == PutEdge(db.links, linkId, ConceptId(source), ConceptId(target), relation, weight)
    ensures r.error.Some? ==> r.db.links == db.links && r.db.sessions == db.sessions
    ensures UpsertConcept(db, source, DefaultKind, None, None).Err? ==>
      r == LinkOutcome(db, Some(UpsertConcept(db, source, DefaultKind, None, None).error))
    ensures UpsertConcept(db, source, DefaultKind, None, None).Ok? && r.error.Some? ==>
      r.db == UpsertConcept(db, source, DefaultKind, None, None).value.0 && ConceptNamed(r.db.concepts, source).Some?
  {
    match UpsertConcept(db, source, DefaultKind, None, None)
    case Err(e) => LinkOutcome(db, Some(e))
    case Ok((db1, sId)) =>
      match UpsertConcept(db1, target, DefaultKind, None, None)
      case Err(e) => LinkOutcome(db1, Some(e))
      case Ok((db2, tId)) =>
        SourceSurvives(db1, source, target);
        LinkOutcome(db2.(links := PutEdge(db2.links, linkId, sId, tId, relation, weight)), None)
  }

  /** Upserting one name leaves the concept under another name in place. */
  lemma SourceSurvives(db: Db, source: string, target: string)
    requires ConceptsKeyed(db.concepts) && ConceptNamed(db.concepts, source).Some?
    ensures var r := UpsertConcept(db, target, DefaultKind, None, None);
      r.Ok? ==> ConceptNamed(r.value.0.concepts, source).Some?
  {
    var r := UpsertConcept(db, target, DefaultKind, None, None);
    if r.Ok? && source != target {
      var c := ConceptNamed(db.concepts, source).value;
      var k :| 0 <= k < |db.concepts| && db.concepts[k] == c;
      assert c in r.value.0.concepts;
      var j :| 0 <= j < |r.value.0.concepts| && r.value.0.concepts[j] == c;
    }
  }

  /** Linking the same pair under the same relation twice keeps one edge, 0.1 heavier. */
  lemma RelinkAddsStep(ls: seq<Link>, id1: string, id2: string, s: string, t: string, rel: string, w1: real, w2: real)
    requires LinksKeyed(ls) && EdgeIndex(ls, s, t, rel) < 0
    ensures var once := PutEdge(ls, id1, s, t, rel, w1);
      var twice := PutEdge(once, id2, s, t, rel, w2);
      |twice| == |ls| + 1 && twice[|ls|] == Link(id1, s, t, rel, w1 + LinkStep)
  {
    var once := PutEdge(ls, id1, s, t, rel, w1);
    assert once[|ls|] == Link(id1, s, t, rel, w1);
    var i := EdgeIndex(once, s, t, rel);
    assert i == |ls|;
  }

  /** Linking resets the type of an endpoint that was already stored to the default. */
  lemma LinkResetsKind(db: Db, source: string, target: string, relation: string, weight: real, linkId: string)
    requires ConceptsKeyed(db.concepts) && LinksKeyed(db.links)
    requires ConceptNamed(db.concepts, source).Some? && ConceptNamed(db.concepts, source).value.kind != DefaultKind
    ensures var r := AddConceptLink(db, source, target, relation, weight, linkId);
      r.error.None? ==> ConceptNamed(r.db.concepts, source).value.kind == DefaultKind
  {
    var r := AddConceptLink(db, source, target, relation, weight, linkId);
    if r.error.None? && source != target {
      var db1 := UpsertConcept(db, source, DefaultKind, None, None).value.0;
      var c := ConceptNamed(db1.concepts, source).value;
      assert c.kind == DefaultKind;
      var k :| 0 <= k < |db1.concepts| && db1.concepts[k] == c;
      assert c in r.db.concepts;
      NamedUnique(r.db.concepts, c);
    }
  }

  /** The endpoints' upsert with an unchanged type: the row is created when missing and left
      alone when present. */
  function EnsureConcept(db: Db, name: string): (r: Result<(Db, string)>)
    requires ConceptsKeyed(db.concepts)
    ensures r.Ok? ==> r.value.1 == ConceptId(name) && ConceptsKeyed(r.value.0.concepts)
    ensures r.Ok? ==> ConceptNamed(r.value.0.concepts, name).Some?
    ensures ConceptNamed(db.concepts, name).Some? ==> r == Ok((db, ConceptId(name)))
    ensures r.Ok? ==> r.value.0.sessions == db.sessions && r.value.0.links == db.links
    ensures r.Ok? ==> forall k :: 0 <= k < |db.concepts| ==> db.concepts[k] in r.value.0.concepts
  {
    if ConceptNamed(db.concepts, name).Some? then
      var c := ConceptNamed(db.concepts, name).value;
      var k :| 0 <= k < |db.concepts| && db.concepts[k] == c;
      assert c.id == ConceptId(name);
      Ok((db, ConceptId(name)))
    else UpsertConcept(db, name, DefaultKind, None, None)
  }

  /** `add_concept_link` with the endpoints only ensured: concepts already stored keep their
      type, description and metadata. */
  function AddConceptLinkKeepingKinds(db: Db, source: string, target: string, relation: string, weight: real, linkId: string): (r: LinkOutcome)
    requires ConceptsKeyed(db.concepts) && LinksKeyed(db.links)
    ensures ConceptsKeyed(r.db.concepts) && LinksKeyed(r.db.links)
    ensures r.error.None? ==> ConceptNamed(r.db.concepts, source).Some? && ConceptNamed(r.db.concepts, target).Some?
    ensures forall k :: 0 <= k < |db.concepts| ==> db.concepts[k] in r.db.concepts
    ensures r.error.None? ==> r.db.links == PutEdge(db.links, linkId, ConceptId(source), ConceptId(target), relation, weight)
    ensures r.error.Some? ==> r.db.links == db.links && r.db.sessions == db.sessions
    ensures EnsureConcept(db, source).Ok? && r.error.Some? ==>
      r.db == EnsureConcept(db, source).value.0 && ConceptNamed(r.db.concepts, source).Some?
  {
    match EnsureConcept(db, source)
    case Err(e) => LinkOutcome(db, Some(e))
    case Ok((db1, sId)) =>
      match EnsureConcept(db1, target)
      case Err(e) => LinkOutcome(db1, Some(e))
      case Ok((db2, tId)) =>
        KeptAcross(db1, source, target);
        LinkOutcome(db2.(links := PutEdge(db2.links, linkId, sId, tId, relation, weight)), None)
  }

  lemma KeptAcross(db: Db, source: string, target: string)
    requires ConceptsKeyed(db.concepts) && ConceptNamed(db.concepts, source).Some?
    ensures var r := EnsureConcept(db, target);
      r.Ok? ==> ConceptNamed(r.value.0.concepts, source).Some?
  {
    var r := EnsureConcept(db, target);
    if r.Ok? {
      var c := ConceptNamed(db.concepts, source).value;
      var k :| 0 <= k < |db.concepts| && db.concepts[k] == c;
      assert c in r.value.0.concepts;
      var j :| 0 <= j < |r.value.0.concepts| && r.value.0.concepts[j] == c;
    }
  }

  /** With the endpoints only ensured, linking never changes a stored concept, whether or not
      it raised. */
  lemma LinkKeepsKinds(db: Db, source: string, target: string, relation: string, weight: real, linkId: string, name: string)
    requires ConceptsKeyed(db.concepts) && LinksKeyed(db.links)
    requires ConceptNamed(db.concepts, name).Some?
    ensures var r := AddConceptLinkKeepingKinds(db, source, target, relation, weight, linkId);
      ConceptNamed(r.db.concepts, name) == ConceptNamed(db.concepts, name)
  {
    var r := AddConceptLinkKeepingKinds(db, source, target, relation, weight, linkId);
    var c := ConceptNamed(db.concepts, name).value;
    assert c in r.db.concepts;
    NamedUnique(r.db.concepts, c);
  }

  /** In a keyed table the row found by name is the only row with that name. */
  lemma NamedUnique(cs: seq<Concept>, c: Concept)
    requires ConceptsKeyed(cs) && c in cs
    ensures ConceptNamed(cs, c.name) == Some(c)
  {
    var k :| 0 <= k < |cs| && cs[k] == c;
    var found := ConceptNamed(cs, c.name).value;
    var j :| 0 <= j < |cs| && cs[j] == found;
    assert cs[j].name == cs[k].name;
  }

  /** The concept row under an id, if any. */
  function ConceptById(cs: seq<Concept>, id: string): (r: Option<Concept>)
    ensures r.Some? ==> r.value in cs && r.value.id == id
    ensures r.None? ==> forall k :: 0 <= k < |cs| ==> cs[k].id != id
  {
    var i := FirstIndex(cs, (c: Concept) => c.id == id);
    if i < 0 then None else Some(cs[i])
  }

  /** A link both of whose endpoint rows exist. */
  predicate Joinable(cs: seq<Concept>, l: Link) {
    ConceptById(cs, l.sourceId).Some? && ConceptById(cs, l.targetId).Some?
  }

  /** An edge of the graph: a link with its endpoints' names. */
  datatype GraphEdge = GraphEdge(link: Link, sourceName: string, targetName: string)

  datatype Graph = Graph(nodes: seq<Concept>, edges: seq<GraphEdge>)

  /** A joinable link with its endpoints' names. */
  function EdgeOf(cs: seq<Concept>, l: Link): (e: GraphEdge)
    requires Joinable(cs, l)
  {
    GraphEdge(l, ConceptById(cs, l.sourceId).value.name, ConceptById(cs, l.targetId).value.name)
  }

  /** `get_concept_graph`: every concept row, and every link joined with the names of its
      endpoints. The join is inner, so a link whose endpoint row is missing does not appear. */
  function GetConceptGraph(db: Db): (g: Graph)
    ensures g.nodes == db.concepts
    ensures |g.edges| <= |db.links|
    ensures forall k :: 0 <= k < |g.edges| ==>
      && g.edges[k].link in db.links
      && Joinable(db.concepts, g.edges[k].link)
      && g.edges[k].sourceName == ConceptById(db.concepts, g.edges[k].link.sourceId).value.name
      && g.edges[k].targetName == ConceptById(db.concepts, g.edges[k].link.targetId).value.name
    ensures forall k :: 0 <= k < |db.links| && Joinable(db.concepts, db.links[k]) ==>
      exists j :: 0 <= j < |g.edges| && g.edges[j].link == db.links[k]
  {
    var js := Filter(db.links, (l: Link) => Joinable(db.concepts, l));
    var edges := seq(|js|, k requires 0 <= k < |js| => EdgeOf(db.concepts, js[k]));
    EdgesComplete(db.concepts, db.links, js, edges);
    Graph(db.concepts, edges)
  }

  lemma EdgesComplete(cs: seq<Concept>, ls: seq<Link>, js: seq<Link>, edges: seq<GraphEdge>)
    requires forall k :: 0 <= k < |ls| && Joinable(cs, ls[k]) ==> ls[k] in js
    requires |edges| == |js| && forall k :: 0 <= k < |js| ==> edges[k].link == js[k]
    ensures forall k :: 0 <= k < |ls| && Joinable(cs, ls[k]) ==> exists j :: 0 <= j < |edges| && edges[j].link == ls[k]
  {
    forall k | 0 <= k < |ls| && Joinable(cs, ls[k]) ensures exists j :: 0 <= j < |edges| && edges[j].link == ls[k] {
      var j :| 0 <= j < |js| && js[j] == ls[k];
      assert edges[j].link == ls[k];
    }
  }

  /** In a keyed store every link added through `add_concept_link` shows in the graph. */
  lemma LinkedShows(db: Db, source: string, target: string, relation: string, weight: real, linkId: string)
    requires ConceptsKeyed(db.concepts) && LinksKeyed(db.links)
    ensures var r := AddConceptLink(db, source, target, relation, weight, linkId);
      r.error.None? ==> (exists j :: 0 <= j < |GetConceptGraph(r.db).edges| && SameEdge(GetConceptGraph(r.db).edges[j].link, ConceptId(source), ConceptId(target), relation))
  {
    var r := AddConceptLink(db, source, target, relation, weight, linkId);
    if r.error.None? {
      var db2 := r.db;
      PutEdgeHas(db.links, linkId, ConceptId(source), ConceptId(target), relation, weight);
      var i := EdgeIndex(db2.links, ConceptId(source), ConceptId(target), relation);
      IdFinds(db2.concepts, ConceptNamed(db2.concepts, source).value);
      IdFinds(db2.concepts, ConceptNamed(db2.concepts, target).value);
      JoinedShows(db2, i);
    }
  }

  lemma JoinedShows(db: Db, i: int)
    requires 0 <= i < |db.links| && Joinable(db.concepts, db.links[i])
    ensures exists j :: 0 <= j < |GetConceptGraph(db).edges| && GetConceptGraph(db).edges[j].link == db.links[i]
  {
    var g := GetConceptGraph(db);
    assert Joinable(db.concepts, db.links[i]);
  }

  /** After the edge insert the edge is present. */
  lemma PutEdgeHas(ls: seq<Link>, linkId: string, s: string, t: string, rel: string, w: real)
    requires LinksKeyed(ls)
    ensures EdgeIndex(PutEdge(ls, linkId, s, t, rel, w), s, t, rel) >= 0
  {
    var r := PutEdge(ls, linkId, s, t, rel, w);
    var i := EdgeIndex(ls, s, t, rel);
    if i >= 0 {
      assert SameEdge(r[i], s, t, rel);
    } else {
      assert SameEdge(r[|ls|], s, t, rel);
    }
  }

  /** A stored concept is found under its id. */
  lemma IdFinds(cs: seq<Concept>, c: Concept)
    requires ConceptsKeyed(cs) && c in cs
    ensures ConceptById(cs, ConceptId(c.name)).Some?
  {
    var k :| 0 <= k < |cs| && cs[k] == c;
    assert cs[k].id == ConceptId(c.name);
  }
}

=== FILE: orchestrator.dfy ===
/** Debate orchestration (example/backend/app/services/orchestrator_service.py): turning a
    report into a debate skeleton, then filling it from the generator's output.
    Every collaborator is an input: the freshly minted uuid, the retrieval context, the web
    search answer, the generator (a function from prompt to result or error) and the outcome
    of every store write that can fail. */
module Orchestrator {
  import opened Wrappers
  import opened Text
  import opened Seqs
  import opened Store
  import opened DebateSchema
  import ThreadBuilder
  import ScoutSearch

  const InitMarker: string := "INICJALIZACJA_DEBATY_AI..."
  const ErrorPrefix: string := "BŁĄD_SYSTEMU: "
  const LoadingStatus: string := "loading"
  const ActiveStatus: string := "active"
  const ApprovedStatus: string := "approved"
  const AgentRole: string := "AGENT"

  /** What `create_debate_from_report` hands to the background run. */
  datatype Job = Job(debateId: Id, reportId: Id, prompt: string, title: string, sourceUrl: Option<string>, useTavily: bool)

  datatype Created = Created(db: Db, job: Option<Job>)

  /** Python truthiness of a nullable string column. */
  predicate Truthy(s: Option<string>) {
    s.Some? && s.value != ""
  }

  function BasePrompt(report: ReportRow): string {
    "Temat: '" + report.title + "'\nOpis: " + report.content
  }

  /** The generation prompt: title and description, and the source link when the report has one. */
  function ReportPrompt(report: ReportRow): (p: string)
    ensures StartsWith(p, BasePrompt(report))
    ensures !Truthy(report.sourceUrl) ==> p == BasePrompt(report)
    ensures Truthy(report.sourceUrl) ==> EndsWith(p, "\nŹródło: " + report.sourceUrl.value)
  {
    if Truthy(report.sourceUrl) then BasePrompt(report) + "\nŹródło: " + report.sourceUrl.value
    else BasePrompt(report)
  }

  /** The header written before generation starts. Its score and tags are reset, while the
      vote count is carried over. */
  function Skeleton(debateId: Id, report: ReportRow, confirmations: Option<int>): DebateRow {
    DebateRow(debateId, Some(report.id), report.title, InitMarker, 0.0, LoadingStatus, [], report.sourceUrl, confirmations)
  }

  /** Identity resolution and reset. With no such report nothing is written. Otherwise the
      debate already linked to the report (by `external_id`) keeps its id and vote count and
      loses only its own messages; without one the minted `newId` is used with zero votes.
      In both cases the header is upserted as a `loading` skeleton. */
  function CreateDebateFromReport(db: Db, reportId: Id, newId: Id, useTavily: bool): (c: Created)
    ensures c.job.None? <==> FindReport(db.reports, reportId).None?
    ensures c.job.None? ==> c.db == db
    ensures c.db.reports == db.reports
    ensures c.job.Some? ==> c.job.value.reportId == reportId
    ensures c.job.Some? && FindDebateFor(db.debates, reportId).Some? ==>
      c.job.value.debateId == FindDebateFor(db.debates, reportId).value.id &&
      c.db.messages == DeleteMessagesOf(db.messages, c.job.value.debateId)
    ensures c.job.Some? && FindDebateFor(db.debates, reportId).None? ==>
      c.job.value.debateId == newId && c.db.messages == db.messages
    ensures c.job.Some? ==>
      forall k :: 0 <= k < |c.db.debates| && c.db.debates[k].id == c.job.value.debateId ==>
        var d := c.db.debates[k];
        d.status == LoadingStatus && d.summary == InitMarker && d.absurdScore == 0.0 && d.tags == [] &&
        d.externalId == Some(reportId)
    ensures c.job.Some? ==>
      forall k :: 0 <= k < |db.debates| && db.debates[k].id != c.job.value.debateId ==> db.debates[k] in c.db.debates
  {
    match FindReport(db.reports, reportId)
    case None => Created(db, None)
    case Some(report) =>
      var existing := FindDebateFor(db.debates, reportId);
      var debateId := if existing.Some? then existing.value.id else newId;
      var confirmations := if existing.Some? then existing.value.confirmations else Some(0);
      var messages := if existing.Some? then DeleteMessagesOf(db.messages, debateId) else db.messages;
      var debates := UpsertDebate(db.debates, Skeleton(debateId, report, confirmations));
      Created(Db(db.reports, debates, messages),
        Some(Job(debateId, reportId, ReportPrompt(report), report.title, report.sourceUrl, useTavily)))
  }

  /** The store calls of identity resolution, in order: reading the report, reading the linked
      debate, deleting that debate's old replies (only when there is one), upserting the skeleton. */
  datatype ResolveStep = ReadReport | ReadLinked | ClearReplies | UpsertSkeleton

  /** A store call of identity resolution that raised, and its exception text. */
  datatype ResolveFault = ResolveFault(step: ResolveStep, error: string)

  datatype Resolution = Resolution(db: Db, job: Option<Job>, error: Option<string>)

  /** Whether identity resolution gets as far as the given store call. */
  predicate ResolveReaches(db: Db, reportId: Id, step: ResolveStep) {
    match step
    case ReadReport => true
    case ReadLinked => FindReport(db.reports, reportId).Some?
    case ClearReplies => FindReport(db.reports, reportId).Some? && FindDebateFor(db.debates, reportId).Some?
    case UpsertSkeleton => FindReport(db.reports, reportId).Some?
  }

  /** `create_debate_from_report` when one of its store calls may raise. Every call commits on
      its own, so an upsert that raises after the old replies were deleted leaves them deleted
      while the header is still the old one. A call that raised schedules nothing; a fault at a
      call that is never reached changes nothing. */
  function ResolveIdentity(db: Db, reportId: Id, newId: Id, useTavily: bool, fault: Option<ResolveFault>): (c: Resolution)
    ensures c.error.Some? <==> fault.Some? && ResolveReaches(db, reportId, fault.value.step)
    ensures c.error.None? ==>
      var clean := CreateDebateFromReport(db, reportId, newId, useTavily);
      c.db == clean.db && c.job == clean.job
    ensures c.error.Some? ==> c.error.value == fault.value.error && c.job.None?
    ensures c.error.Some? ==> c.db.reports == db.reports && c.db.debates == db.debates
    ensures c.error.Some? && fault.value.step == UpsertSkeleton && FindDebateFor(db.debates, reportId).Some? ==>
      c.db.messages == DeleteMessagesOf(db.messages, FindDebateFor(db.debates, reportId).value.id)
    ensures c.error.Some? && !(fault.value.step == UpsertSkeleton && FindDebateFor(db.debates, reportId).Some?) ==>
      c.db.messages == db.messages
  {
    if fault.Some? && ResolveReaches(db, reportId, fault.value.step) then
      var linked := FindDebateFor(db.debates, reportId);
      var cleared :=
        if fault.value.step == UpsertSkeleton && linked.Some? then db.(messages := DeleteMessagesOf(db.messages, linked.value.id))
        else db;
      Resolution(cleared, None, Some(fault.value.error))
    else
      var clean := CreateDebateFromReport(db, reportId, newId, useTavily);
      Resolution(clean.db, clean.job, None)
  }

  /** A resolution that raised leaves the headers as they were, so the next attempt resolves to
      the same debate with the same vote count. */
  lemma RetryAfterFaultKeepsIdentity(db: Db, reportId: Id, newId: Id, useTavily: bool, fault: ResolveFault)
    requires FindReport(db.reports, reportId).Some?
    ensures var failed := ResolveIdentity(db, reportId, newId, useTavily, Some(fault));
      var retried := CreateDebateFromReport(failed.db, reportId, newId, useTavily);
      var direct := CreateDebateFromReport(db, reportId, newId, useTavily);
      failed.error.Some? ==>
      && retried.job == direct.job
      && retried.db.debates == direct.db.debates
      && CarriedVotes(failed.db, reportId) == CarriedVotes(db, reportId)
  {
    var failed := ResolveIdentity(db, reportId, newId, useTavily, Some(fault));
    if failed.error.Some? {
      assert failed.db.reports == db.reports && failed.db.debates == db.debates;
    }
  }

  /** The vote count the skeleton carries: the linked debate's, or zero for a new one. */
  function CarriedVotes(db: Db, reportId: Id): Option<int> {
    var existing := FindDebateFor(db.debates, reportId);
    if existing.Some? then existing.value.confirmations else Some(0)
  }

  /** After identity resolution the first debate linked to the report is exactly the skeleton,
      so a later run resolves to the same debate. */
  lemma SkeletonIsFirstLinked(db: Db, reportId: Id, newId: Id, useTavily: bool)
    requires FindReport(db.reports, reportId).Some?
    ensures var c := CreateDebateFromReport(db, reportId, newId, useTavily);
      FindDebateFor(c.db.debates, reportId) ==
        Some(Skeleton(c.job.value.debateId, FindReport(db.reports, reportId).value, CarriedVotes(db, reportId)))
  {
    var report := FindReport(db.reports, reportId).value;
    var c := CreateDebateFromReport(db, reportId, newId, useTavily);
    var s := Skeleton(c.job.value.debateId, report, CarriedVotes(db, reportId));
    assert c.db.debates == UpsertDebate(db.debates, s);
    if FindDebateFor(db.debates, reportId).Some? {
      UpsertOverLinked(db.debates, s, reportId);
    } else {
      UpsertNewLinked(db.debates, s, reportId);
    }
  }

  /** Upserting a row that takes over the id of the first linked debate makes it the first linked one. */
  lemma UpsertOverLinked(d: seq<DebateRow>, s: DebateRow, reportId: Id)
    requires LinkedTo(s, reportId)
    requires FindDebateFor(d, reportId).Some? && FindDebateFor(d, reportId).value.id == s.id
    ensures FindDebateFor(UpsertDebate(d, s), reportId) == Some(s)
  {
    var e := LinkedIndex(d, reportId);
    assert d[e].id == s.id;
    ReplacedStaysFirst(d, UpsertDebate(d, s), s, reportId);
  }

  /** Replacing the rows with the first linked debate's id by a linked row makes that row the
      first linked one (possibly earlier, where a row shared the id). */
  lemma ReplacedStaysFirst(d: seq<DebateRow>, r: seq<DebateRow>, s: DebateRow, reportId: Id)
    requires LinkedTo(s, reportId)
    requires LinkedIndex(d, reportId) >= 0 && d[LinkedIndex(d, reportId)].id == s.id
    requires |r| == |d| && forall k :: 0 <= k < |d| ==> r[k] == (if d[k].id == s.id then s else d[k])
    ensures LinkedIndex(r, reportId) >= 0 && r[LinkedIndex(r, reportId)] == s
  {
    var e := LinkedIndex(d, reportId);
    assert r[e] == s;
    var f := LinkedIndex(r, reportId);
    assert 0 <= f <= e;
  }

  /** With no linked debate yet, the upserted row is the first linked one. */
  lemma UpsertNewLinked(d: seq<DebateRow>, s: DebateRow, reportId: Id)
    requires LinkedTo(s, reportId)
    requires FindDebateFor(d, reportId).None?
    ensures FindDebateFor(UpsertDebate(d, s), reportId) == Some(s)
  {
    var f := LinkedIndex(UpsertDebate(d, s), reportId);
  }

  /** A vote leaves the links alone, so the first linked debate stays where it was and carries the vote. */
  lemma VoteKeepsFirstLinked(d: seq<DebateRow>, reportId: Id, votes: Option<int>, score: real)
    requires FindDebateFor(d, reportId).Some?
    ensures var s := FindDebateFor(d, reportId).value;
      FindDebateFor(SetVotes(d, s.id, votes, score), reportId) == Some(s.(confirmations := votes, absurdScore := score))
  {
    var f := LinkedIndex(d, reportId);
    var r := SetVotes(d, d[f].id, votes, score);
    forall k | 0 <= k < f ensures !LinkedTo(r[k], reportId) {
      assert !LinkedTo(d[k], reportId);
    }
    LinkedIndexIs(r, reportId, f);
  }

  /** Regenerating a debate keeps its identity and the votes cast on it in the meantime,
      while the score bump those votes added is reset. */
  lemma RegenerationKeepsVotes(db: Db, reportId: Id, id1: Id, id2: Id, useTavily: bool, votes: Option<int>, score: real)
    requires FindReport(db.reports, reportId).Some?
    ensures var c1 := CreateDebateFromReport(db, reportId, id1, useTavily);
      var debateId := c1.job.value.debateId;
      var voted := c1.db.(debates := SetVotes(c1.db.debates, debateId, votes, score));
      var c2 := CreateDebateFromReport(voted, reportId, id2, useTavily);
      c2.job.Some? && c2.job.value.debateId == debateId &&
      exists k :: 0 <= k < |c2.db.debates| && c2.db.debates[k].id == debateId &&
        c2.db.debates[k].confirmations == votes && c2.db.debates[k].absurdScore == 0.0
  {
    var c1 := CreateDebateFromReport(db, reportId, id1, useTavily);
    var report := FindReport(db.reports, reportId).value;
    var debateId := c1.job.value.debateId;
    SkeletonIsFirstLinked(db, reportId, id1, useTavily);
    VoteKeepsFirstLinked(c1.db.debates, reportId, votes, score);
    var voted := c1.db.(debates := SetVotes(c1.db.debates, debateId, votes, score));
    assert FindReport(voted.reports, reportId) == Some(report);
    var c2 := CreateDebateFromReport(voted, reportId, id2, useTavily);
    SkeletonIsFirstLinked(voted, reportId, id2, useTavily);
    var f2 := LinkedIndex(c2.db.debates, reportId);
    assert c2.db.debates[f2] == Skeleton(debateId, report, votes);
  }

  // ---------------------------------------------------------------------------------------
  // The background run

  /** The banner every research text starts with. */
  const ScoutBanner: string := "\n\n\U{1F4E1} WYWIAD SCOUTA"
  const SourcesTail: string := " " + "(źródła z sieci):\n"
  const NoSourcesTail: string := ":" + " Brak zewnętrznych źródeł. Analiza wewnętrzna.\n"
  const NetErrorTail: string := ":" + " Błąd połączenia z siecią: "
  const SourcesHeader: string := ScoutBanner + SourcesTail
  const NoSourcesText: string := ScoutBanner + NoSourcesTail
  const NetErrorPrefix: string := ScoutBanner + NetErrorTail

  function Entry(n: nat, r: ScoutSearch.WebSearchResult): string
    requires 1 <= n <= 9
  {
    "\n[" + [ScoutSearch.Digit(n)] + "] " + r.title + "\n" + "    URL: " + r.url + "\n" +
    "    Treść: " + Take(r.content, 200) + "...\n"
  }

  /** The numbered entries for the first results, numbering from `n`. */
  function Entries(rs: seq<ScoutSearch.WebSearchResult>, n: nat): string
    requires 1 <= n && n + |rs| <= 10
    decreases |rs|
  {
    if rs == [] then "" else Entry(n, rs[0]) + Entries(rs[1..], n + 1)
  }

  /** `results[:3]`. */
  function Top(results: seq<ScoutSearch.WebSearchResult>): (top: seq<ScoutSearch.WebSearchResult>)
    ensures |top| == if |results| < 3 then |results| else 3
    ensures top == results[..|top|]
  {
    if |results| <= 3 then results else results[..3]
  }

  /** The entries for `rs`, numbered from `n`, one per result. */
  function EntrySeq(rs: seq<ScoutSearch.WebSearchResult>, n: nat): (es: seq<string>)
    requires 1 <= n && n + |rs| <= 10
    ensures |es| == |rs|
    ensures forall k :: 0 <= k < |rs| ==> es[k] == Entry(n + k, rs[k])
  {
    seq(|rs|, (k: int) requires 0 <= k < |rs| => Entry(n + k, rs[k]))
  }

  /** The text of the numbered entries is their concatenation. */
  lemma {:induction false} EntriesAre(rs: seq<ScoutSearch.WebSearchResult>, n: nat)
    requires 1 <= n && n + |rs| <= 10
    ensures Entries(rs, n) == Concat(EntrySeq(rs, n))
    decreases |rs|
  {
    if rs != [] {
      EntriesAre(rs[1..], n + 1);
      assert EntrySeq(rs, n) == [Entry(n, rs[0])] + EntrySeq(rs[1..], n + 1);
    }
  }

  /** Web research before a debate. It never fails: a search that raised is reported in the
      text, and an answer whose first item has no url (one of the search's sentinels) gives
      the "no external sources" text. Otherwise the header is followed by the first three
      results and nothing else, each with its number, title, url and first 200 characters. */
  function ScoutResearch(search: Result<seq<ScoutSearch.WebSearchResult>>): (r: string)
    ensures StartsWith(r, ScoutBanner)
    ensures StartsWith(r, SourcesHeader) <==> search.Ok? && |search.value| > 0 && search.value[0].url != ""
    ensures search.Err? ==> r == NetErrorPrefix + search.error + "\n"
    ensures search.Ok? && !(|search.value| > 0 && search.value[0].url != "") ==> r == NoSourcesText
    ensures search.Ok? && |search.value| > 0 && search.value[0].url != "" ==>
      r == SourcesHeader + Concat(EntrySeq(Top(search.value), 1))
  {
    match search
    case Err(e) =>
      var r := NetErrorPrefix + e + "\n";
      assert r == ScoutBanner + (NetErrorTail + e + "\n");
      StartsWithConcat(ScoutBanner, NetErrorTail + e + "\n");
      assert (NetErrorTail + e + "\n")[0] == NetErrorTail[0] == ':';
      assert SourcesTail[0] == ' ';
      DivergeAfter(ScoutBanner, NetErrorTail + e + "\n", SourcesTail);
      r
    case Ok(results) =>
      if |results| > 0 && results[0].url != "" then
        var top := Top(results);
        var r := SourcesHeader + Entries(top, 1);
        EntriesAre(top, 1);
        StartsWithConcat(SourcesHeader, Entries(top, 1));
        StartsWithConcat(ScoutBanner, SourcesTail);
        StartsWithTrans(r, SourcesHeader, ScoutBanner);
        r
      else
        StartsWithConcat(ScoutBanner, NoSourcesTail);
        assert NoSourcesTail[0] == ':' && SourcesTail[0] == ' ';
        DivergeAfter(ScoutBanner, NoSourcesTail, SourcesTail);
        NoSourcesText
  }

  /** A search with sources lists each of its first three results as its numbered entry. */
  lemma ResearchListsTopThree(results: seq<ScoutSearch.WebSearchResult>, k: nat)
    requires |results| > 0 && results[0].url != "" && k < |results| && k < 3
    ensures Contains(ScoutResearch(Ok(results)), Entry(k + 1, results[k]))
  {
    var es := EntrySeq(Top(results), 1);
    PartOccurs(SourcesHeader, es, k);
    assert es[k] == Entry(k + 1, results[k]);
  }

  /** The search's own fallbacks all have an empty url, so they produce no source list. */
  lemma SentinelGivesNoSources(hasClient: bool, response: Result<seq<ScoutSearch.RawItem>>)
    requires !hasClient || response.Err? || ScoutSearch.Kept(response.value) == []
    ensures ScoutResearch(Ok(ScoutSearch.TavilySearch(hasClient, response))) == NoSourcesText
  {
  }

  /** The prompt after retrieval and research: the base prompt, then the retrieval context
      when retrieval succeeded with something, then the research text when asked for. */
  function EnrichedPrompt(prompt: string, rag: Result<string>, useTavily: bool,
                          search: Result<seq<ScoutSearch.WebSearchResult>>): (r: string)
    ensures StartsWith(r, prompt)
    ensures !useTavily && !(rag.Ok? && rag.value != "") ==> r == prompt
    ensures useTavily ==> EndsWith(r, ScoutResearch(search))
    ensures rag.Ok? && rag.value != "" ==> OccursAt(r, "\n\n" + rag.value, |prompt|)
  {
    var context := if rag.Ok? then rag.value else "";
    var withContext := if rag.Ok? && context != "" then prompt + ("\n\n" + context) else prompt;
    StartsWithConcat(prompt, "\n\n" + context);
    assert StartsWith(withContext, prompt);
    if useTavily then
      var research := ScoutResearch(search);
      StartsWithConcat(withContext, research);
      StartsWithTrans(withContext + research, withContext, prompt);
      EndsWithConcat(withContext, research);
      OccursAtConcat(prompt, "\n\n" + context, research);
      assert rag.Ok? && context != "" ==> withContext + research == prompt + ("\n\n" + context) + research;
      withContext + research
    else
      OccursAtConcat(prompt, "\n\n" + context, "");
      assert prompt + ("\n\n" + context) + "" == prompt + ("\n\n" + context);
      withContext
  }

  /** The outcome of one message insert: the new row's id, an empty answer, or an exception. */
  datatype InsertOutcome = Inserted(id: Id) | NoRow | Raised(error: string)

  /** The store failures of one run: on the header update, per message insert (missing
      entries read as empty answers), on the report approval, and on the exception handler's
      own summary update. */
  datatype Faults = Faults(header: Option<string>, inserts: seq<InsertOutcome>, approve: Option<string>,
                           handler: Option<string>)

  /** How a run ends: completed; failed with the error written into the summary; or crashed,
      when the handler's own update raised and its exception escapes the run. */
  datatype RunOutcome = Completed | Failed(error: string) | Crashed(error: string, handlerError: string)

  datatype Run = Run(db: Db, outcome: RunOutcome)

  function OutcomeAt(inserts: seq<InsertOutcome>, i: nat): InsertOutcome {
    if i < |inserts| then inserts[i] else NoRow
  }

  /** What the builder records for an insert: the new id, or `None` to keep positions aligned. */
  function CreatedId(o: InsertOutcome): Option<Id> {
    if o.Inserted? then Some(o.id) else None
  }

  /** The row stored for a reply. */
  function ReplyRow(m: AgentMessage, id: Id, debateId: Id, parent: Option<Id>): MessageRow {
    MessageRow(id, debateId, AgentIdName(m.agentId), Capitalize(AgentIdName(m.agentId)), AgentRole,
      m.content, MessageTypeName(m.messageType), parent)
  }

  /** Reference definition of the rows stored for positions `i` onwards, given the final list
      of created ids: one row per successful insert, linked to its parent as the builder says. */
  function RowsFrom(replies: seq<AgentMessage>, created: seq<Option<Id>>, debateId: Id, i: nat): seq<MessageRow>
    requires i <= |created| <= |replies|
    decreases |created| - i
  {
    if i == |created| then []
    else
      (if created[i].Some? then
         [ReplyRow(replies[i], created[i].value, debateId, ThreadBuilder.LinkOf(created, i, replies[i].parentIndex))]
       else []) + RowsFrom(replies, created, debateId, i + 1)
  }

  datatype StreamResult = StreamResult(rows: seq<MessageRow>, created: seq<Option<Id>>, error: Option<string>)

  /** The reply loop from position `|created|` on: each reply is inserted with the parent
      the builder computes from the ids created so far; an exception stops the loop. */
  function Stream(replies: seq<AgentMessage>, inserts: seq<InsertOutcome>, debateId: Id, created: seq<Option<Id>>): (s: StreamResult)
    requires |created| <= |replies|
    ensures |created| <= |s.created| <= |replies|
    ensures forall k :: 0 <= k < |created| ==> s.created[k] == created[k]
    decreases |replies| - |created|
  {
    if |created| == |replies| then StreamResult([], created, None)
    else
      var i := |created|;
      var m := replies[i];
      match OutcomeAt(inserts, i)
      case Raised(e) => StreamResult([], created, Some(e))
      case NoRow => Stream(replies, inserts, debateId, created + [None])
      case Inserted(id) =>
        var rest := Stream(replies, inserts, debateId, created + [Some(id)]);
        StreamResult([ReplyRow(m, id, debateId, ThreadBuilder.LinkOf(created, i, m.parentIndex))] + rest.rows,
          rest.created, rest.error)
  }

  /** The loop records one entry per attempted insert, stops exactly at the first exception,
      and runs to the end of the replies otherwise. */
  lemma StreamCreated(replies: seq<AgentMessage>, inserts: seq<InsertOutcome>, debateId: Id, created: seq<Option<Id>>)
    requires |created| <= |replies|
    ensures var s := Stream(replies, inserts, debateId, created);
      && (forall k :: |created| <= k < |s.created| ==>
            s.created[k] == CreatedId(OutcomeAt(inserts, k)) && !OutcomeAt(inserts, k).Raised?)
      && (s.error.None? <==> |s.created| == |replies|)
      && (s.error.Some? ==> OutcomeAt(inserts, |s.created|) == Raised(s.error.value))
  {
    StreamIds(replies, inserts, debateId, created);
    StreamStops(replies, inserts, debateId, created);
  }

  /** One step of the loop when the insert did not raise: the rest of the loop decides the ids and the error. */
  lemma StreamContinues(replies: seq<AgentMessage>, inserts: seq<InsertOutcome>, debateId: Id, created: seq<Option<Id>>)
    requires |created| < |replies| && !OutcomeAt(inserts, |created|).Raised?
    ensures var s := Stream(replies, inserts, debateId, created);
      var rest := Stream(replies, inserts, debateId, created + [CreatedId(OutcomeAt(inserts, |created|))]);
      s.created == rest.created && s.error == rest.error
  {
  }

  /** Every entry the loop adds is the id of its insert, and none of those inserts raised. */
  lemma {:induction false} StreamIds(replies: seq<AgentMessage>, inserts: seq<InsertOutcome>, debateId: Id, created: seq<Option<Id>>)
    requires |created| <= |replies|
    ensures var s := Stream(replies, inserts, debateId, created);
      forall k :: |created| <= k < |s.created| ==>
        s.created[k] == CreatedId(OutcomeAt(inserts, k)) && !OutcomeAt(inserts, k).Raised?
    decreases |replies| - |created|
  {
    if |created| < |replies| && !OutcomeAt(inserts, |created|).Raised? {
      var next := created + [CreatedId(OutcomeAt(inserts, |created|))];
      StreamContinues(replies, inserts, debateId, created);
      StreamIds(replies, inserts, debateId, next);
      var s := Stream(replies, inserts, debateId, next).created;
      assert Stream(replies, inserts, debateId, created).created == s;
      forall k | |created| <= k < |s| ensures s[k] == CreatedId(OutcomeAt(inserts, k)) && !OutcomeAt(inserts, k).Raised? {
        if k == |created| {
          assert s[k] == next[k];
        }
      }
    } else {
      StreamHalts(replies, inserts, debateId, created);
    }
  }

  /** At the end of the replies, or at an insert that raised, the loop adds nothing more. */
  lemma StreamHalts(replies: seq<AgentMessage>, inserts: seq<InsertOutcome>, debateId: Id, created: seq<Option<Id>>)
    requires |created| <= |replies|
    requires |created| == |replies| || OutcomeAt(inserts, |created|).Raised?
    ensures Stream(replies, inserts, debateId, created).created == created
  {
  }

  /** The loop ends with an error exactly when an insert raised, and that error is the insert's. */
  lemma {:induction false} StreamStops(replies: seq<AgentMessage>, inserts: seq<InsertOutcome>, debateId: Id, created: seq<Option<Id>>)
    requires |created| <= |replies|
    ensures var s := Stream(replies, inserts, debateId, created);
      && (s.error.None? <==> |s.created| == |replies|)
      && (s.error.Some? ==> OutcomeAt(inserts, |s.created|) == Raised(s.error.value))
    decreases |replies| - |created|
  {
    if |created| < |replies| && !OutcomeAt(inserts, |created|).Raised? {
      StreamContinues(replies, inserts, debateId, created);
      StreamStops(replies, inserts, debateId, created + [CreatedId(OutcomeAt(inserts, |created|))]);
    }
  }

  /** The rows the loop stores are the reference rows for the ids it created. */
  lemma {:induction false} StreamRows(replies: seq<AgentMessage>, inserts: seq<InsertOutcome>, debateId: Id, created: seq<Option<Id>>)
    requires |created| <= |replies|
    ensures var s := Stream(replies, inserts, debateId, created);
      s.rows == RowsFrom(replies, s.created, debateId, |created|)
    decreases |replies| - |created|
  {
    if |created| < |replies| {
      var i := |created|;
      match OutcomeAt(inserts, i)
      case Raised(e) =>
      case NoRow =>
        StreamRows(replies, inserts, debateId, created + [None]);
        var rest := Stream(replies, inserts, debateId, created + [None]);
        StreamStep(replies, created, None, rest.created, debateId);
      case Inserted(id) =>
        StreamRows(replies, inserts, debateId, created + [Some(id)]);
        var rest := Stream(replies, inserts, debateId, created + [Some(id)]);
        StreamStep(replies, created, Some(id), rest.created, debateId);
    }
  }

  /** One step of the loop agrees with the reference definition: a reply's parent depends
      only on the ids created before it. */
  lemma StreamStep(replies: seq<AgentMessage>, created: seq<Option<Id>>, o: Option<Id>, final: seq<Option<Id>>, debateId: Id)
    requires |created| < |replies| && |created| + 1 <= |final| <= |replies|
    requires forall k :: 0 <= k < |created| ==> final[k] == created[k]
    requires final[|created|] == o
    ensures ThreadBuilder.LinkOf(final, |created|, replies[|created|].parentIndex) ==
            ThreadBuilder.LinkOf(created, |created|, replies[|created|].parentIndex)
    ensures RowsFrom(replies, final, debateId, |created|) ==
      (if o.Some? then [ReplyRow(replies[|created|], o.value, debateId, ThreadBuilder.LinkOf(created, |created|, replies[|created|].parentIndex))] else [])
      + RowsFrom(replies, final, debateId, |created| + 1)
  {
    var i := |created|;
    match ThreadBuilder.ParentPosition(i, replies[i].parentIndex)
    case None =>
    case Some(p) => assert final[p] == created[p];
  }

  /** Number of successful inserts among the first `n` outcomes, from position `i`. */
  function InsertedCount(inserts: seq<InsertOutcome>, i: nat, n: nat): nat
    decreases n - i
  {
    if n <= i then 0 else (if OutcomeAt(inserts, i).Inserted? then 1 else 0) + InsertedCount(inserts, i + 1, n)
  }

  /** The reference rows are one per successful insert. */
  lemma {:induction false} RowsCount(replies: seq<AgentMessage>, created: seq<Option<Id>>, debateId: Id, i: nat, inserts: seq<InsertOutcome>)
    requires i <= |created| <= |replies|
    requires forall k :: i <= k < |created| ==> created[k] == CreatedId(OutcomeAt(inserts, k))
    ensures |RowsFrom(replies, created, debateId, i)| == InsertedCount(inserts, i, |created|)
    decreases |created| - i
  {
    if i < |created| {
      RowsCount(replies, created, debateId, i + 1, inserts);
    }
  }

  /** Every reference row belongs to the debate. */
  lemma {:induction false} RowsBelong(replies: seq<AgentMessage>, created: seq<Option<Id>>, debateId: Id, i: nat)
    requires i <= |created| <= |replies|
    ensures forall k :: 0 <= k < |RowsFrom(replies, created, debateId, i)| ==>
      RowsFrom(replies, created, debateId, i)[k].debateId == debateId
    decreases |created| - i
  {
    if i < |created| {
      RowsBelong(replies, created, debateId, i + 1);
    }
  }

  /** No exception among the insert outcomes of the first `n` replies. */
  predicate NoRaise(inserts: seq<InsertOutcome>, n: nat) {
    forall k :: 0 <= k < n ==> !OutcomeAt(inserts, k).Raised?
  }

  /** The header update of step 4: generated summary, score and tags, status `active`. */
  function ActivateHeader(debates: seq<DebateRow>, debateId: Id, d: DebateResult, sourceUrl: Option<string>): seq<DebateRow> {
    UpdateWhere(debates, (x: DebateRow) => x.id == debateId,
      (x: DebateRow) => x.(summary := d.summary, absurdScore := d.absurdScore, tags := d.tags,
                           status := ActiveStatus, sourceUrl := sourceUrl))
  }

  /** The exception handler: the error text goes into the debate's summary, unless that update
      raises too, which leaves the tables as they were and lets its exception escape. */
  function Fail(db: Db, debateId: Id, e: string, handlerFault: Option<string>): Run {
    if handlerFault.Some? then Run(db, Crashed(e, handlerFault.value))
    else Run(db.(debates := SetSummary(db.debates, debateId, ErrorPrefix + e)), Failed(e))
  }

  /** The whole background run. */
  function ProcessDebateStream(db: Db, job: Job, rag: Result<string>,
                               search: Result<seq<ScoutSearch.WebSearchResult>>,
                               generate: string -> Result<DebateResult>, faults: Faults): (r: Run)
    ensures var g := generate(EnrichedPrompt(job.prompt, rag, job.useTavily, search));
      r.outcome.Completed? <==>
        g.Ok? && faults.header.None? && NoRaise(faults.inserts, |g.value.messages|) && faults.approve.None?
    ensures !r.outcome.Completed? ==> (r.outcome.Crashed? <==> faults.handler.Some?)
    ensures r.outcome.Crashed? ==> r.outcome.handlerError == faults.handler.value
    ensures r.outcome.Completed? ==> r.db.reports == SetReportStatus(db.reports, job.reportId, ApprovedStatus)
    ensures !r.outcome.Completed? ==> r.db.reports == db.reports
    ensures r.outcome.Failed? ==>
      forall k :: 0 <= k < |r.db.debates| && r.db.debates[k].id == job.debateId ==>
        r.db.debates[k].summary == ErrorPrefix + r.outcome.error
    ensures |r.db.debates| == |db.debates|
    ensures forall k :: 0 <= k < |db.debates| && db.debates[k].id != job.debateId ==> r.db.debates[k] == db.debates[k]
    ensures |db.messages| <= |r.db.messages| && r.db.messages[..|db.messages|] == db.messages
    ensures forall k :: |db.messages| <= k < |r.db.messages| ==> r.db.messages[k].debateId == job.debateId
  {
    var prompt := EnrichedPrompt(job.prompt, rag, job.useTavily, search);
    match generate(prompt)
    case Err(e) => Fail(db, job.debateId, e, faults.handler)
    case Ok(d) =>
      if faults.header.Some? then Fail(db, job.debateId, faults.header.value, faults.handler)
      else
        var headed := db.(debates := ActivateHeader(db.debates, job.debateId, d, job.sourceUrl));
        var s := Stream(d.messages, faults.inserts, job.debateId, []);
        StreamCreated(d.messages, faults.inserts, job.debateId, []);
        StreamRows(d.messages, faults.inserts, job.debateId, []);
        RowsBelong(d.messages, s.created, job.debateId, 0);
        var written := headed.(messages := db.messages + s.rows);
        assert written.messages[..|db.messages|] == db.messages;
        if s.error.Some? then
          assert !NoRaise(faults.inserts, |d.messages|) by {
            assert OutcomeAt(faults.inserts, |s.created|).Raised?;
          }
          Fail(written, job.debateId, s.error.value, faults.handler)
        else if faults.approve.Some? then Fail(written, job.debateId, faults.approve.value, faults.handler)
        else Run(written.(reports := SetReportStatus(written.reports, job.reportId, ApprovedStatus)), Completed)
  }

  /** A completed run stores one message per successful insert, each linked to the id created
      at its parent position, and leaves the header active with the generated content. */
  lemma CompletedRunStoresThread(db: Db, job: Job, rag: Result<string>,
                                 search: Result<seq<ScoutSearch.WebSearchResult>>,
                                 generate: string -> Result<DebateResult>, faults: Faults)
    requires ProcessDebateStream(db, job, rag, search, generate, faults).outcome.Completed?
    ensures var d := generate(EnrichedPrompt(job.prompt, rag, job.useTavily, search)).value;
      var r := ProcessDebateStream(db, job, rag, search, generate, faults);
      var created := seq(|d.messages|, (k: int) requires 0 <= k < |d.messages| => CreatedId(OutcomeAt(faults.inserts, k)));
      && |r.db.messages| == |db.messages| + InsertedCount(faults.inserts, 0, |d.messages|)
      && r.db.messages[|db.messages|..] == RowsFrom(d.messages, created, job.debateId, 0)
      && (forall k :: 0 <= k < |r.db.debates| && r.db.debates[k].id == job.debateId ==>
            r.db.debates[k].status == ActiveStatus && r.db.debates[k].summary == d.summary &&
            r.db.debates[k].tags == d.tags && r.db.debates[k].absurdScore == d.absurdScore)
  {
    var d := generate(EnrichedPrompt(job.prompt, rag, job.useTavily, search)).value;
    var s := Stream(d.messages, faults.inserts, job.debateId, []);
    var created := seq(|d.messages|, (k: int) requires 0 <= k < |d.messages| => CreatedId(OutcomeAt(faults.inserts, k)));
    StreamCreated(d.messages, faults.inserts, job.debateId, []);
    StreamRows(d.messages, faults.inserts, job.debateId, []);
    assert s.created == created;
    RowsCount(d.messages, created, job.debateId, 0, faults.inserts);
  }

  /** An exception while inserting replies leaves the header already `active` (with the error
      in its summary) and the replies inserted so far in place: `active` does not mean the
      thread is complete. */
  lemma InsertFailureLeavesActiveHeader(db: Db, job: Job, rag: Result<string>,
                                        search: Result<seq<ScoutSearch.WebSearchResult>>,
                                        generate: string -> Result<DebateResult>, faults: Faults)
    requires generate(EnrichedPrompt(job.prompt, rag, job.useTavily, search)).Ok?
    requires faults.header.None?
    requires !NoRaise(faults.inserts, |generate(EnrichedPrompt(job.prompt, rag, job.useTavily, search)).value.messages|)
    ensures var r := ProcessDebateStream(db, job, rag, search, generate, faults);
      !r.outcome.Completed? && (faults.handler.None? ==> r.outcome.Failed?) && r.db.reports == db.reports &&
      forall k :: 0 <= k < |r.db.debates| && r.db.debates[k].id == job.debateId ==>
        r.db.debates[k].status == ActiveStatus
  {
  }

  /** A handler whose own update raises changes only what the handler would have written: the
      run stores the same replies and reports, skips the error summary, and crashes with the
      same error. */
  lemma HandlerFaultSkipsSummary(db: Db, job: Job, rag: Result<string>,
                                 search: Result<seq<ScoutSearch.WebSearchResult>>,
                                 generate: string -> Result<DebateResult>, faults: Faults, h: string)
    ensures var crashed := ProcessDebateStream(db, job, rag, search, generate, faults.(handler := Some(h)));
      var handled := ProcessDebateStream(db, job, rag, search, generate, faults.(handler := None));
      && crashed.outcome.Completed? == handled.outcome.Completed?
      && (handled.outcome.Failed? ==>
            && crashed.outcome == Crashed(handled.outcome.error, h)
            && crashed.db.reports == handled.db.reports && crashed.db.messages == handled.db.messages
            && handled.db.debates == SetSummary(crashed.db.debates, job.debateId, ErrorPrefix + handled.outcome.error))
  {
  }
}

=== FILE: reports_api.dfy ===
/** The report admin endpoints (example/backend/app/api/endpoints/reports.py) as store
    transitions with their HTTP answers. Every exception, including the explicit 400 and
    404, is caught by the generic handler and answered as 500. */
module ReportsApi {
  import opened Wrappers
  import opened Store
  import opened Orchestrator
  import opened Seqs

  datatype Reply = Reply(code: int, status: string)

  const ServerError: Reply := Reply(500, "error")

  /** The request body of a new report; every key may be missing. */
  datatype ReportPayload = ReportPayload(title: Option<string>, content: Option<string>,
                                         location: Option<string>, sourceUrl: Option<string>)

  datatype Answer = Answer(db: Db, reply: Reply)

  /** A new report is stored as pending and uncategorized, with the submitted fields. A missing
      or empty title or content stores nothing; neither does an insert that raised. */
  function CreateReport(db: Db, payload: ReportPayload, newId: Id, insertFault: Option<string>): (a: Answer)
    ensures a.reply.code == 200 <==> Truthy(payload.title) && Truthy(payload.content) && insertFault.None?
    ensures a.reply.code != 200 ==> a.reply.code == 500 && a.db == db
    ensures a.db.debates == db.debates && a.db.messages == db.messages
    ensures a.reply.code == 200 ==> |a.db.reports| == |db.reports| + 1
    ensures a.reply.code == 200 ==>
      var r := a.db.reports[|db.reports|];
      && a.db.reports == db.reports + [r]
      && r.id == newId && r.title == payload.title.value && r.content == payload.content.value
      && r.location == payload.location && r.sourceUrl == payload.sourceUrl
      && r.category == Some("uncategorized") && r.status == "pending"
  {
    if !Truthy(payload.title) || !Truthy(payload.content) || insertFault.Some? then Answer(db, ServerError)
    else
      var row := ReportRow(newId, payload.title.value, payload.content.value, payload.location,
        payload.sourceUrl, Some("uncategorized"), "pending");
      Answer(db.(reports := db.reports + [row]), Reply(200, "success"))
  }

  /** A report created under a fresh id is what a later lookup of that id finds, and
      processing it schedules a run for it. */
  lemma CreatedReportIsProcessable(db: Db, payload: ReportPayload, newId: Id, debateId: Id, useTavily: bool)
    requires Truthy(payload.title) && Truthy(payload.content)
    requires forall k :: 0 <= k < |db.reports| ==> db.reports[k].id != newId
    ensures var a := CreateReport(db, payload, newId, None);
      && FindReport(a.db.reports, newId) == Some(a.db.reports[|db.reports|])
      && FindReport(a.db.reports, newId).value.status == "pending"
      && ProcessReport(a.db, newId, debateId, useTavily, None).scheduled.Some?
      && ProcessReport(a.db, newId, debateId, useTavily, None).scheduled.value.reportId == newId
  {
    var a := CreateReport(db, payload, newId, None);
    var rs := a.db.reports;
    assert rs[|db.reports|].id == newId;
    assert forall k :: 0 <= k < |db.reports| ==> rs[k].id != newId;
    var i := FirstIndex(rs, (x: ReportRow) => x.id == newId);
    assert i == |db.reports|;
  }

  /** The store calls of `delete_report`, in order: finding the linked debate, deleting its
      replies, deleting it (both only when there is one), deleting the report. */
  datatype DeleteStep = FindLinked | DropReplies | DropDebate | DropReport

  /** A store call of `delete_report` that raised, and its exception text. */
  datatype DeleteFault = DeleteFault(step: DeleteStep, error: string)

  /** Whether the cascade gets as far as the given store call. */
  predicate DeleteReaches(db: Db, reportId: Id, step: DeleteStep) {
    step == FindLinked || step == DropReport || FindDebateFor(db.debates, reportId).Some?
  }

  predicate RaisesAt(db: Db, reportId: Id, fault: Option<DeleteFault>, step: DeleteStep) {
    fault.Some? && fault.value.step == step && DeleteReaches(db, reportId, step)
  }

  /** Deleting a report first removes the first debate linked to it together with that
      debate's messages, then the report. Without a linked debate only the report goes. Each
      delete commits on its own: when one raises, the answer is 500 and the deletes before it
      stay done, so a debate can be left without its replies, or a report without its debate. */
  function DeleteReportCascade(db: Db, reportId: Id, fault: Option<DeleteFault>): (a: Answer)
    ensures a.reply == Reply(200, "deleted") <==> fault.None? || !DeleteReaches(db, reportId, fault.value.step)
    ensures a.reply != Reply(200, "deleted") ==> a.reply == ServerError
    ensures a.reply.code == 200 ==>
      && (forall k :: 0 <= k < |a.db.reports| ==> a.db.reports[k].id != reportId)
      && a.db.reports == DeleteReport(db.reports, reportId)
    ensures a.reply.code != 200 ==> a.db.reports == db.reports
    ensures FindDebateFor(db.debates, reportId).None? ==> a.db.debates == db.debates && a.db.messages == db.messages
    ensures FindDebateFor(db.debates, reportId).Some? ==>
      var gone := FindDebateFor(db.debates, reportId).value.id;
      && (RaisesAt(db, reportId, fault, FindLinked) || RaisesAt(db, reportId, fault, DropReplies) ==> a.db == db)
      && (RaisesAt(db, reportId, fault, DropDebate) ==>
            a.db.debates == db.debates && a.db.messages == DeleteMessagesOf(db.messages, gone))
      && (a.reply.code == 200 || RaisesAt(db, reportId, fault, DropReport) ==>
            a.db.debates == DeleteDebate(db.debates, gone) && a.db.messages == DeleteMessagesOf(db.messages, gone))
  {
    var linked := FindDebateFor(db.debates, reportId);
    if RaisesAt(db, reportId, fault, FindLinked) || RaisesAt(db, reportId, fault, DropReplies) then Answer(db, ServerError)
    else
      var replies := if linked.Some? then DeleteMessagesOf(db.messages, linked.value.id) else db.messages;
      if RaisesAt(db, reportId, fault, DropDebate) then Answer(db.(messages := replies), ServerError)
      else
        var debates := if linked.Some? then DeleteDebate(db.debates, linked.value.id) else db.debates;
        var cleared := db.(messages := replies, debates := debates);
        if RaisesAt(db, reportId, fault, DropReport) then Answer(cleared, ServerError)
        else Answer(cleared.(reports := DeleteReport(db.reports, reportId)), Reply(200, "deleted"))
  }

  /** A failed delete can be retried: whatever the first attempt left, a second attempt that
      goes through removes the report, and with it the debate the first attempt would have
      removed together with that debate's replies. */
  lemma RetriedDeleteCompletes(db: Db, reportId: Id, fault: DeleteFault)
    requires FindDebateFor(db.debates, reportId).Some?
    ensures var first := DeleteReportCascade(db, reportId, Some(fault));
      var second := DeleteReportCascade(first.db, reportId, None);
      var gone := FindDebateFor(db.debates, reportId).value.id;
      && (forall k :: 0 <= k < |second.db.reports| ==> second.db.reports[k].id != reportId)
      && (forall k :: 0 <= k < |second.db.debates| ==> second.db.debates[k].id != gone)
      && (forall k :: 0 <= k < |second.db.messages| ==> second.db.messages[k].debateId != gone)
  {
    var first := DeleteReportCascade(db, reportId, Some(fault));
    var gone := FindDebateFor(db.debates, reportId).value.id;
    var second := DeleteReportCascade(first.db, reportId, None);
    if first.db.debates == db.debates {
      assert FindDebateFor(first.db.debates, reportId).value.id == gone;
      assert second.db.debates == DeleteDebate(first.db.debates, gone);
      assert second.db.messages == DeleteMessagesOf(first.db.messages, gone);
    } else {
      assert first.db.debates == DeleteDebate(db.debates, gone);
      assert first.db.messages == DeleteMessagesOf(db.messages, gone);
      LeftoversStayGone(first.db, reportId, gone);
    }
  }

  /** Once a debate and its replies are gone, a delete that goes through does not bring
      them back. */
  lemma LeftoversStayGone(db: Db, reportId: Id, gone: Id)
    requires forall k :: 0 <= k < |db.debates| ==> db.debates[k].id != gone
    requires forall k :: 0 <= k < |db.messages| ==> db.messages[k].debateId != gone
    ensures var second := DeleteReportCascade(db, reportId, None);
      && (forall k :: 0 <= k < |second.db.debates| ==> second.db.debates[k].id != gone)
      && (forall k :: 0 <= k < |second.db.messages| ==> second.db.messages[k].debateId != gone)
  {
    var second := DeleteReportCascade(db, reportId, None);
    var linked := FindDebateFor(db.debates, reportId);
    if linked.Some? {
      var d := linked.value.id;
      assert second.db.debates == DeleteDebate(db.debates, d);
      assert second.db.messages == DeleteMessagesOf(db.messages, d);
      forall k | 0 <= k < |second.db.debates| ensures second.db.debates[k].id != gone {
        assert second.db.debates[k] in db.debates;
      }
      forall k | 0 <= k < |second.db.messages| ensures second.db.messages[k].debateId != gone {
        assert second.db.messages[k] in db.messages;
      }
    }
  }

  datatype Processed = Processed(db: Db, reply: Reply, scheduled: Option<Job>)

  /** Manual processing: identity resolution and message reset happen before the answer; the
      generation run is only scheduled. A missing report, or a store call of the resolution
      that raised, schedules nothing and is answered 500; the deletion of old replies stays
      done when the skeleton upsert after it raised. */
  function ProcessReport(db: Db, reportId: Id, newId: Id, useTavily: bool, fault: Option<ResolveFault>): (p: Processed)
    ensures p.scheduled.None? <==>
      FindReport(db.reports, reportId).None? || (fault.Some? && ResolveReaches(db, reportId, fault.value.step))
    ensures p.scheduled.None? ==> p.reply == ServerError && p.db.debates == db.debates
    ensures p.scheduled.None? ==>
      p.db.messages == db.messages ||
      (fault.Some? && fault.value.step == UpsertSkeleton && FindDebateFor(db.debates, reportId).Some? &&
       p.db.messages == DeleteMessagesOf(db.messages, FindDebateFor(db.debates, reportId).value.id))
    ensures FindReport(db.reports, reportId).None? ==> p.db == db
    ensures p.scheduled.Some? ==> p.reply == Reply(200, "initiated")
    ensures p.scheduled.Some? ==> p.scheduled.value.useTavily == useTavily && p.scheduled.value.reportId == reportId
    ensures p.scheduled.Some? ==> p.db == CreateDebateFromReport(db, reportId, newId, useTavily).db
    ensures p.db.reports == db.reports
  {
    var c := ResolveIdentity(db, reportId, newId, useTavily, fault);
    if c.job.None? then Processed(c.db, ServerError, None)
    else Processed(c.db, Reply(200, "initiated"), c.job)
  }

  /** A report that was turned into a debate and then deleted leaves none of the debate's
      messages behind. */
  lemma DeleteAfterProcessLeavesNoThread(db: Db, reportId: Id, newId: Id, useTavily: bool)
    requires FindReport(db.reports, reportId).Some?
    ensures var p := ProcessReport(db, reportId, newId, useTavily, None);
      var a := DeleteReportCascade(p.db, reportId, None);
      && (forall k :: 0 <= k < |a.db.messages| ==> a.db.messages[k].debateId != p.scheduled.value.debateId)
      && (forall k :: 0 <= k < |a.db.debates| ==> a.db.debates[k].id != p.scheduled.value.debateId)
  {
    var p := ProcessReport(db, reportId, newId, useTavily, None);
    SkeletonIsFirstLinked(db, reportId, newId, useTavily);
    assert FindDebateFor(p.db.debates, reportId).value.id == p.scheduled.value.debateId;
  }
}

=== FILE: scout_search.dfy ===
/** The web-search wrapper used by discovery (example/backend/app/agents/scout.py, `tavily_search`).
    The search client is abstracted: whether it is configured, and what it answered (or the
    exception it raised), are inputs. */
module ScoutSearch {
  import opened Wrappers
  import opened Text
  import opened Seqs

  datatype WebSearchResult = WebSearchResult(title: string, url: string, content: string, score: real)

  /** One item of the search provider's answer; every key may be missing. */
  datatype RawItem = RawItem(title: Option<string>, url: Option<string>, content: Option<string>, score: Option<real>)

  const NoClientTitle: string := "[BRAK DOSTĘPU DO SIECI]"
  const NoSignalsTitle: string := "[BRAK NOWYCH SYGNAŁÓW]"
  const SearchErrorTitle: string := "[BŁĄD WYSZUKIWANIA]"
  const UntitledTitle: string := "Bez tytułu"
  const MaxContent: nat := 1000
  const NoClientText: string := "Tavily API Key nie skonfigurowany."
  const SearchErrorText: string := "Wystąpił błąd podczas wyszukiwania: "
  const NoSignalsText: string := "System nie wykrył nowych anomalii w ostatnich 48h. Przeszukiwanie głębokie nie przyniosło rezultatów."

  function Digit(d: int): char
    requires 0 <= d <= 9
  {
    ['0', '1', '2', '3', '4', '5', '6', '7', '8', '9'][d]
  }

  /** The decimal spelling of a year of this century. */
  function YearString(y: int): (r: string)
    requires 2000 <= y <= 2099
    ensures |r| == 4 && r[..2] == "20"
  {
    "20" + [Digit((y - 2000) / 10), Digit(y % 10)]
  }

  /** `s` contains one of the years 2010 to 2022. */
  predicate MentionsOldYear(s: string) {
    exists y :: 2010 <= y < 2023 && Contains(s, YearString(y))
  }

  /** The stale-item test: the lower-cased content followed directly by the lower-cased title
      mentions an old year. */
  predicate IsStale(item: RawItem) {
    MentionsOldYear(Lower(item.content.GetOr("")) + Lower(item.title.GetOr("")))
  }

  /** One provider item as a result: every missing key gets its default, and the content
      keeps its first 1000 characters. */
  function ToResult(item: RawItem): (r: WebSearchResult)
    ensures r.title == item.title.GetOr(UntitledTitle) && r.url == item.url.GetOr("")
    ensures r.score == item.score.GetOr(0.0)
    ensures |r.content| <= MaxContent && r.content <= item.content.GetOr("")
    ensures |item.content.GetOr("")| <= MaxContent ==> r.content == item.content.GetOr("")
    ensures |item.content.GetOr("")| > MaxContent ==> |r.content| == MaxContent
  {
    WebSearchResult(item.title.GetOr(UntitledTitle), item.url.GetOr(""),
      Take(item.content.GetOr(""), MaxContent), item.score.GetOr(0.0))
  }

  function ToResults(items: seq<RawItem>): (r: seq<WebSearchResult>)
    ensures |r| == |items|
    ensures forall k :: 0 <= k < |items| ==> r[k] == ToResult(items[k])
  {
    if items == [] then [] else [ToResult(items[0])] + ToResults(items[1..])
  }

  /** The provider items that survive the year filter, converted, in their original order. */
  function Kept(items: seq<RawItem>): (r: seq<WebSearchResult>)
    ensures |r| <= |items|
    ensures forall k :: 0 <= k < |r| ==> |r[k].content| <= MaxContent
    ensures forall k :: 0 <= k < |r| ==> exists j :: 0 <= j < |items| && !IsStale(items[j]) && r[k] == ToResult(items[j])
    ensures forall j :: 0 <= j < |items| && !IsStale(items[j]) ==> ToResult(items[j]) in r
  {
    var passing := Filter(items, (i: RawItem) => !IsStale(i));
    var r := ToResults(passing);
    assert forall k :: 0 <= k < |r| ==> r[k] == ToResult(passing[k]) && passing[k] in items;
    assert forall j :: 0 <= j < |items| && !IsStale(items[j]) ==> items[j] in passing;
    r
  }

  /** The results of a list are the results of its parts, one after the other. */
  lemma {:induction false} ToResultsAppend(a: seq<RawItem>, b: seq<RawItem>)
    ensures ToResults(a + b) == ToResults(a) + ToResults(b)
  {
  }

  /** The filter works item by item: the results of a concatenation are those of its first
      part followed by those of its second, so the kept results come in provider order. */
  lemma KeptAppend(a: seq<RawItem>, b: seq<RawItem>)
    ensures Kept(a + b) == Kept(a) + Kept(b)
  {
    var p := (i: RawItem) => !IsStale(i);
    FilterAppend(a, b, p);
    ToResultsAppend(Filter(a, p), Filter(b, p));
  }

  /** A single item is kept, converted, exactly when it is not stale; with `KeptAppend`
      this determines the filter on every list. */
  lemma KeptOne(item: RawItem)
    ensures Kept([item]) == if IsStale(item) then [] else [ToResult(item)]
  {
    assert [item][1..] == [];
  }

  function Sentinel(title: string, content: string): WebSearchResult {
    WebSearchResult(title, "", content, 0.0)
  }

  /** The search. Without a client it answers one sentinel; an exception becomes one error
      sentinel; otherwise the items that pass the year filter are kept in order, and when none is left one
      "no new signals" sentinel is answered. The answer is never empty, and every sentinel
      has an empty url. */
  function TavilySearch(hasClient: bool, response: Result<seq<RawItem>>): (r: seq<WebSearchResult>)
    ensures |r| >= 1
    ensures !hasClient ==> |r| == 1 && r[0].title == NoClientTitle && r[0].url == ""
    ensures hasClient && response.Err? ==> |r| == 1 && r[0].title == SearchErrorTitle && r[0].url == ""
    ensures hasClient && response.Ok? && Kept(response.value) == [] ==>
      |r| == 1 && r[0].title == NoSignalsTitle && r[0].url == ""
    ensures hasClient && response.Ok? && Kept(response.value) != [] ==> r == Kept(response.value)
  {
    if !hasClient then
      [Sentinel(NoClientTitle, NoClientText)]
    else match response
      case Err(e) => [Sentinel(SearchErrorTitle, SearchErrorText + e)]
      case Ok(items) =>
        var kept := Kept(items);
        if kept == [] then
          [Sentinel(NoSignalsTitle, NoSignalsText)]
        else kept
  }

  /** A string with no '2' early enough to start a four-digit year mentions no old year. */
  lemma NoYearWithoutLeadingTwo(s: string)
    requires forall k :: 0 <= k < |s| - 3 ==> s[k] != '2'
    ensures !MentionsOldYear(s)
  {
    forall y | 2010 <= y < 2023 ensures !Contains(s, YearString(y)) {
      var ys := YearString(y);
      assert ys[0] == '2';
      forall i | 0 <= i <= |s| - |ys| ensures !OccursAt(s, ys, i) {
        assert s[i..i + |ys|][0] == s[i] != '2';
      }
    }
  }

  /** A single item that passes the year filter is answered converted. */
  lemma KeptSingle(item: RawItem)
    requires !IsStale(item)
    ensures Kept([item]) == [ToResult(item)]
  {
    assert Filter([item], (i: RawItem) => !IsStale(i)) == [item];
  }

  /** An old year in either field, once lower-cased, marks the item stale on its own. */
  lemma StaleIfEitherMentions(item: RawItem)
    requires MentionsOldYear(Lower(item.content.GetOr(""))) || MentionsOldYear(Lower(item.title.GetOr("")))
    ensures IsStale(item)
  {
    var a, b := Lower(item.content.GetOr("")), Lower(item.title.GetOr(""));
    var y :| 2010 <= y < 2023 && (Contains(a, YearString(y)) || Contains(b, YearString(y)));
    if Contains(a, YearString(y)) {
      ContainsBefore(a, b, YearString(y));
    } else {
      ContainsAfter(a, b, YearString(y));
    }
    assert Contains(a + b, YearString(y));
  }

  /** A year spelled out at a position of `s` makes `s` mention an old year. */
  lemma YearAt(s: string, y: int, i: int)
    requires 2010 <= y < 2023 && OccursAt(s, YearString(y), i)
    ensures MentionsOldYear(s)
  {
  }

  /** An item whose fields name no old year is kept, with its missing title replaced. */
  lemma FreshItemExample()
    ensures Kept([RawItem(None, Some("u"), Some("nowe"), None)]) == [WebSearchResult(UntitledTitle, "u", "nowe", 0.0)]
  {
    var item := RawItem(None, Some("u"), Some("nowe"), None);
    LowerOfLower("nowe");
    LowerOfLower("");
    assert Lower("nowe") + Lower("") == "nowe";
    NoYearWithoutLeadingTwo("nowe");
    KeptSingle(item);
  }

  /** The year test runs on content and title glued together, so a year split across the
      two fields also marks the item stale. */
  lemma YearAcrossFields()
    ensures !MentionsOldYear("x 20") && !MentionsOldYear("15")
    ensures IsStale(RawItem(Some("15"), Some("u"), Some("x 20"), None))
  {
    NoYearWithoutLeadingTwo("x 20");
    NoYearWithoutLeadingTwo("15");
    LowerOfLower("x 20");
    LowerOfLower("15");
    assert Lower("x 20") + Lower("15") == "x 2015";
    assert YearString(2015) == "2015";
    YearAt("x 2015", 2015, 2);
  }
}

=== FILE: scout_service.dfy ===
/** The scout mission (example/backend/app/services/scout_service.py, `execute_scout_mission`):
    web results become findings, the summarising agent turns them into one pending report.
    The search answer, the agent's answer and the store's insert outcome are inputs; the
    choice among the rotating queries is not modelled. */
module ScoutService {
  import opened Wrappers
  import opened Text
  import opened Seqs
  import opened Store
  import opened Settings
  import opened ScoutSearch

  /** The agent's structured answer. */
  datatype TopicDiscovery = TopicDiscovery(title: string, description: string, sourceUrl: string, initialScore: real)

  datatype Finding = Finding(title: string, url: string, content: string)

  const MaxFindingContent: nat := 300
  const SentinelMarker: string := "[BRAK"
  const ScoutTag: string := "[SCOUT] "
  const PendingStatus: string := "pending"
  const InternetLocation: string := "INTERNET"

  /** A real result: it has a url and its title is not one of the search's "[BRAK ...]" sentinels. */
  predicate IsFinding(r: WebSearchResult) {
    r.url != "" && !Contains(r.title, SentinelMarker)
  }

  function ToFinding(r: WebSearchResult): Finding {
    Finding(r.title, r.url, Take(r.content, MaxFindingContent))
  }

  function ToFindings(rs: seq<WebSearchResult>): (f: seq<Finding>)
    ensures |f| == |rs|
    ensures forall k :: 0 <= k < |rs| ==> f[k] == ToFinding(rs[k])
  {
    if rs == [] then [] else [ToFinding(rs[0])] + ToFindings(rs[1..])
  }

  /** `x` is the finding of one of the real results. */
  predicate FromRealResult(results: seq<WebSearchResult>, x: Finding) {
    exists j :: 0 <= j < |results| && IsFinding(results[j]) && x == ToFinding(results[j])
  }

  /** The findings of a search: the real results in order, content cut to 300 characters. */
  function Findings(results: seq<WebSearchResult>): (f: seq<Finding>)
    ensures |f| <= |results|
    ensures forall k :: 0 <= k < |f| ==> f[k].url != "" && !Contains(f[k].title, SentinelMarker)
    ensures forall k :: 0 <= k < |f| ==> |f[k].content| <= MaxFindingContent
    ensures forall k :: 0 <= k < |f| ==> FromRealResult(results, f[k])
    ensures forall j :: 0 <= j < |results| && IsFinding(results[j]) ==> ToFinding(results[j]) in f
    ensures (forall k :: 0 <= k < |results| ==> !IsFinding(results[k])) <==> f == []
    ensures f != [] ==> FirstIndex(results, IsFinding) >= 0 && f[0] == ToFinding(results[FirstIndex(results, IsFinding)])
  {
    var kept := Filter(results, IsFinding);
    FindingsTrace(results, kept);
    FindingsShape(results);
    ToFindings(kept)
  }

  /** The findings are real results cut to size, there are none exactly when no result is
      real, and the first is the first real result's. */
  lemma FindingsShape(results: seq<WebSearchResult>)
    ensures var f := ToFindings(Filter(results, IsFinding));
      && |f| <= |results|
      && (forall k :: 0 <= k < |f| ==> f[k].url != "" && !Contains(f[k].title, SentinelMarker))
      && (forall k :: 0 <= k < |f| ==> |f[k].content| <= MaxFindingContent)
      && ((forall k :: 0 <= k < |results| ==> !IsFinding(results[k])) <==> f == [])
      && (f != [] ==> FirstIndex(results, IsFinding) >= 0 && f[0] == ToFinding(results[FirstIndex(results, IsFinding)]))
  {
    FilterHead(results, IsFinding);
  }

  lemma {:induction false} ToFindingsAppend(a: seq<WebSearchResult>, b: seq<WebSearchResult>)
    ensures ToFindings(a + b) == ToFindings(a) + ToFindings(b)
  {
  }

  /** The findings of a concatenation are those of its first part followed by those of its
      second: findings come in the search's order. */
  lemma FindingsAppend(a: seq<WebSearchResult>, b: seq<WebSearchResult>)
    ensures Findings(a + b) == Findings(a) + Findings(b)
  {
    FilterAppend(a, b, IsFinding);
    ToFindingsAppend(Filter(a, IsFinding), Filter(b, IsFinding));
  }

  /** A single result gives its finding exactly when it is a real result; with
      `FindingsAppend` this determines the findings of every search. */
  lemma FindingsOne(r: WebSearchResult)
    ensures Findings([r]) == if IsFinding(r) then [ToFinding(r)] else []
  {
    assert [r][1..] == [];
  }

  /** Each finding comes from a real result, and each real result gives one. */
  lemma FindingsTrace(results: seq<WebSearchResult>, kept: seq<WebSearchResult>)
    requires forall k :: 0 <= k < |kept| ==> kept[k] in results && IsFinding(kept[k])
    requires forall j :: 0 <= j < |results| && IsFinding(results[j]) ==> results[j] in kept
    ensures var f := ToFindings(kept);
      && (forall k :: 0 <= k < |f| ==> FromRealResult(results, f[k]))
      && (forall j :: 0 <= j < |results| && IsFinding(results[j]) ==> ToFinding(results[j]) in f)
  {
    var f := ToFindings(kept);
    forall k | 0 <= k < |f| ensures FromRealResult(results, f[k]) {
      var j :| 0 <= j < |results| && results[j] == kept[k];
    }
    forall j | 0 <= j < |results| && IsFinding(results[j]) ensures ToFinding(results[j]) in f {
      var k :| 0 <= k < |kept| && kept[k] == results[j];
      assert f[k] == ToFinding(results[j]);
    }
  }

  /** None of the search's sentinels is a finding: a search without client, one that raised,
      or one whose items were all dropped gives no findings. */
  lemma SentinelsGiveNoFindings(hasClient: bool, response: Result<seq<RawItem>>)
    requires !hasClient || response.Err? || Kept(response.value) == []
    ensures Findings(TavilySearch(hasClient, response)) == []
  {
    var rs := TavilySearch(hasClient, response);
    assert rs[0].url == "";
  }

  datatype MissionStatus = Empty | Success | Failure

  datatype MissionResult = MissionResult(status: MissionStatus, findings: nat, title: Option<string>)

  /** The outside world of one mission: what the search answered, what the agent answered
      (or the exception it raised), whether the report insert raised, the new report's id, and
      the clock reading the closing `update_last_run` takes once the search and the agent are done. */
  datatype MissionInputs = MissionInputs(results: seq<WebSearchResult>, discovery: Result<TopicDiscovery>,
                                         insertFault: Option<string>, reportId: Id, finishedAt: DateTime)

  datatype Mission = Mission(settings: SettingsTable, db: Db, result: MissionResult)

  /** The report a successful mission files. Its source is the agent's link, or the first
      finding's url when the agent gave none. */
  function ScoutReport(id: Id, d: TopicDiscovery, findings: seq<Finding>): ReportRow
    requires |findings| > 0
  {
    ReportRow(id, ScoutTag + d.title, d.description, Some(InternetLocation),
      Some(if d.sourceUrl != "" then d.sourceUrl else findings[0].url), None, PendingStatus)
  }

  /** The mission. It first stamps the settings as running at `now`; then no findings ends it
      as `empty`, an exception ends it as an error, and otherwise exactly one pending report is
      added. The closing stamp carries the time it is written, `inp.finishedAt`. It never raises. */
  function ExecuteScoutMission(settings: SettingsTable, db: Db, now: DateTime, inp: MissionInputs): (m: Mission)
    ensures m.settings.online == settings.online && m.settings.row.Some? == settings.row.Some?
    ensures settings.online && settings.row.Some? ==>
      m.settings.row.value.lastRun == Some(inp.finishedAt) && m.settings.row.value.workerEnabled == settings.row.value.workerEnabled
    ensures m.db.debates == db.debates && m.db.messages == db.messages
    ensures Findings(inp.results) == [] ==> m.db == db && m.result == MissionResult(Empty, 0, None)
    ensures m.result.status == Failure ==> m.db == db && m.result.findings == 0
    ensures m.result.status == Success <==>
      Findings(inp.results) != [] && inp.discovery.Ok? && inp.insertFault.None?
    ensures m.result.status == Success ==> |m.db.reports| == |db.reports| + 1
    ensures m.result.status == Success ==>
      var f := Findings(inp.results);
      var d := inp.discovery.value;
      var r := m.db.reports[|db.reports|];
      && m.db.reports == db.reports + [r]
      && r.title == ScoutTag + d.title && r.status == PendingStatus && r.location == Some(InternetLocation)
      && r.sourceUrl == Some(if d.sourceUrl != "" then d.sourceUrl else f[0].url)
      && m.result.findings == |f| && m.result.title == Some(d.title)
    ensures m.result.status != Success ==> m.db == db
    ensures settings.online && settings.row.Some? ==>
      m.settings.row.value.lastRunStatus ==
        match m.result.status
        case Empty => "empty"
        case Success => "success"
        case Failure =>
          "error: " + (if inp.discovery.Err? then inp.discovery.error else inp.insertFault.GetOr(""))
  {
    var running := UpdateLastRun(settings, now, "running");
    var findings := Findings(inp.results);
    if findings == [] then
      Mission(UpdateLastRun(running, inp.finishedAt, "empty"), db, MissionResult(Empty, 0, None))
    else match inp.discovery
      case Err(e) => Mission(UpdateLastRun(running, inp.finishedAt, "error: " + e), db, MissionResult(Failure, 0, None))
      case Ok(d) =>
        if inp.insertFault.Some? then
          Mission(UpdateLastRun(running, inp.finishedAt, "error: " + inp.insertFault.value), db, MissionResult(Failure, 0, None))
        else
          var report := ScoutReport(inp.reportId, d, findings);
          Mission(UpdateLastRun(running, inp.finishedAt, "success"), db.(reports := db.reports + [report]),
            MissionResult(Success, |findings|, Some(d.title)))
  }

  /** The report a successful mission files is one the worker's auto-processing selects:
      it is pending and its lower-cased title contains "[scout]". */
  lemma ScoutReportIsSelectable(id: Id, d: TopicDiscovery, findings: seq<Finding>)
    requires |findings| > 0
    ensures var r := ScoutReport(id, d, findings);
      r.status == "pending" && Contains(Lower(r.title), "[scout]")
  {
    var t := ScoutTag + d.title;
    var l := Lower(t);
    assert t[..8] == ScoutTag;
    assert l[0] == LowerChar(t[0]) == '[';
    assert l[1] == LowerChar(t[1]) == 's';
    assert l[2] == LowerChar(t[2]) == 'c';
    assert l[3] == LowerChar(t[3]) == 'o';
    assert l[4] == LowerChar(t[4]) == 'u';
    assert l[5] == LowerChar(t[5]) == 't';
    assert l[6] == LowerChar(t[6]) == ']';
    assert l[..7] == "[scout]";
    assert OccursAt(l, "[scout]", 0);
  }
}

=== FILE: seqs.dfy ===
/** Sequence combinators standing in for list comprehensions, `Array.filter`,
    `Array.map` with a conditional replacement, and table `update ... where`. */
module Seqs {

  /** The elements of `s` that satisfy `p`, in their original order. */
  function Filter<T>(s: seq<T>, p: T -> bool): (r: seq<T>)
    ensures |r| <= |s|
    ensures forall k :: 0 <= k < |r| ==> r[k] in s
    ensures forall k :: 0 <= k < |s| && p(s[k]) ==> s[k] in r
    ensures forall k :: 0 <= k < |r| ==> p(r[k])
    decreases |s|
  {
    if s == [] then []
    else if p(s[0]) then [s[0]] + Filter(s[1..], p)
    else Filter(s[1..], p)
  }

  /** `r` is `s` with some elements left out and the others in their original order. */
  ghost predicate Subsequence<T>(r: seq<T>, s: seq<T>)
    decreases |s|
  {
    if r == [] then true
    else if s == [] then false
    else if r[0] == s[0] then Subsequence(r[1..], s[1..])
    else Subsequence(r, s[1..])
  }

  /** A filter keeps the order of what it keeps, and keeps every copy of each element that
      passes the test and none of the others. */
  lemma {:induction false} FilterKeepsOrder<T>(s: seq<T>, p: T -> bool)
    ensures Subsequence(Filter(s, p), s)
    ensures forall x :: multiset(Filter(s, p))[x] == if p(x) then multiset(s)[x] else 0
    decreases |s|
  {
    if s != [] {
      var t := Filter(s[1..], p);
      FilterKeepsOrder(s[1..], p);
      assert s == [s[0]] + s[1..];
      if p(s[0]) {
        assert Filter(s, p)[1..] == t;
      } else if t != [] {
        assert p(t[0]);
      }
    }
  }

  /** The first element a filter keeps is the first element that passes the test. */
  lemma {:induction false} FilterHead<T>(s: seq<T>, p: T -> bool)
    ensures Filter(s, p) == [] <==> FirstIndex(s, p) == -1
    ensures Filter(s, p) != [] ==> Filter(s, p)[0] == s[FirstIndex(s, p)]
    decreases |s|
  {
    if s != [] && !p(s[0]) {
      FilterHead(s[1..], p);
    }
  }

  /** Tests that agree on every element of `s` keep the same elements. */
  lemma {:induction false} FilterSameOn<T>(s: seq<T>, p: T -> bool, q: T -> bool)
    requires forall k :: 0 <= k < |s| ==> p(s[k]) == q(s[k])
    ensures Filter(s, p) == Filter(s, q)
    decreases |s|
  {
    if s != [] {
      FilterSameOn(s[1..], p, q);
    }
  }

  /** A prefix one element longer is the prefix with that element appended. */
  lemma TakeOneMore<T>(s: seq<T>, i: nat)
    requires i < |s|
    ensures s[..i + 1] == s[..i] + [s[i]]
  {
  }

  /** A non-empty sequence is its front followed by its last element. */
  lemma FrontLast<T>(s: seq<T>)
    requires |s| > 0
    ensures s[..|s| - 1] + [s[|s| - 1]] == s
  {
  }

  /** Appending after a non-empty sequence is appending after its tail. */
  lemma HeadTailAppend<T>(s: seq<T>, x: T)
    requires |s| > 0
    ensures [s[0]] + (s[1..] + [x]) == s + [x]
  {
  }

  lemma {:induction false} FilterAppend<T>(a: seq<T>, b: seq<T>, p: T -> bool)
    ensures Filter(a + b, p) == Filter(a, p) + Filter(b, p)
    decreases |a|
  {
    if a == [] {
      assert a + b == b;
    } else {
      assert (a + b)[1..] == a[1..] + b;
      FilterAppend(a[1..], b, p);
    }
  }

  /** Filtering is idempotent. */
  lemma {:induction false} FilterTwice<T>(s: seq<T>, p: T -> bool)
    ensures Filter(Filter(s, p), p) == Filter(s, p)
    decreases |s|
  {
    if s != [] {
      FilterTwice(s[1..], p);
    }
  }

  /** A filter keeps everything iff every element satisfies the predicate. */
  lemma {:induction false} FilterAll<T>(s: seq<T>, p: T -> bool)
    requires forall k :: 0 <= k < |s| ==> p(s[k])
    ensures Filter(s, p) == s
    decreases |s|
  {
    if s != [] {
      FilterAll(s[1..], p);
    }
  }

  /** Every element satisfying `f`'s guard `p` replaced by `f` of it, the others kept, positions unchanged:
      `rows.map(d => p(d) ? f(d) : d)` and SQL `UPDATE ... WHERE p`. */
  function UpdateWhere<T>(s: seq<T>, p: T -> bool, f: T -> T): (r: seq<T>)
    ensures |r| == |s|
    ensures forall k :: 0 <= k < |s| ==> r[k] == if p(s[k]) then f(s[k]) else s[k]
    decreases |s|
  {
    if s == [] then [] else [if p(s[0]) then f(s[0]) else s[0]] + UpdateWhere(s[1..], p, f)
  }

  /** Position of the first element satisfying `p`, if any (`data[0]` of a filtered select). */
  function FirstIndex<T>(s: seq<T>, p: T -> bool): (r: int)
    ensures -1 <= r < |s|
    ensures r == -1 <==> forall k :: 0 <= k < |s| ==> !p(s[k])
    ensures r >= 0 ==> p(s[r]) && forall k :: 0 <= k < r ==> !p(s[k])
    decreases |s|
  {
    if s == [] then -1
    else if p(s[0]) then 0
    else var t := FirstIndex(s[1..], p); if t == -1 then -1 else t + 1
  }

  /** The concatenation of a sequence of sequences (`"".join(parts)`). */
  function Concat<T>(ss: seq<seq<T>>): (r: seq<T>)
    ensures ss == [] ==> r == []
    decreases |ss|
  {
    if ss == [] then [] else ss[0] + Concat(ss[1..])
  }

  /** Concatenation distributes over appending sequences of parts. */
  lemma {:induction false} ConcatJoin<T>(a: seq<seq<T>>, b: seq<seq<T>>)
    ensures Concat(a + b) == Concat(a) + Concat(b)
    decreases |a|
  {
    if a == [] {
      assert a + b == b;
    } else {
      assert (a + b)[1..] == a[1..] + b;
      ConcatJoin(a[1..], b);
    }
  }

  /** Part `k` sits in the concatenation right after the parts before it. */
  lemma ConcatAt<T>(ss: seq<seq<T>>, k: int)
    requires 0 <= k < |ss|
    ensures |Concat(ss[..k])| + |ss[k]| <= |Concat(ss)|
    ensures Concat(ss)[|Concat(ss[..k])|..|Concat(ss[..k])| + |ss[k]|] == ss[k]
  {
    assert ss == ss[..k] + ([ss[k]] + ss[k + 1..]);
    ConcatJoin(ss[..k], [ss[k]] + ss[k + 1..]);
    assert Concat([ss[k]] + ss[k + 1..]) == ss[k] + Concat(ss[k + 1..]);
  }
}

=== FILE: settings.dfy ===
/** The single-row `system_settings` table (example/backend/app/services/settings.py).
    Clock readings are inputs. A table that cannot be reached (`online` false) answers reads
    with the defaults and drops writes, as the functions swallow every exception. */
module Settings {
  import opened Wrappers

  /** A local timestamp: a calendar day number and the second within that day. */
  datatype DateTime = DateTime(day: int, secondOfDay: nat)

  datatype SettingsRow = SettingsRow(
    workerEnabled: bool, lastRun: Option<DateTime>, cronSchedule: string,
    lastRunStatus: string, updatedAt: Option<DateTime>)

  /** The table seen through its `id = 1` row, which may be missing. */
  datatype SettingsTable = SettingsTable(row: Option<SettingsRow>, online: bool)

  const DefaultCron: string := "0 6 * * *"
  const DefaultStatus: string := "success"

  /** What `get_settings` answers when there is no row or the read failed. */
  const Defaults: SettingsRow := SettingsRow(true, None, DefaultCron, DefaultStatus, None)

  /** The stored row when it can be read, the defaults otherwise. */
  function GetSettings(t: SettingsTable): (s: SettingsRow)
    ensures t.online && t.row.Some? ==> s == t.row.value
    ensures !(t.online && t.row.Some?) ==>
      s.workerEnabled && s.lastRun.None? && s.cronSchedule == "0 6 * * *" && s.lastRunStatus == "success"
  {
    if t.online && t.row.Some? then t.row.value else Defaults
  }

  /** `update ... where id = 1`: it changes the row when there is one and the table is reachable. */
  function UpdateRow(t: SettingsTable, f: SettingsRow -> SettingsRow): (r: SettingsTable)
    ensures r.online == t.online
    ensures t.online && t.row.Some? ==> r.row == Some(f(t.row.value))
    ensures !(t.online && t.row.Some?) ==> r == t
  {
    if t.online && t.row.Some? then t.(row := Some(f(t.row.value))) else t
  }

  /** Stamps the last run with `now` and the given status. */
  function UpdateLastRun(t: SettingsTable, now: DateTime, status: string): (r: SettingsTable)
    ensures r.online == t.online && r.row.Some? == t.row.Some?
    ensures t.online && t.row.Some? ==>
      var before := t.row.value; var after := r.row.value;
      after.lastRun == Some(now) && after.lastRunStatus == status && after.updatedAt == Some(now) &&
      after.workerEnabled == before.workerEnabled && after.cronSchedule == before.cronSchedule
    ensures !(t.online && t.row.Some?) ==> r == t
  {
    UpdateRow(t, (s: SettingsRow) => s.(lastRun := Some(now), lastRunStatus := status, updatedAt := Some(now)))
  }

  /** Switches the worker on or off. */
  function ToggleWorker(t: SettingsTable, now: DateTime, enabled: bool): (r: SettingsTable)
    ensures r.online == t.online && r.row.Some? == t.row.Some?
    ensures t.online && t.row.Some? ==>
      var before := t.row.value; var after := r.row.value;
      after.workerEnabled == enabled && after.updatedAt == Some(now) &&
      after.lastRun == before.lastRun && after.cronSchedule == before.cronSchedule && after.lastRunStatus == before.lastRunStatus
    ensures !(t.online && t.row.Some?) ==> r == t
  {
    UpdateRow(t, (s: SettingsRow) => s.(workerEnabled := enabled, updatedAt := Some(now)))
  }

  /** The settings a caller passes to `save_settings`; every key may be missing. A missing
      `last_run` and a null one read the same. */
  datatype SettingsInput = SettingsInput(
    workerEnabled: Option<bool>, cronSchedule: Option<string>, lastRun: Option<DateTime>, lastRunStatus: Option<string>)

  /** Writes all four fields, a missing one as its default. A missing `last_run` is written as
      null, which reopens the worker's daily gate. */
  function SaveSettings(t: SettingsTable, now: DateTime, input: SettingsInput): (r: SettingsTable)
    ensures r.online == t.online && r.row.Some? == t.row.Some?
    ensures t.online && t.row.Some? ==>
      var after := r.row.value;
      after.workerEnabled == input.workerEnabled.GetOr(true) &&
      after.cronSchedule == input.cronSchedule.GetOr("0 6 * * *") &&
      after.lastRun == input.lastRun &&
      after.lastRunStatus == input.lastRunStatus.GetOr("success") &&
      after.updatedAt == Some(now)
    ensures !(t.online && t.row.Some?) ==> r == t
  {
    UpdateRow(t, (s: SettingsRow) => SettingsRow(input.workerEnabled.GetOr(true), input.lastRun,
      input.cronSchedule.GetOr(DefaultCron), input.lastRunStatus.GetOr(DefaultStatus), Some(now)))
  }

  /** Saving what was read back leaves every field but the update time as it was. */
  lemma SaveWhatWasRead(t: SettingsTable, now: DateTime)
    requires t.online && t.row.Some?
    ensures var s := GetSettings(t);
      var r := SaveSettings(t, now, SettingsInput(Some(s.workerEnabled), Some(s.cronSchedule), s.lastRun, Some(s.lastRunStatus)));
      r.row == Some(t.row.value.(updatedAt := Some(now)))
  {
  }
}

=== FILE: store.dfy ===
/** The three Supabase tables the debate lifecycle works on (reports, debates, messages),
    as immutable sequences of rows. A query's `data[0]` is the first row that matches;
    `update ... eq(col, v)` rewrites every matching row; `delete ... eq(col, v)` removes them. */
module Store {
  import opened Wrappers
  import opened Seqs

  type Id = string

  /** A citizen or scout report. `location`, `source_url` and `category` are nullable. */
  datatype ReportRow = ReportRow(
    id: Id, title: string, content: string, location: Option<string>,
    sourceUrl: Option<string>, category: Option<string>, status: string)

  /** A debate header. `external_id` links it to the report it was generated from;
      `confirmations` is the public vote count and may be null. */
  datatype DebateRow = DebateRow(
    id: Id, externalId: Option<Id>, title: string, summary: string, absurdScore: real,
    status: string, tags: seq<string>, sourceUrl: Option<string>, confirmations: Option<int>)

  /** One stored reply of a debate thread. */
  datatype MessageRow = MessageRow(
    id: Id, debateId: Id, agentId: string, agentName: string, role: string,
    content: string, messageType: string, parentId: Option<Id>)

  datatype Db = Db(reports: seq<ReportRow>, debates: seq<DebateRow>, messages: seq<MessageRow>)

  /** `select * from reports where id = reportId`, first row. */
  function FindReport(reports: seq<ReportRow>, reportId: Id): (r: Option<ReportRow>)
    ensures r.None? <==> forall k :: 0 <= k < |reports| ==> reports[k].id != reportId
    ensures r.Some? ==> r.value in reports && r.value.id == reportId
  {
    var k := FirstIndex(reports, (x: ReportRow) => x.id == reportId);
    if k < 0 then None else Some(reports[k])
  }

  /** A debate generated from the report. */
  predicate LinkedTo(d: DebateRow, reportId: Id) {
    d.externalId == Some(reportId)
  }

  /** The position of the first debate linked to the report, or -1 when none is. */
  function LinkedIndex(debates: seq<DebateRow>, reportId: Id): (i: int)
    ensures -1 <= i < |debates|
    ensures i >= 0 ==> LinkedTo(debates[i], reportId)
    ensures forall k :: 0 <= k < |debates| && (i < 0 || k < i) ==> !LinkedTo(debates[k], reportId)
  {
    FirstIndex(debates, (x: DebateRow) => LinkedTo(x, reportId))
  }

  /** A linked row with no linked row before it is the one `LinkedIndex` finds. */
  lemma LinkedIndexIs(debates: seq<DebateRow>, reportId: Id, i: nat)
    requires i < |debates| && LinkedTo(debates[i], reportId)
    requires forall k :: 0 <= k < i ==> !LinkedTo(debates[k], reportId)
    ensures LinkedIndex(debates, reportId) == i
  {
  }

  /** `select ... from debates where external_id = reportId`, first row. */
  function FindDebateFor(debates: seq<DebateRow>, reportId: Id): (r: Option<DebateRow>)
    ensures r.None? <==> forall k :: 0 <= k < |debates| ==> !LinkedTo(debates[k], reportId)
    ensures r.Some? ==> r.value in debates && LinkedTo(r.value, reportId)
    ensures r.Some? ==> r.value == debates[LinkedIndex(debates, reportId)]
  {
    var k := LinkedIndex(debates, reportId);
    if k < 0 then None else Some(debates[k])
  }

  /** `delete from messages where debate_id = debateId`: every other row stays, as often as it
      was there and in its place relative to the others. */
  function DeleteMessagesOf(messages: seq<MessageRow>, debateId: Id): (r: seq<MessageRow>)
    ensures forall k :: 0 <= k < |r| ==> r[k].debateId != debateId && r[k] in messages
    ensures forall k :: 0 <= k < |messages| && messages[k].debateId != debateId ==> messages[k] in r
    ensures Subsequence(r, messages)
    ensures forall m :: multiset(r)[m] == if m.debateId != debateId then multiset(messages)[m] else 0
  {
    var keep := (m: MessageRow) => m.debateId != debateId;
    FilterKeepsOrder(messages, keep);
    Filter(messages, keep)
  }

  /** `delete from debates where id = debateId`: the other rows stay, in order and with their copies. */
  function DeleteDebate(debates: seq<DebateRow>, debateId: Id): (r: seq<DebateRow>)
    ensures forall k :: 0 <= k < |r| ==> r[k].id != debateId && r[k] in debates
    ensures forall k :: 0 <= k < |debates| && debates[k].id != debateId ==> debates[k] in r
    ensures Subsequence(r, debates)
    ensures forall d :: multiset(r)[d] == if d.id != debateId then multiset(debates)[d] else 0
  {
    var keep := (d: DebateRow) => d.id != debateId;
    FilterKeepsOrder(debates, keep);
    Filter(debates, keep)
  }

  /** `delete from reports where id = reportId`: the other rows stay, in order and with their copies. */
  function DeleteReport(reports: seq<ReportRow>, reportId: Id): (r: seq<ReportRow>)
    ensures forall k :: 0 <= k < |r| ==> r[k].id != reportId && r[k] in reports
    ensures forall k :: 0 <= k < |reports| && reports[k].id != reportId ==> reports[k] in r
    ensures Subsequence(r, reports)
    ensures forall x :: multiset(r)[x] == if x.id != reportId then multiset(reports)[x] else 0
  {
    var keep := (x: ReportRow) => x.id != reportId;
    FilterKeepsOrder(reports, keep);
    Filter(reports, keep)
  }

  /** `update reports set status = status where id = reportId`: the matching rows get the new
      status and keep every other column; the other rows are untouched. */
  function SetReportStatus(reports: seq<ReportRow>, reportId: Id, status: string): (r: seq<ReportRow>)
    ensures |r| == |reports|
    ensures forall k :: 0 <= k < |reports| && reports[k].id == reportId ==> r[k] == reports[k].(status := status)
    ensures forall k :: 0 <= k < |reports| && reports[k].id != reportId ==> r[k] == reports[k]
  {
    UpdateWhere(reports, (x: ReportRow) => x.id == reportId, (x: ReportRow) => x.(status := status))
  }

  /** `update debates set summary = summary where id = debateId`. */
  function SetSummary(debates: seq<DebateRow>, debateId: Id, summary: string): (r: seq<DebateRow>)
    ensures |r| == |debates|
    ensures forall k :: 0 <= k < |debates| && debates[k].id == debateId ==> r[k] == debates[k].(summary := summary)
    ensures forall k :: 0 <= k < |debates| && debates[k].id != debateId ==> r[k] == debates[k]
  {
    UpdateWhere(debates, (d: DebateRow) => d.id == debateId, (d: DebateRow) => d.(summary := summary))
  }

  /** A vote on a debate: `update debates set confirmations, absurd_score where id = debateId`. */
  function SetVotes(debates: seq<DebateRow>, debateId: Id, votes: Option<int>, score: real): (r: seq<DebateRow>)
    ensures |r| == |debates|
    ensures forall k :: 0 <= k < |debates| && debates[k].id == debateId ==>
      r[k] == debates[k].(confirmations := votes, absurdScore := score)
    ensures forall k :: 0 <= k < |debates| && debates[k].id != debateId ==> r[k] == debates[k]
  {
    UpdateWhere(debates, (d: DebateRow) => d.id == debateId, (d: DebateRow) => d.(confirmations := votes, absurdScore := score))
  }

  /** `upsert` of a full debate row keyed by id: every row with that id is replaced,
      or the row is appended when none has it. */
  function UpsertDebate(debates: seq<DebateRow>, row: DebateRow): (r: seq<DebateRow>)
    ensures row in r
    ensures forall k :: 0 <= k < |r| && r[k].id == row.id ==> r[k] == row
    ensures forall k :: 0 <= k < |debates| && debates[k].id != row.id ==> debates[k] in r
    ensures forall k :: 0 <= k < |r| && r[k].id != row.id ==> r[k] in debates
    ensures (exists k :: 0 <= k < |debates| && debates[k].id == row.id) ==>
      |r| == |debates| && forall k :: 0 <= k < |debates| ==> r[k] == (if debates[k].id == row.id then row else debates[k])
    ensures (forall k :: 0 <= k < |debates| ==> debates[k].id != row.id) ==> r == debates + [row]
  {
    var k := FirstIndex(debates, (d: DebateRow) => d.id == row.id);
    if k < 0 then debates + [row]
    else UpdateWhere(debates, (d: DebateRow) => d.id == row.id, (d: DebateRow) => row)
  }
}

=== FILE: tags.dfy ===
/** The closed tag vocabulary (example/backend/app/api/endpoints/tags.py and the
    tag list given to the debate generator in example/backend/app/agents/orchestrator.py). */
module Tags {

  /** The tag list spelled out in the debate generator's instructions. */
  const GeneratorVocabulary: seq<string> := [
    "LOGIKA_CYFROWA", "URZĄD_2.0", "BETONOZA", "EKOLOGIA", "FISKUS", "PAPIEROLOGIA",
    "PARADOKS_PRAWNY", "INFRASTRUKTURA", "SAMORZĄD", "EURO_ABSURD", "SŁUŻBA_ZDROWIA",
    "EDUKACJA", "TRANSPORT_PUBLICZNY", "ZUS_LOGIC", "PRZETARGI", "CYFRYZACJA", "WNIOSKI",
    "MIESZKALNICTWO", "ENERGETYKA", "SPRAWIEDLIWOŚĆ", "BIUROKRACJA", "SKANSEN_CYFROWY",
    "RELIKT_PRL", "PODATKI", "RODO"]

  /** The trending-tags endpoint: a constant list of 25 pairwise distinct tags, the same
      set the debate generator is told to choose from. It takes no input and reads no state. */
  function TrendingTags(): (r: seq<string>)
    ensures |r| == 25
    ensures forall i, j :: 0 <= i < j < |r| ==> r[i] != r[j]
    ensures forall t :: t in r <==> t in GeneratorVocabulary
  {
    [
      "LOGIKA_CYFROWA", "URZĄD_2.0", "BETONOZA", "EKOLOGIA", "FISKUS",
      "PAPIEROLOGIA", "PARADOKS_PRAWNY", "INFRASTRUKTURA", "SAMORZĄD",
      "EURO_ABSURD", "SŁUŻBA_ZDROWIA", "EDUKACJA", "TRANSPORT_PUBLICZNY",
      "ZUS_LOGIC", "PRZETARGI", "CYFRYZACJA", "WNIOSKI", "MIESZKALNICTWO",
      "ENERGETYKA", "SPRAWIEDLIWOŚĆ", "BIUROKRACJA", "SKANSEN_CYFROWY",
      "RELIKT_PRL", "PODATKI", "RODO"
    ]
  }
}

=== FILE: telegram_bridge.dfy ===
/** The Telegram bridge (backend/telegram_bridge.py): who may talk to the bot, and how a
    message becomes a call to the local chat API and how its answer is sent back. The bot
    library, the HTTP client and the environment are inputs. */
module TelegramBridge {
  import opened Wrappers
  import opened Seqs
  import opened Text

  /** Telegram allows 4096 characters per message; answers are cut at 4000. */
  const SliceLength: nat := 4000
  const BridgeSession: string := "telegram_mobile_link"

  /** `ALLOWED_USER_ID and user_id != ALLOWED_USER_ID`: with `TELEGRAM_USER_ID` unset or empty,
      everyone is served. */
  predicate Authorised(allowedUser: Option<string>, userId: string) {
    allowedUser.None? || allowedUser.value == [] || userId == allowedUser.value
  }

  /** `start_cmd`'s reply. */
  function StartReply(allowedUser: Option<string>, userId: string): (reply: string)
    ensures Authorised(allowedUser, userId) ==> reply == "Aether Core Bridge Connected. Waiting for commands..."
    ensures !Authorised(allowedUser, userId) ==> reply == "Unauthorized access. This incident will be reported."
  {
    if !Authorised(allowedUser, userId) then "Unauthorized access. This incident will be reported."
    else "Aether Core Bridge Connected. Waiting for commands..."
  }

  /** Python's `answer[x:x+4000]` for `x` within the answer. */
  function SliceFrom(answer: string, x: nat): (s: string)
    requires x < |answer|
    ensures 0 < |s| <= SliceLength && x + |s| <= |answer|
    ensures s == answer[x..x + |s|]
    ensures |s| < SliceLength ==> x + |s| == |answer|
  {
    if x + SliceLength <= |answer| then answer[x..x + SliceLength] else answer[x..]
  }

  /** `for x in range(0, len(answer), 4000)`, one reply per slice, as a loop. */
  method SliceAnswer(answer: string) returns (slices: seq<string>)
    ensures Concat(slices) == answer
    ensures forall k :: 0 <= k < |slices| ==> 0 < |slices[k]| <= SliceLength
    ensures forall k :: 0 <= k < |slices| - 1 ==> |slices[k]| == SliceLength
    ensures |slices| == (|answer| + SliceLength - 1) / SliceLength
  {
    slices := [];
    var x := 0;
    while x < |answer|
      invariant 0 <= x <= |answer|
      invariant x == |slices| * SliceLength || x == |answer|
      invariant Concat(slices) == answer[..x]
      invariant forall k :: 0 <= k < |slices| ==> 0 < |slices[k]| <= SliceLength
      invariant x < |answer| ==> forall k :: 0 <= k < |slices| ==> |slices[k]| == SliceLength
      invariant forall k :: 0 <= k < |slices| - 1 ==> |slices[k]| == SliceLength
      invariant x == |answer| ==> |slices| == (|answer| + SliceLength - 1) / SliceLength
      decreases |answer| - x
    {
      var s := SliceFrom(answer, x);
      ConcatJoin(slices, [s]);
      assert Concat([s]) == s;
      assert answer[..x] + s == answer[..x + |s|];
      CountSlices(|answer|, |slices|, x, |s|);
      slices := slices + [s];
      x := x + |s|;
    }
  }

  /** After the slice that reaches the end there are `ceil(n / 4000)` slices. */
  lemma CountSlices(n: nat, count: nat, x: nat, len: nat)
    requires x == count * SliceLength && x < n && 0 < len <= SliceLength
    requires len < SliceLength ==> x + len == n
    ensures x + len == n ==> count + 1 == (n + SliceLength - 1) / SliceLength
  {
    if x + len == n {
      assert (count + 1) * SliceLength <= n + SliceLength - 1 < (count + 2) * SliceLength;
    }
  }

  /** What the chat API did: it could not be reached, or it answered with a status code and,
      for 200, a body whose `status`, `response` and `message` fields may be absent. */
  datatype CoreOutcome =
    | Unreachable(error: string)
    | Answered(code: nat, status: Option<string>, response: Option<string>, message: Option<string>)

  /** What the bot does in the chat. */
  datatype Action = Typing | Reply(text: string)

  /** The request body sent to the chat API. */
  datatype ChatRequest = ChatRequest(message: string, sessionId: string)

  function RequestFor(text: string): (req: ChatRequest)
    ensures req.message == text && req.sessionId == BridgeSession
  {
    ChatRequest(text, BridgeSession)
  }

  /** The texts of the replies among the actions. */
  function ReplyTexts(actions: seq<Action>): (r: seq<string>)
    ensures |r| <= |actions|
    decreases |actions|
  {
    if actions == [] then []
    else (if actions[0].Reply? then [actions[0].text] else []) + ReplyTexts(actions[1..])
  }

  /** How many replies an answer takes. */
  function ReplyCount(answer: string): nat {
    if |answer| <= SliceLength then 1 else (|answer| + SliceLength - 1) / SliceLength
  }

  /** The answer's replies: one message up to 4000 characters, otherwise the slices. */
  method AnswerReplies(answer: string) returns (replies: seq<Action>)
    ensures |replies| > 0 && forall k :: 0 <= k < |replies| ==> replies[k].Reply?
    ensures |answer| <= SliceLength ==> replies == [Reply(answer)]
    ensures Concat(ReplyTexts(replies)) == answer
    ensures forall k :: 0 <= k < |replies| ==> |replies[k].text| <= SliceLength
    ensures forall k :: 0 <= k < |replies| - 1 ==> |replies[k].text| == SliceLength
    ensures |replies| == ReplyCount(answer)
  {
    if |answer| > SliceLength {
      var slices := SliceAnswer(answer);
      replies := seq(|slices|, k requires 0 <= k < |slices| => Reply(slices[k]));
      RepliesCarry(slices, replies);
    } else {
      replies := [Reply(answer)];
      assert ReplyTexts(replies) == [answer];
      assert Concat([answer]) == answer;
    }
  }

  lemma {:induction false} RepliesCarry(texts: seq<string>, replies: seq<Action>)
    requires |replies| == |texts| && forall k :: 0 <= k < |texts| ==> replies[k] == Reply(texts[k])
    ensures ReplyTexts(replies) == texts
    decreases |texts|
  {
    if texts != [] {
      RepliesCarry(texts[1..], replies[1..]);
    }
  }

  lemma {:induction false} ReplyTextsAppend(a: seq<Action>, b: seq<Action>)
    ensures ReplyTexts(a + b) == ReplyTexts(a) + ReplyTexts(b)
    decreases |a|
  {
    if a == [] {
      assert a + b == b;
    } else {
      var head := if a[0].Reply? then [a[0].text] else [];
      assert (a + b)[0] == a[0] && (a + b)[1..] == a[1..] + b;
      assert ReplyTexts(a + b) == head + ReplyTexts(a[1..] + b);
      ReplyTextsAppend(a[1..], b);
      assert ReplyTexts(a) == head + ReplyTexts(a[1..]);
    }
  }

  /** Replies of full length carry 4000 characters each. */
  lemma {:induction false} FullRepliesLength(replies: seq<Action>)
    requires forall k :: 0 <= k < |replies| ==> replies[k].Reply? && |replies[k].text| == SliceLength
    ensures |Concat(ReplyTexts(replies))| == |replies| * SliceLength
    decreases |replies|
  {
    if replies != [] {
      FullRepliesLength(replies[1..]);
      assert ReplyTexts(replies) == [replies[0].text] + ReplyTexts(replies[1..]);
    }
  }

  /** The replies before the `at`-th carry the answer's first `at * 4000` characters. */
  lemma SentPrefix(replies: seq<Action>, answer: string, at: nat)
    requires forall k :: 0 <= k < |replies| ==> replies[k].Reply?
    requires forall k :: 0 <= k < |replies| - 1 ==> |replies[k].text| == SliceLength
    requires Concat(ReplyTexts(replies)) == answer && at < |replies|
    ensures Concat(ReplyTexts(replies[..at])) == Take(answer, at * SliceLength)
  {
    var pre, post := replies[..at], replies[at..];
    assert replies == pre + post;
    ReplyTextsAppend(pre, post);
    ConcatJoin(ReplyTexts(pre), ReplyTexts(post));
    FullRepliesLength(pre);
    assert answer == Concat(ReplyTexts(pre)) + Concat(ReplyTexts(post));
  }

  /** `reply_text` raising: the `at`-th reply of the `try` block (counting from 0) fails with
      `error`, and the `except` block answers the failure instead. */
  datatype SendFault = SendFault(at: nat, error: string)

  const ConnectionFailed: string := "Connection to Aether Core failed: "

  /** Whether the send fault strikes among `count` replies. */
  predicate SendRaises(sendFault: Option<SendFault>, count: nat) {
    sendFault.Some? && sendFault.value.at < count
  }

  /** `handle_message`: an unauthorised sender gets nothing at all. Otherwise the bot shows it
      is typing and replies with the answer, the core's error message, the HTTP status, or the
      connection failure. A reply that raises inside the `try` block ends the replies there: the
      ones before it stay sent, and the failure is answered instead. */
  method HandleMessage(allowedUser: Option<string>, userId: string, outcome: CoreOutcome, sendFault: Option<SendFault>)
    returns (actions: seq<Action>)
    ensures !Authorised(allowedUser, userId) ==> actions == []
    ensures Authorised(allowedUser, userId) ==> |actions| >= 2 && actions[0] == Typing
    ensures Authorised(allowedUser, userId) && outcome.Unreachable? ==>
      actions == [Typing, Reply(ConnectionFailed + outcome.error)]
    ensures Authorised(allowedUser, userId) && outcome.Answered? && outcome.code != 200 ==>
      actions == [Typing, Reply(if SendRaises(sendFault, 1) then ConnectionFailed + sendFault.value.error
                                else "System Offline. HTTP: " + Decimal(outcome.code))]
    ensures Authorised(allowedUser, userId) && outcome.Answered? && outcome.code == 200 && outcome.status != Some("success") ==>
      actions == [Typing, Reply(if SendRaises(sendFault, 1) then ConnectionFailed + sendFault.value.error
                                else "Core Error: " + outcome.message.GetOr("None"))]
    ensures Authorised(allowedUser, userId) && outcome.Answered? && outcome.code == 200 && outcome.status == Some("success") ==>
      var answer := outcome.response.GetOr("No response body.");
      && (!SendRaises(sendFault, ReplyCount(answer)) ==>
            (forall k :: 1 <= k < |actions| ==> actions[k].Reply?) && Concat(ReplyTexts(actions[1..])) == answer)
      && (SendRaises(sendFault, ReplyCount(answer)) ==>
            && |actions| == sendFault.value.at + 2
            && actions[|actions| - 1] == Reply(ConnectionFailed + sendFault.value.error)
            && Concat(ReplyTexts(actions[1..|actions| - 1])) == Take(answer, sendFault.value.at * SliceLength))
  {
    if !Authorised(allowedUser, userId) {
      return [];
    }
    var intended: seq<Action>;
    match outcome
    case Unreachable(e) =>
      return [Typing, Reply(ConnectionFailed + e)];
    case Answered(code, status, response, message) =>
      if code != 200 {
        intended := [Reply("System Offline. HTTP: " + Decimal(code))];
      } else if status != Some("success") {
        intended := [Reply("Core Error: " + message.GetOr("None"))];
      } else {
        intended := AnswerReplies(response.GetOr("No response body."));
        if SendRaises(sendFault, |intended|) {
          SentPrefix(intended, response.GetOr("No response body."), sendFault.value.at);
        }
      }
    if SendRaises(sendFault, |intended|) {
      var at := sendFault.value.at;
      actions := [Typing] + intended[..at] + [Reply(ConnectionFailed + sendFault.value.error)];
      assert actions[1..|actions| - 1] == intended[..at];
    } else {
      actions := [Typing] + intended;
      assert actions[1..] == intended;
    }
  }
}

=== FILE: text.dfy ===
/** String helpers shared by the Python and TypeScript parts of the model.
    Strings are sequences of Unicode scalar values. Case mapping covers the Latin letters of
    ASCII, Latin-1 and Latin Extended-A, one character to one character. */
module Text {
  import opened Seqs

  /** Characters Python's `str.strip()` removes (those for which `str.isspace()` holds). */
  predicate PyIsSpace(c: char) {
    c == ' ' || ('\t' <= c <= '\r') || ('\U{1c}' <= c <= '\U{1f}') || c == '\U{85}' || c == '\U{a0}'
    || c == '\U{1680}' || ('\U{2000}' <= c <= '\U{200a}') || c == '\U{2028}' || c == '\U{2029}'
    || c == '\U{202f}' || c == '\U{205f}' || c == '\U{3000}'
  }

  /** Characters JavaScript's `String.prototype.trim()` removes. */
  predicate JsIsSpace(c: char) {
    c == ' ' || ('\t' <= c <= '\r') || c == '\U{a0}' || c == '\U{1680}' || ('\U{2000}' <= c <= '\U{200a}')
    || c == '\U{2028}' || c == '\U{2029}' || c == '\U{202f}' || c == '\U{205f}' || c == '\U{3000}'
    || c == '\U{feff}'
  }

  /** `s` without its leading characters that satisfy `ws`. */
  function StripLeft(s: string, ws: char -> bool): (r: string)
    ensures |r| <= |s| && r == s[|s| - |r|..]
    ensures forall k :: 0 <= k < |s| - |r| ==> ws(s[k])
    ensures |r| > 0 ==> !ws(r[0])
  {
    if |s| > 0 && ws(s[0]) then StripLeft(s[1..], ws) else s
  }

  /** `s` without its trailing characters that satisfy `ws`. */
  function StripRight(s: string, ws: char -> bool): (r: string)
    ensures |r| <= |s| && r == s[..|r|]
    ensures forall k :: |r| <= k < |s| ==> ws(s[k])
    ensures |r| > 0 ==> !ws(r[|r| - 1])
  {
    if |s| > 0 && ws(s[|s| - 1]) then StripRight(s[..|s| - 1], ws) else s
  }

  /** `s` with whitespace (as `ws` defines it) removed from both ends; `StripFacts` states what
      that means. */
  function Strip(s: string, ws: char -> bool): (r: string)
    ensures |r| <= |s|
  {
    StripRight(StripLeft(s, ws), ws)
  }

  /** The stripped string is a piece of the original with no whitespace at either end, and it
      is empty exactly when the original is all whitespace. */
  lemma StripFacts(s: string, ws: char -> bool)
    ensures exists i :: OccursAt(s, Strip(s, ws), i)
    ensures |Strip(s, ws)| > 0 ==> !ws(Strip(s, ws)[0]) && !ws(Strip(s, ws)[|Strip(s, ws)| - 1])
    ensures (forall k :: 0 <= k < |s| ==> ws(s[k])) <==> Strip(s, ws) == []
  {
    StripSlice(s, ws, StripLeft(s, ws));
    assert OccursAt(s, Strip(s, ws), |s| - |StripLeft(s, ws)|);
  }

  lemma StripSlice(s: string, ws: char -> bool, l: string)
    requires l == StripLeft(s, ws)
    ensures OccursAt(s, StripRight(l, ws), |s| - |l|)
    ensures (forall k :: 0 <= k < |s| ==> ws(s[k])) <==> StripRight(l, ws) == []
  {
    var r := StripRight(l, ws);
    SliceOfSuffix(s, l, r);
    if r != [] {
      HeadOfSlice(s, r, |s| - |l|);
    }
  }

  lemma SliceOfSuffix(s: string, l: string, r: string)
    requires |l| <= |s| && l == s[|s| - |l|..]
    requires |r| <= |l| && r == l[..|r|]
    ensures OccursAt(s, r, |s| - |l|)
  {
  }

  lemma HeadOfSlice(s: string, r: string, i: int)
    requires OccursAt(s, r, i) && |r| > 0
    ensures s[i] == r[0]
  {
  }

  /** Python's `str.strip()` with no arguments. */
  function PyStrip(s: string): string {
    Strip(s, PyIsSpace)
  }

  /** JavaScript's `trim()`. */
  function JsTrim(s: string): string {
    Strip(s, JsIsSpace)
  }

  predicate StartsWith(s: string, prefix: string) {
    |prefix| <= |s| && s[..|prefix|] == prefix
  }

  predicate EndsWith(s: string, suffix: string) {
    |suffix| <= |s| && s[|s| - |suffix|..] == suffix
  }

  lemma StartsWithSelf(s: string)
    ensures StartsWith(s, s)
  {
    assert s[..|s|] == s;
  }

  lemma StartsWithConcat(p: string, s: string)
    ensures StartsWith(p + s, p)
  {
    assert (p + s)[..|p|] == p;
  }

  lemma StartsWithTrans(s: string, p: string, q: string)
    requires StartsWith(s, p) && StartsWith(p, q)
    ensures StartsWith(s, q)
  {
    assert s[..|q|] == s[..|p|][..|q|];
  }

  lemma EndsWithConcat(s: string, q: string)
    ensures EndsWith(s + q, q)
  {
    assert (s + q)[|s|..] == q;
  }

  /** Strings that share a prefix and then differ in the next character do not start alike. */
  lemma DivergeAfter(b: string, x: string, y: string)
    requires |x| > 0 && |y| > 0 && x[0] != y[0]
    ensures !StartsWith(b + x, b + y)
  {
    assert (b + x)[|b|] == x[0];
    assert (b + y)[|b|] == y[0];
  }

  /** `sub` occurs in `s` starting at position `i`. */
  predicate OccursAt(s: string, sub: string, i: int) {
    0 <= i && i + |sub| <= |s| && s[i..i + |sub|] == sub
  }

  /** Python's `sub in s`, JavaScript's `s.includes(sub)`. */
  predicate Contains(s: string, sub: string) {
    exists i :: 0 <= i <= |s| - |sub| && OccursAt(s, sub, i)
  }

  lemma OccursAtConcat(a: string, b: string, c: string)
    ensures OccursAt(a + b + c, b, |a|)
  {
    assert (a + b + c)[|a|..|a| + |b|] == b;
  }

  lemma PrefixContained(s: string, sub: string)
    requires StartsWith(s, sub)
    ensures Contains(s, sub)
  {
    assert OccursAt(s, sub, 0);
  }

  /** The capital letters of Basic Latin, Latin-1 and Latin Extended-A (which hold every Polish
      letter) that lower-case to a single character. 'İ' (U+0130) is left out: Python lower-cases
      it to two characters. */
  predicate IsUpper(c: char) {
    || 'A' <= c <= 'Z'
    || ('\U{C0}' <= c <= '\U{DE}' && c != '\U{D7}')
    || ('\U{100}' <= c <= '\U{137}' && c != '\U{130}' && c as int % 2 == 0)
    || ('\U{139}' <= c <= '\U{148}' && c as int % 2 == 1)
    || ('\U{14A}' <= c <= '\U{177}' && c as int % 2 == 0)
    || c == '\U{178}'
    || ('\U{179}' <= c <= '\U{17E}' && c as int % 2 == 1)
  }

  /** A capital's lower-case partner (`'Ł'` becomes `'ł'`); every other character is kept. */
  function LowerChar(c: char): (l: char)
    ensures !IsUpper(c) ==> l == c
    ensures 'A' <= c <= 'Z' ==> l as int == c as int + 32
  {
    if 'A' <= c <= 'Z' || ('\U{C0}' <= c <= '\U{DE}' && c != '\U{D7}') then (c as int + 32) as char
    else if c == '\U{178}' then '\U{FF}'
    else if IsUpper(c) then (c as int + 1) as char
    else c
  }

  /** The inverse partner of `LowerChar` on the same letters; every other character is kept. */
  function UpperChar(c: char): (u: char)
    ensures 'a' <= c <= 'z' ==> u as int == c as int - 32
  {
    if 'a' <= c <= 'z' || ('\U{E0}' <= c <= '\U{FE}' && c != '\U{F7}') then (c as int - 32) as char
    else if c == '\U{FF}' then '\U{178}'
    else if '\U{101}' <= c <= '\U{17E}' && IsUpper((c as int - 1) as char) then (c as int - 1) as char
    else c
  }

  /** Each capital has its own lower-case partner, which is no capital and upper-cases back. */
  lemma CasePartners(c: char)
    requires IsUpper(c)
    ensures LowerChar(c) != c && !IsUpper(LowerChar(c)) && UpperChar(LowerChar(c)) == c
  {
  }

  /** Lower-casing (`lower()`, `toLowerCase()`) of the capitals `IsUpper` names. */
  function Lower(s: string): (r: string)
    ensures |r| == |s|
    ensures forall k :: 0 <= k < |s| ==> r[k] == LowerChar(s[k])
  {
    if s == [] then [] else [LowerChar(s[0])] + Lower(s[1..])
  }

  /** Lower-casing leaves a string without capitals as it is. */
  lemma LowerOfLower(s: string)
    requires forall k :: 0 <= k < |s| ==> !IsUpper(s[k])
    ensures Lower(s) == s
  {
  }

  /** Names that differ only in the case of Polish letters lower-case alike. */
  lemma PolishCaseFolds()
    ensures Lower("\U{141}\U{D3}D\U{179}") == Lower("\U{142}\U{F3}d\U{17A}") == "\U{142}\U{F3}d\U{17A}"
  {
    assert LowerChar('\U{141}') == '\U{142}';
    assert LowerChar('\U{D3}') == '\U{F3}';
    assert LowerChar('\U{179}') == '\U{17A}';
    assert LowerChar('\U{142}') == '\U{142}';
    assert LowerChar('\U{F3}') == '\U{F3}';
    assert LowerChar('\U{17A}') == '\U{17A}';
  }

  /** Python's `str.capitalize()`: first character upper-case, the rest lower-case. */
  function Capitalize(s: string): (r: string)
    ensures |r| == |s|
    ensures |s| > 0 ==> r[0] == UpperChar(s[0]) && r[1..] == Lower(s[1..])
  {
    if s == [] then [] else [UpperChar(s[0])] + Lower(s[1..])
  }

  /** Python's slice `s[:n]` for `n >= 0`: the first `n` characters, or all of `s` when shorter. */
  function Take(s: string, n: nat): (r: string)
    ensures |r| <= n && |r| <= |s|
    ensures r == s[..|r|]
    ensures |s| <= n ==> r == s
    ensures n <= |s| ==> |r| == n
  {
    if |s| <= n then s else s[..n]
  }

  /** Python's `s.replace(pat, "")`: every non-overlapping occurrence of `pat`, scanned from the left, removed. */
  function RemoveAll(s: string, pat: string): (r: string)
    requires |pat| > 0
    ensures |r| <= |s|
    decreases |s|
  {
    if StartsWith(s, pat) then RemoveAll(s[|pat|..], pat)
    else if s == [] then []
    else [s[0]] + RemoveAll(s[1..], pat)
  }

  /** `s` with no occurrence of `pat` is left as it is by `RemoveAll`. */
  lemma {:induction false} RemoveAllAbsent(s: string, pat: string)
    requires |pat| > 0
    requires !Contains(s, pat)
    ensures RemoveAll(s, pat) == s
    decreases |s|
  {
    if StartsWith(s, pat) {
      PrefixContained(s, pat);
    } else if s != [] {
      if Contains(s[1..], pat) {
        var i :| 0 <= i <= |s[1..]| - |pat| && OccursAt(s[1..], pat, i);
        assert s[i + 1..i + 1 + |pat|] == s[1..][i..i + |pat|];
        assert OccursAt(s, pat, i + 1);
      }
      RemoveAllAbsent(s[1..], pat);
    }
  }

  /** Python's `sep.join(parts)`, JavaScript's `parts.join(sep)`. */
  function Join(sep: string, parts: seq<string>): string {
    if parts == [] then "" else if |parts| == 1 then parts[0] else parts[0] + sep + Join(sep, parts[1..])
  }

  /** `Join` puts every part in the result. */
  lemma {:induction false} JoinContains(sep: string, parts: seq<string>, k: int)
    requires 0 <= k < |parts|
    ensures Contains(Join(sep, parts), parts[k])
    decreases |parts|
  {
    if |parts| == 1 {
      assert OccursAt(Join(sep, parts), parts[k], 0);
    } else if k == 0 {
      assert OccursAt(parts[0] + sep + Join(sep, parts[1..]), parts[0], 0);
    } else {
      JoinContains(sep, parts[1..], k - 1);
      var rest := Join(sep, parts[1..]);
      var i :| 0 <= i <= |rest| - |parts[k]| && OccursAt(rest, parts[k], i);
      var pre := parts[0] + sep;
      assert Join(sep, parts) == pre + rest;
      assert (pre + rest)[|pre| + i..|pre| + i + |parts[k]|] == rest[i..i + |parts[k]|];
      assert OccursAt(Join(sep, parts), parts[k], |pre| + i);
    }
  }

  /** The character of a decimal digit. */
  function DigitChar(d: nat): (c: char)
    requires d < 10
    ensures '0' <= c <= '9' && c as int - '0' as int == d
  {
    ('0' as int + d) as char
  }

  /** Python's `str(n)` for a non-negative integer. */
  function Decimal(n: nat): (r: string)
    ensures |r| > 0
    ensures forall k :: 0 <= k < |r| ==> '0' <= r[k] <= '9'
    decreases n
  {
    if n < 10 then [DigitChar(n)] else Decimal(n / 10) + [DigitChar(n % 10)]
  }

  /** The number a string of decimal digits denotes (`int(s)`). */
  function DigitsValue(s: string): int
    decreases |s|
  {
    if s == [] then 0 else DigitsValue(s[..|s| - 1]) * 10 + (s[|s| - 1] as int - '0' as int)
  }

  /** `int(str(n)) == n`, and the rendering has no leading zero. */
  lemma {:induction false} DecimalRoundTrip(n: nat)
    ensures DigitsValue(Decimal(n)) == n
    ensures Decimal(n)[0] == '0' ==> n == 0
    decreases n
  {
    if n >= 10 {
      DecimalRoundTrip(n / 10);
      var r := Decimal(n);
      assert r[..|r| - 1] == Decimal(n / 10);
      assert r[0] == Decimal(n / 10)[0];
    }
  }

  /** Part `k` of a concatenation following a prefix occurs right after the prefix and the
      parts before it. */
  lemma PartOccurs(pre: string, parts: seq<string>, k: int)
    requires 0 <= k < |parts|
    ensures OccursAt(pre + Concat(parts), parts[k], |pre| + |Concat(parts[..k])|)
  {
    ConcatAt(parts, k);
    var j := |Concat(parts[..k])|;
    assert (pre + Concat(parts))[|pre| + j..|pre| + j + |parts[k]|] == Concat(parts)[j..j + |parts[k]|];
  }

  lemma ContainsAfter(a: string, b: string, sub: string)
    requires Contains(b, sub)
    ensures Contains(a + b, sub)
  {
    var i :| 0 <= i <= |b| - |sub| && OccursAt(b, sub, i);
    assert (a + b)[|a| + i..|a| + i + |sub|] == b[i..i + |sub|];
    assert OccursAt(a + b, sub, |a| + i);
  }

  lemma ContainsBefore(a: string, b: string, sub: string)
    requires Contains(a, sub)
    ensures Contains(a + b, sub)
  {
    var i :| 0 <= i <= |a| - |sub| && OccursAt(a, sub, i);
    assert (a + b)[i..i + |sub|] == a[i..i + |sub|];
    assert OccursAt(a + b, sub, i);
  }

  /** A string framed by a prefix and a non-empty suffix starts and ends with them and is longer
      than the prefix. */
  lemma Framed(pre: string, mid: string, post: string)
    requires |post| > 0
    ensures StartsWith(pre + mid + post, pre) && EndsWith(pre + mid + post, post) && pre + mid + post != pre
  {
    assert (pre + mid + post)[..|pre|] == pre;
    assert (pre + mid + post)[|pre + mid|..] == post;
    assert |pre + mid + post| > |pre|;
  }
}

=== FILE: thread_builder.dfy ===
/** The reply-tree builder of the debate orchestration loop
    (example/backend/app/services/orchestrator_service.py, lines 61-90): an ordered list of
    generated replies plus the outcome of each message insert becomes a list of parent links. */
module ThreadBuilder {
  import opened Wrappers
  import opened DebateSchema

  type Id = string

  /** The position whose message becomes the parent of the reply at position `i`:
      the generator's `parentIndex` when it points strictly backwards, otherwise the
      previous reply, and nothing for the first reply. */
  function ParentPosition(i: nat, parentIndex: Option<int>): (r: Option<nat>)
    ensures r.None? <==> i == 0
    ensures r.Some? ==> r.value < i
    ensures parentIndex.Some? && 0 <= parentIndex.value < i ==> r == Some(parentIndex.value)
    ensures i > 0 && !(parentIndex.Some? && 0 <= parentIndex.value < i) ==> r == Some(i - 1)
  {
    if parentIndex.Some? && 0 <= parentIndex.value < i then Some(parentIndex.value)
    else if i > 0 then Some(i - 1)
    else None
  }

  /** The id the store returned for the insert at position `i`; `None` when it returned no row. */
  function OutcomeAt(inserted: seq<Option<Id>>, i: nat): Option<Id> {
    if i < |inserted| then inserted[i] else None
  }

  /** The parent id stored with the reply at position `i`, given the ids created before it. */
  function LinkOf(created: seq<Option<Id>>, i: nat, parentIndex: Option<int>): Option<Id>
    requires i <= |created|
  {
    match ParentPosition(i, parentIndex)
    case None => None
    case Some(p) => created[p]
  }

  /** The builder loop. `created` gets exactly one entry per reply (the new id, or `None`
      for a failed insert, so that positions stay aligned), and each reply's parent is the
      id created at its parent position. */
  method BuildLinks(replies: seq<AgentMessage>, inserted: seq<Option<Id>>)
    returns (created: seq<Option<Id>>, parents: seq<Option<Id>>)
    ensures |created| == |replies| && |parents| == |replies|
    ensures forall i :: 0 <= i < |replies| ==> created[i] == OutcomeAt(inserted, i)
    ensures forall i :: 0 <= i < |replies| ==> parents[i] == LinkOf(created, i, replies[i].parentIndex)
  {
    created := [];
    parents := [];
    var i := 0;
    while i < |replies|
      invariant 0 <= i <= |replies|
      invariant |created| == i && |parents| == i
      invariant forall k :: 0 <= k < i ==> created[k] == OutcomeAt(inserted, k)
      invariant forall k :: 0 <= k < i ==> parents[k] == LinkOf(created, k, replies[k].parentIndex)
    {
      var parentIndex := replies[i].parentIndex;
      var parent: Option<Id> := None;
      if parentIndex.Some? && 0 <= parentIndex.value < |created| {
        parent := created[parentIndex.value];
      } else if i > 0 {
        parent := created[i - 1];
      }
      parents := parents + [parent];
      created := created + [OutcomeAt(inserted, i)];
      i := i + 1;
    }
  }

  /** The positions met by walking parent links from `i`: they strictly decrease and always
      end at the first reply, so the links are acyclic and every reply is connected to
      the single root at position 0. */
  function AncestorChain(replies: seq<AgentMessage>, i: nat): (chain: seq<nat>)
    requires i < |replies|
    ensures |chain| >= 1 && chain[0] == i && chain[|chain| - 1] == 0
    ensures forall k :: 0 <= k < |chain| ==> chain[k] <= i
    ensures forall k :: 0 <= k < |chain| - 1 ==> chain[k + 1] < chain[k]
    ensures forall k :: 0 <= k < |chain| - 1 ==>
      ParentPosition(chain[k], replies[chain[k]].parentIndex) == Some(chain[k + 1])
    decreases i
  {
    match ParentPosition(i, replies[i].parentIndex)
    case None => [i]
    case Some(p) => [i] + AncestorChain(replies, p)
  }

  /** No reply is its own ancestor. */
  lemma {:induction false} NoCycle(replies: seq<AgentMessage>, i: nat, k: nat)
    requires i < |replies|
    requires 0 < k < |AncestorChain(replies, i)|
    ensures AncestorChain(replies, i)[k] < i
  {
    var chain := AncestorChain(replies, i);
    if k > 1 {
      NoCycle(replies, i, k - 1);
    }
    assert chain[k] < chain[k - 1];
  }

  /** When every insert returns an id, every reply after the first gets a non-null parent
      that was created strictly earlier: the stored thread is one tree. */
  lemma ConnectedWhenInsertsSucceed(replies: seq<AgentMessage>, created: seq<Option<Id>>, parents: seq<Option<Id>>, i: nat)
    requires |created| == |replies| && |parents| == |replies|
    requires forall k :: 0 <= k < |replies| ==> parents[k] == LinkOf(created, k, replies[k].parentIndex)
    requires forall k :: 0 <= k < |created| ==> created[k].Some?
    requires 0 < i < |replies|
    ensures parents[i].Some?
    ensures exists p :: 0 <= p < i && parents[i] == created[p]
  {
    var p := ParentPosition(i, replies[i].parentIndex).value;
    assert parents[i] == created[p];
  }

  /** A failed insert at a valid parent position leaves a later reply without a parent,
      so a stored thread is a single tree only when the inserts succeed. */
  lemma FailedParentInsertOrphans(created: seq<Option<Id>>, i: nat, parentIndex: Option<int>)
    requires i <= |created|
    ensures LinkOf(created, i, parentIndex) == None <==>
      i == 0 || created[ParentPosition(i, parentIndex).value].None?
    ensures i > 0 && created[ParentPosition(i, parentIndex).value].Some? ==>
      LinkOf(created, i, parentIndex) == created[ParentPosition(i, parentIndex).value]
  {
  }
}

=== FILE: worker.dfy ===
/** The autonomous worker (example/backend/worker.py): a once-a-minute tick that, through a
    daily gate, runs a scout mission, turns the pending scout reports into debates one at a
    time, and stamps the run. The clock reading of each tick and every outside answer are inputs. */
module Worker {
  import opened Wrappers
  import opened Text
  import opened Seqs
  import opened Store
  import opened Settings
  import opened DebateSchema
  import opened Orchestrator
  import ScoutService

  /** The hard-coded mission time, 06:00, in seconds after midnight. */
  const TargetSecond: nat := 6 * 3600
  const AutoStatus: string := "success (auto)"

  /** The daily gate: enabled, at or after 06:00, and no run stamped today or later. The stored
      cron expression is not consulted. */
  predicate ShouldRun(s: SettingsRow, now: DateTime) {
    s.workerEnabled && now.secondOfDay >= TargetSecond && (s.lastRun.None? || s.lastRun.value.day < now.day)
  }

  /** The cron expression has no say in the gate. */
  lemma CronIgnored(s: SettingsRow, now: DateTime, cron: string)
    ensures ShouldRun(s.(cronSchedule := cron), now) == ShouldRun(s, now)
  {
  }

  /** The reports auto-processing picks: pending ones whose title contains "[SCOUT]" in any case. */
  predicate Selected(r: ReportRow) {
    r.status == "pending" && Contains(Lower(r.title), "[scout]")
  }

  function Ids(rs: seq<ReportRow>): (ids: seq<Id>)
    ensures |ids| == |rs|
    ensures forall k :: 0 <= k < |rs| ==> ids[k] == rs[k].id
  {
    if rs == [] then [] else [rs[0].id] + Ids(rs[1..])
  }

  /** The ids of the selected reports, in table order. */
  function SelectedIds(reports: seq<ReportRow>): (ids: seq<Id>)
    ensures forall k :: 0 <= k < |reports| && Selected(reports[k]) ==> reports[k].id in ids
    ensures forall i :: 0 <= i < |ids| ==> exists k :: 0 <= k < |reports| && Selected(reports[k]) && reports[k].id == ids[i]
  {
    var chosen := Filter(reports, Selected);
    var ids := Ids(chosen);
    forall k | 0 <= k < |reports| && Selected(reports[k]) ensures reports[k].id in ids {
      var j :| 0 <= j < |chosen| && chosen[j] == reports[k];
      assert ids[j] == reports[k].id;
    }
    forall i | 0 <= i < |ids| ensures exists k :: 0 <= k < |reports| && Selected(reports[k]) && reports[k].id == ids[i] {
      var k :| 0 <= k < |reports| && reports[k] == chosen[i];
    }
    ids
  }

  /** The outside answers for the run of the `k`-th selected report: the minted debate id,
      the retrieval context, the generator, the store faults of the run, and the store call of
      identity resolution that raised, if any. */
  datatype RunInput = RunInput(newId: Id, rag: Result<string>, generate: string -> Result<DebateResult>,
                               faults: Faults, resolveFault: Option<ResolveFault>)

  /** The tables after one report, and whether an exception escaped (which ends the batch). */
  datatype Handled = Handled(db: Db, raised: bool)

  /** One report of the batch: identity resolution, then the full run without web research.
      An exception escapes from a resolution store call that raised, or from a run whose
      error handler's own update raised; what was committed before stays. */
  function ProcessOne(db: Db, reportId: Id, inp: RunInput): (h: Handled)
    ensures |h.db.reports| == |db.reports|
    ensures forall k :: 0 <= k < |db.reports| && db.reports[k].id != reportId ==> h.db.reports[k] == db.reports[k]
    ensures h.raised <==>
      var c := ResolveIdentity(db, reportId, inp.newId, false, inp.resolveFault);
      c.error.Some? ||
      (c.job.Some? && ProcessDebateStream(c.db, c.job.value, inp.rag, Ok([]), inp.generate, inp.faults).outcome.Crashed?)
    ensures h.raised && ResolveIdentity(db, reportId, inp.newId, false, inp.resolveFault).error.Some? ==>
      h.db == ResolveIdentity(db, reportId, inp.newId, false, inp.resolveFault).db
  {
    var c := ResolveIdentity(db, reportId, inp.newId, false, inp.resolveFault);
    match c.job
    case None => Handled(c.db, c.error.Some?)
    case Some(job) =>
      var run := ProcessDebateStream(c.db, job, inp.rag, Ok([]), inp.generate, inp.faults);
      Handled(run.db, run.outcome.Crashed?)
  }

  /** Reference definition of the batch from position `k` on: reports are handled one after
      the other; an exception escaping from one of them ends the batch. */
  function ProcessFrom(db: Db, ids: seq<Id>, k: nat, runFor: nat -> RunInput): Db
    decreases |ids| - k
  {
    if k >= |ids| then db
    else
      var h := ProcessOne(db, ids[k], runFor(k));
      if h.raised then h.db else ProcessFrom(h.db, ids, k + 1, runFor)
  }

  /** The batch leaves every report it did not select as it was. */
  lemma {:induction false} ProcessFromKeepsOthers(db: Db, ids: seq<Id>, k: nat, runFor: nat -> RunInput)
    ensures |ProcessFrom(db, ids, k, runFor).reports| == |db.reports|
    ensures forall j :: 0 <= j < |db.reports| && db.reports[j].id !in ids ==>
      ProcessFrom(db, ids, k, runFor).reports[j] == db.reports[j]
    decreases |ids| - k
  {
    if k < |ids| && !ProcessOne(db, ids[k], runFor(k)).raised {
      var next := ProcessOne(db, ids[k], runFor(k)).db;
      ProcessFromKeepsOthers(next, ids, k + 1, runFor);
    }
  }

  /** `auto_process_reports`: the selection is read once, then each selected report is
      processed to completion before the next one starts. The loop stops after the first
      report whose processing raised; `handled` counts the reports it got to. */
  method AutoProcessReports(db: Db, runFor: nat -> RunInput) returns (r: Db, handled: nat)
    ensures r == ProcessFrom(db, SelectedIds(db.reports), 0, runFor)
    ensures handled <= |SelectedIds(db.reports)|
    ensures |r.reports| == |db.reports|
    ensures forall j :: 0 <= j < |db.reports| && db.reports[j].id !in SelectedIds(db.reports) ==>
      r.reports[j] == db.reports[j]
  {
    var ids := SelectedIds(db.reports);
    ProcessFromKeepsOthers(db, ids, 0, runFor);
    r := db;
    handled := 0;
    var stopped := false;
    while handled < |ids| && !stopped
      invariant handled <= |ids|
      invariant !stopped ==> ProcessFrom(r, ids, handled, runFor) == ProcessFrom(db, ids, 0, runFor)
      invariant stopped ==> r == ProcessFrom(db, ids, 0, runFor)
      decreases |ids| - handled
    {
      var h := ProcessOne(r, ids[handled], runFor(handled));
      r := h.db;
      handled := handled + 1;
      stopped := h.raised;
    }
  }

  /** A raising report ends the batch: the reports after it are not touched. */
  lemma {:induction false} RaiseEndsBatch(db: Db, ids: seq<Id>, runFor: nat -> RunInput)
    requires |ids| > 0 && ProcessOne(db, ids[0], runFor(0)).raised
    ensures ProcessFrom(db, ids, 0, runFor) == ProcessOne(db, ids[0], runFor(0)).db
  {
  }

  /** The function form of the batch, used by the tick. */
  function AutoProcess(db: Db, runFor: nat -> RunInput): Db {
    ProcessFrom(db, SelectedIds(db.reports), 0, runFor)
  }

  datatype World = World(settings: SettingsTable, db: Db)

  /** The outside answers a tick may need: those of the mission and of each batch run, and the
      clock reading `update_last_run` takes once the mission and the batch are over. */
  datatype TickInput = TickInput(mission: ScoutService.MissionInputs, runFor: nat -> RunInput, finishedAt: DateTime)

  datatype TickResult = TickResult(world: World, ran: bool)

  /** One tick of the loop: read the settings; if the gate is open run the mission, then the
      batch, then stamp the run as "success (auto)" over whatever the mission recorded, with
      the time the stamp is written rather than the time the tick started. */
  function Tick(w: World, now: DateTime, inp: TickInput): (t: TickResult)
    ensures t.ran <==> ShouldRun(GetSettings(w.settings), now)
    ensures !t.ran ==> t.world == w
    ensures t.world.settings.online == w.settings.online && t.world.settings.row.Some? == w.settings.row.Some?
    ensures t.ran && w.settings.online && w.settings.row.Some? ==>
      t.world.settings.row.value.lastRun == Some(inp.finishedAt) && t.world.settings.row.value.lastRunStatus == AutoStatus &&
      t.world.settings.row.value.workerEnabled == w.settings.row.value.workerEnabled
  {
    if !ShouldRun(GetSettings(w.settings), now) then TickResult(w, false)
    else
      var m := ScoutService.ExecuteScoutMission(w.settings, w.db, now, inp.mission);
      var db := AutoProcess(m.db, inp.runFor);
      TickResult(World(UpdateLastRun(m.settings, inp.finishedAt, AutoStatus), db), true)
  }

  /** With the worker switched off in a readable settings row, no tick runs a mission. */
  lemma DisabledNeverRuns(w: World, now: DateTime, inp: TickInput)
    requires w.settings.online && w.settings.row.Some? && !w.settings.row.value.workerEnabled
    ensures !Tick(w, now, inp).ran
  {
  }

  /** After a mission, no later tick of the same day runs another one (the clock does not run
      backwards while the mission and the batch run). */
  lemma NoSecondRunSameDay(w: World, now: DateTime, later: DateTime, inp: TickInput, inp2: TickInput)
    requires w.settings.online && w.settings.row.Some?
    requires ShouldRun(GetSettings(w.settings), now) && later.day == now.day && inp.finishedAt.day >= now.day
    ensures !Tick(Tick(w, now, inp).world, later, inp2).ran
  {
  }

  /** A tick at or after 06:00 on a day after the one the run was stamped on runs again when
      the worker is enabled. */
  lemma NextDayRuns(w: World, now: DateTime, later: DateTime, inp: TickInput, inp2: TickInput)
    requires w.settings.online && w.settings.row.Some? && w.settings.row.value.workerEnabled
    requires ShouldRun(GetSettings(w.settings), now) && later.day > inp.finishedAt.day && later.secondOfDay >= TargetSecond
    ensures Tick(Tick(w, now, inp).world, later, inp2).ran
  {
  }

  /** A run that ends after midnight is stamped with the new day, so that day gets no mission
      of its own: its 06:00 tick finds the gate closed. */
  lemma LateFinishSkipsNextDay(w: World, now: DateTime, later: DateTime, inp: TickInput, inp2: TickInput)
    requires w.settings.online && w.settings.row.Some?
    requires ShouldRun(GetSettings(w.settings), now) && inp.finishedAt.day == now.day + 1 && later.day == now.day + 1
    ensures !Tick(Tick(w, now, inp).world, later, inp2).ran
  {
  }

  /** Number of missions over a sequence of ticks. */
  function MissionCount(w: World, times: seq<DateTime>, inputs: seq<TickInput>): nat
    requires |inputs| == |times|
    decreases |times|
  {
    if times == [] then 0
    else
      var t := Tick(w, times[0], inputs[0]);
      (if t.ran then 1 else 0) + MissionCount(t.world, times[1..], inputs[1..])
  }

  /** Over any sequence of ticks within one calendar day, at most one mission runs, provided
      the settings row exists and can be read and written, and no run is stamped with an
      earlier day than it started on. */
  lemma {:induction false} AtMostOneMissionPerDay(w: World, times: seq<DateTime>, inputs: seq<TickInput>, day: int)
    requires |inputs| == |times|
    requires w.settings.online && w.settings.row.Some?
    requires forall k :: 0 <= k < |times| ==> times[k].day == day
    requires forall k :: 0 <= k < |inputs| ==> inputs[k].finishedAt.day >= day
    ensures MissionCount(w, times, inputs) <= 1
    decreases |times|
  {
    if times != [] {
      var t := Tick(w, times[0], inputs[0]);
      assert MissionCount(w, times, inputs) == (if t.ran then 1 else 0) + MissionCount(t.world, times[1..], inputs[1..]);
      assert t.world.settings.online && t.world.settings.row.Some?;
      if t.ran {
        assert t.world.settings.row.value.lastRun == Some(inputs[0].finishedAt);
        NoMissionAfterStamp(t.world, times[1..], inputs[1..], day);
      } else {
        AtMostOneMissionPerDay(t.world, times[1..], inputs[1..], day);
      }
    }
  }

  /** Once the run of `day` is stamped, no tick of that day runs. */
  lemma {:induction false} NoMissionAfterStamp(w: World, times: seq<DateTime>, inputs: seq<TickInput>, day: int)
    requires |inputs| == |times|
    requires w.settings.online && w.settings.row.Some?
    requires w.settings.row.value.lastRun.Some? && w.settings.row.value.lastRun.value.day >= day
    requires forall k :: 0 <= k < |times| ==> times[k].day == day
    ensures MissionCount(w, times, inputs) == 0
    decreases |times|
  {
    if times != [] {
      NoMissionAfterStamp(w, times[1..], inputs[1..], day);
    }
  }

  /** Without a settings row the gate never closes: the defaults carry no last run and the
      stamp has no row to land in, so every tick after 06:00 runs a mission. */
  lemma MissingRowRunsEveryTick(w: World, now: DateTime, later: DateTime, inp: TickInput, inp2: TickInput)
    requires w.settings.row.None?
    requires now.secondOfDay >= TargetSecond && later.secondOfDay >= TargetSecond
    ensures Tick(w, now, inp).ran && Tick(Tick(w, now, inp).world, later, inp2).ran
  {
  }

  /** A mission started by hand also stamps the settings, so it closes the worker's gate for the
      day the stamp is written on and every day before it: one that finishes after midnight also
      takes the next morning's run. */
  lemma ManualMissionClosesGate(w: World, now: DateTime, later: DateTime, inp: ScoutService.MissionInputs)
    requires w.settings.online && w.settings.row.Some? && later.day <= inp.finishedAt.day
    ensures !ShouldRun(GetSettings(ScoutService.ExecuteScoutMission(w.settings, w.db, now, inp).settings), later)
  {
  }
}

=== FILE: wrappers.dfy ===
/** Option and Result, the two failure-carrying shapes the model uses in place of
    Python's None and raised exceptions. */
module Wrappers {

  /** A value that may be absent: Python's `None`, a missing dict key, a JS `null`. */
  datatype Option<+T> = None | Some(value: T) {

    /** The wrapped value, or `default` when absent (Python's `x or default` for non-empty values). */
    function GetOr(default: T): T {
      match this
      case Some(v) => v
      case None => default
    }
  }

  /** The outcome of a call that may raise: `Ok` carries the value, `Err` the exception text. */
  datatype Result<+R> = Ok(value: R) | Err(error: string)
}
